=== FILE: README.md ===
# atea-ts graphics bookkeeping, material storage and player input, in Dafny

This project models the parts of the atea-ts engine (a TypeScript WebGPU
game engine) that keep the world's renderable state consistent from frame
to frame. Each part below is a Dafny module:

- **StorageBuffers** (`storage_buffer.dfy`) models the `StorageBuffer`.
  - It is one GPU buffer of fixed-width instance slots, addressed by ids from 1.
  - Ids are recycled from a freed list.
  - The buffer grows by half when an id does not fit.
  - `storage_material.ts` carries a second copy of this class, in lines 1-95. It is identical and is modelled once.
- **MaterialRegistry** (`storage_material.dfy`) models `StorageMaterial`.
  - There is one shared buffer per material class, created on first use.
  - A constructed instance reserves its id at once.
  - Its bytes are written later, by the deferred `write()`.
  - The garbage collector's finalization frees the id.
- **Materials** (`materials.dfy`) covers the five storage materials: Debug, Solid, Water, Planet and Sky.
  - It models their constructors' colour normalisation.
  - It models the `Uint32Array` words their `toArrayBuffer()` produces.
  - **Bytes** (`bytes.dfy`) gives the little-endian byte image of those words.
- **WorldGraphics** is split into several modules:
  - **Resources** (`resources.dfy`) is the resource registry.
  - **GraphicsState** (`graphics_state.dfy`) holds every map the class keeps, and the material resolution.
  - **MeshPass** (`mesh_pass.dfy`) is `updateMeshes`: one instance slot per entity, in a per-mesh instance table (**MeshInstances**, `mesh_instances.dfy`), under one shared pawn per mesh. Stale entities are removed.
  - **WorldPasses** (`world_passes.dfy`) covers the camera, light, debug-pawn, particle, decor and terrain passes.
  - **TerrainStreaming** (`terrain.dfy`) is the chunk queue, batched generation and bounded eviction.
  - **WorldUpdate** (`world_update.dfy`) composes the passes in the order `update` runs them. A frame ends early on a missing resource, or on the TypeError `updateDebug` throws when the first player has no velocity.
  - The Scene and the ECS World appear only through what the graphics layer reads and writes. That is modelled in **Scenes** (`scene.dfy`) and **Ecs** (`ecs.dfy`).
- **PlayerInput** (`player_input.dfy`) models `PlayerInputSystem`.
  - Keyboard events go through the bindings into the pressed and held maps.
  - Gamepad polling uses edge detection on button values.
  - Ship mode toggling, follow-camera cycling and the mesh-variant morph are modelled.
- **ShipMeshes** (`ship_mesh.dfy`) covers the ship hulls.
  - The triangle hull `buildNGon` emits.
  - The index-based vertex colouring of the planet and landscape ships.
  - The planet ship's three mode variants.

JavaScript's own arithmetic is written out in **JsNumbers** (`js_numbers.dfy`):
- `ToUint32`/`ToInt32`;
- `x | 0`, `%` and `/ b | 0` truncating toward zero;
- `1 << n`;
- `Number(bigint)` rounding.

**Seqs** (`seqs.dfy`) holds sequence facts, and **Wrappers** (`wrappers.dfy`) holds `Option` and `Result`.

A frame is the graphics state paired with the Scene it draws into. It is well-formed (`WorldUpdate.FrameValid`) when three things hold:
- every pawn id lies below the Scene's pawn counter, so the next id is fresh;
- every tracked camera is listed exactly once in the Scene's camera list, and nothing else is;
- the terrain queue and active keys repeat nothing, and no key is both queued and active.

The rows below that say "keeps the frame well-formed" mean this.

Several things the source leaves to the host are explicit parameters of the model:
- a thrown exception is an `Err` or the `error` field of an outcome;
- `setTimeout` and the garbage collector's finalization are explicit steps;
- the colour helpers of `engine/color.ts` are a `ColorCodec` parameter;
- the document's focus and the gamepad list are parameters of the polling functions.

## Model

| member | source | states |
|---|---|---|
| StorageBuffers.GrownCapacity | src/engine/storage_buffer.ts:59-61 | the grown capacity is the least integer not below 1.5 times the old one (`Math.ceil(c * 1.5)`) |
| StorageBuffers.Resize | src/engine/storage_buffer.ts:38-55 | a resize to the current capacity changes nothing; otherwise a GPU buffer now exists with the requested capacity, keeps the bytes of the common prefix, is zero beyond it, and keeps the ids and freed list |
| StorageBuffers.New | src/engine/storage_buffer.ts:17-25 | a new buffer has the given width, capacity 1 by default, watermark 1, no freed ids, all-zero bytes, and (at the default capacity) no live id; it has a GPU buffer exactly when its capacity is not 0 |
| StorageBuffers.Reserve | src/engine/storage_buffer.ts:27-36 | with no freed id, the watermark is handed out and advanced; otherwise the earliest freed id is reused and leaves the freed list; the buffer grows to ceil(1.5 c) exactly when the id exceeds the capacity, and the old bytes are kept; it has a GPU buffer afterwards exactly when it had one or its capacity changed |
| StorageBuffers.WriteInstance | src/engine/storage_buffer.ts:75-85 | a write throws exactly when the data's length is not the instance width, when the buffer has no GPU buffer, when the class is non-empty and the id is 0 or below, so that the byte offset is negative, or when the width is not a multiple of 4 bytes, which `writeBuffer` refuses; the error names the first of these checks that fails; otherwise the id leaves the freed list, its slot reads back as the data and every other byte is unchanged (a slot past the end changes no byte) |
| StorageBuffers.Push | src/engine/storage_buffer.ts:65-73 | a wrongly sized item is refused before any id is reserved; otherwise push is reserve followed by a write at the reserved id, which throws exactly when the buffer still has no GPU buffer after the reservation, that id is 0 or below in a non-empty class, or the width is not a multiple of 4 bytes |
| StorageBuffers.DeleteInstance | src/engine/storage_buffer.ts:87-89 | deleting only adds the id to the freed set, whose earliest entry stays first (the id itself when the set was empty); bytes, capacity and watermark stay as they are |
| StorageBuffers.BindingResource | src/engine/storage_buffer.ts:91-93 | the binding is the whole buffer: capacity times width bytes, every slot at offset (id - 1) times the width |
| StorageBuffers.ReserveKeepsWellFormed | src/engine/storage_buffer.ts:57-63 | from a well-formed buffer, reserve hands out an id that was not live, fits the possibly grown buffer, and makes exactly that id live; a reused id never grows the buffer |
| StorageBuffers.DeleteKeepsWellFormed | src/engine/storage_buffer.ts:87-89 | deleting a live id keeps the buffer well-formed and makes only that id dead; deleting it again changes nothing (a Set add) |
| StorageBuffers.ReserveReusesFreedId | src/engine/storage_buffer.ts:28-32 | a deleted id is the next one reserve hands out when no other id is waiting, and the watermark and capacity stay put |
| StorageBuffers.WriteKeepsWellFormed | src/engine/storage_buffer.ts:81-84 | a correctly sized write to a well-formed buffer succeeds exactly when the id is positive or the class is empty, and the width is a multiple of 4 bytes; then it keeps the buffer well-formed and revives a freed id that lies below the watermark |
| StorageBuffers.PushStoresItem | src/engine/storage_buffer.ts:65-73 | a correctly sized push on a well-formed buffer succeeds exactly when the width is a multiple of 4 bytes, and otherwise throws `writeBuffer`'s alignment error; on success it returns an id that was not live, whose slot now reads back as the item, and makes exactly that id live |
| StorageBuffers.DefaultGrowthSequence | src/engine/storage_buffer.ts:22-24 | from the default capacity, ids 1, 2, 3, 4 come out in order while the capacity steps 1, 2, 3, 5 |
| StorageBuffers.WellFormedNeverThrowsOffset | src/engine/storage_buffer.ts:65-84 | a well-formed buffer never lists an id below 1 as freed, so the freed-set removal before a negative-offset throw changes nothing, and a correctly sized push into it throws only when the width is not a multiple of 4 bytes, with the alignment error |
| StorageBuffers.WriteCheck | src/engine/storage_buffer.ts:76-84 | the checks before a write, in order: the length check, the GPU buffer argument, the offset's sign and the 4-byte alignment; a write goes through exactly when all pass |
| StorageBuffers.OneByteWidthPushThrows | src/engine/storage_buffer.ts:17 | a buffer of the base class's placeholder width of 1 byte throws on every push, however many ids were reserved before |
| StorageBuffers.ReserveTimesKeepsWellFormed | src/engine/storage_buffer.ts:57-73 | any number of reservations keeps a buffer well-formed |
| StorageBuffers.PushAfterFreeingZeroThrows | src/engine/storage_buffer.ts:65-89 | freeing id 0 in a new buffer makes the next push hand out id 0 and throw on the offset -instanceSize |
| StorageBuffers.ZeroCapacityNeverGrows | src/engine/storage_buffer.ts:59-61 | a buffer created with capacity 0 stays at capacity 0, since ceil(0 * 1.5) is 0, so its first id has no slot |
| StorageBuffers.ZeroCapacityPushThrows | src/engine/storage_buffer.ts:38-41 | a buffer created with capacity 0 never gets a GPU buffer, so every correctly sized push into it throws, however many ids were reserved before |
| MaterialRegistry.ClassBuffer | src/engine/storage_material.ts:115-119 | a class without a buffer gets a default-capacity buffer of the class's instance width on first use |
| MaterialRegistry.Construct | src/engine/storage_material.ts:112-126 | construction creates the class buffer if absent, reserves the instance's id in it and touches no other class's buffer |
| MaterialRegistry.Commit | src/engine/storage_material.ts:150-153 | with the corrected Water serializer, the deferred write stores the serialized instance at its id; it fails exactly when the serialization's length differs from the buffer width, the buffer has no GPU buffer, the id gives a negative offset, or the width is not a multiple of 4 bytes, and only its class's buffer changes |
| MaterialRegistry.Release | src/engine/storage_material.ts:136-138 | finalization marks the instance's id free in its class buffer and changes nothing else |
| MaterialRegistry.ClassBindingResource | src/engine/storage_material.ts:159-161 | the class binding spans the class buffer's whole capacity: capacity times width bytes |
| MaterialRegistry.InstanceBindingResource | src/engine/storage_material.ts:155-157 | an instance binds its class's whole buffer, the same resource as the class binding, not its own slot |
| MaterialRegistry.ConstructKeepsWellFormed | src/engine/storage_material.ts:115-121 | construction keeps every class buffer well-formed and gives an id that is at least 1, fits the buffer and is not live in the class; the first instance of a class gets id 1 in a buffer of the class's width |
| MaterialRegistry.ConstructWritesNothing | src/engine/storage_material.ts:121-125 | construction writes no instance bytes: the class buffer's old bytes are all still there |
| MaterialRegistry.CommitNeverFails | src/engine/storage_material.ts:150-153 | with the corrected Water serializer, the deferred write of a constructed instance is never refused, since every class serializes to its declared width, and the slot then decodes to the class's words |
| MaterialRegistry.CommitAsWritten | src/engine/storage_material.ts:150-153 | the deferred write as written throws in serialization exactly for a water material with a bigint seed; for every other material it succeeds, fails and stores exactly as the corrected write does |
| MaterialRegistry.CommitAsWrittenFailsOnlyForBigIntWater | src/planet/materials/water.ts:30-36 | as written, the deferred write of an instance in a well-formed registry throws exactly when it is a water material with a bigint seed |
| MaterialRegistry.ReleaseThenConstructReuses | src/engine/storage_material.ts:121-138 | releasing an instance when no other id of its class is waiting makes the class's next construction get the same id, with the live ids as before |
| MaterialRegistry.ConstructTakesNextId | src/engine/storage_material.ts:115-121 | with no freed id waiting, construction takes the class's next id, advances it, and leaves the buffer at least that many slots large |
| MaterialRegistry.ConsecutiveIds | src/engine/storage_material.ts:115-121 | two constructions of one class in a row with nothing freed get consecutive ids, and ids 1 and 2 for a class not seen before |
| Materials.ColorBigInt | src/engine/materials/debug.ts:15-19 | an array colour goes through colorToBigInt, any falsy colour becomes 0, and a number or bigint keeps its value |
| Materials.NewDebug | src/engine/materials/debug.ts:9-20 | a Debug material stores the normalised colour and is not wireframe unless asked |
| Materials.NewSolid | src/engine/materials/solid.ts:9-19 | a Solid material stores the normalised colour |
| Materials.NewWater | src/planet/materials/water.ts:11-28 | a Water material keeps its seed and normalises both colours, a missing colour becoming 0 |
| Materials.NewPlanet | src/planet/materials/planet.ts:10-19 | a Planet material keeps its seed and stores both colours passed through toColor |
| Materials.NewSky | src/planet/materials/sky.ts:11-18 | a Sky material keeps its seed and the four colours through toColor, in order |
| Materials.ForwardRenderOverride | src/planet/materials/water.ts:7 | of the five classes only Water overrides forwardRender, and sets it to true |
| Materials.Words | src/planet/materials/water.ts:6 | every class's word list is exactly its declared instance size in bytes (Water 12, Planet 12, Sky 20, Debug 4, Solid 4) |
| Materials.Serialize | src/planet/materials/sky.ts:8 | the serialized bytes are as long as the class's declared instance size |
| Materials.SerializeDecodes | src/planet/materials/sky.ts:20-25 | the serialized bytes read back as little-endian words give the class's words |
| Materials.SingleColorWord | src/engine/materials/solid.ts:21-25 | Debug and Solid serialize to one word, the colour modulo 2^32, and a falsy colour to 0 |
| Materials.WaterLayout | src/planet/materials/water.ts:30-36 | Water with a number seed serializes to seed, shallow colour, deep colour, each modulo 2^32, with a missing colour as 0 |
| Materials.PlanetLayout | src/planet/materials/planet.ts:21-27 | Planet serializes to the seed, then the land and water colours packed by colorToInt |
| Materials.SkyLayout | src/planet/materials/sky.ts:20-25 | Sky serializes to five words: the seed and then the four packed colours in order |
| Materials.WaterWordsAsWritten | src/planet/materials/water.ts:30-36 | as written, Water's words fail with a TypeError exactly when the seed is a bigint, and otherwise agree with the corrected words |
| Materials.SerializeAsWritten | src/planet/materials/water.ts:30-36 | as written, serialization throws exactly for a water material with a bigint seed and otherwise gives the corrected bytes |
| Materials.WaterBigIntSeedThrows | src/planet/index.ts:98-106 | the water material planet/index.ts builds from a bigint terrain seed fails to serialize, whatever the seed |
| Materials.WaterBigIntSeedSerializes | src/planet/materials/planet.ts:21-27 | converting the bigint seed with Number, as Planet does, gives twelve bytes whose first word is the seed modulo 2^32 |
| MeshInstances.AttributeAt | src/planet/pipelines/render_star.ts:273-292 | the attribute found for an offset contains that offset, and none is found only when no attribute contains it |
| MeshInstances.InstanceLayoutPacked | src/planet/pipelines/render_star.ts:273-292 | the instance layout's attributes sit back to back from 0 to the 92-byte stride, the first four being the Float32x4 transform rows |
| MeshInstances.WriteOffsetsMatchLayout | src/engine/world_graphics.ts:315-336 | the transform write and the two variant writes of updateMeshes start at the transform, variant-index (Uint32) and variant-blend (Float32) attributes of the instance's record |
| MeshInstances.VariantAttributesAt | src/engine/world_graphics.ts:326-336 | bytes 80 and 84 of a record, where the variant writes land, belong to the variant-index and variant-blend attributes |
| MeshInstances.PushInstance | src/engine/world_graphics.ts:300-309 | pushInstance stores the record under a slot no live record uses |
| MeshInstances.RemoveInstance | src/engine/world_graphics.ts:348-350 | removeInstance forgets exactly that slot's record |
| MeshInstances.SetTransform | src/engine/world_graphics.ts:315-319 | the transform write changes only that slot's transform |
| MeshInstances.SetVariant | src/engine/world_graphics.ts:321-337 | the variant writes change only that slot's variant index and blend |
| Resources.AddResource | src/engine/world_graphics.ts:425-433 | addResource stores the resource under the counter's id, advances the counter and keeps every other entry |
| Resources.InsertResource | src/engine/world_graphics.ts:435-437 | insertResource stores under the given id, replacing only that entry |
| Resources.GetResource | src/engine/world_graphics.ts:439-445 | getResource returns the stored resource, and throws MissingResource with the id exactly when none is stored |
| Resources.AddedIdsIncrease | src/engine/world_graphics.ts:39 | ids from a fresh counter start at 1000000 and increase, and each added resource is found again |
| Resources.InsertThenGet | src/engine/world_graphics.ts:435-445 | a resource inserted under an id is returned for that id, and other ids' lookups are unchanged |
| GraphicsState.MaterialFor | src/engine/world_graphics.ts:544-559 | a custom material id is looked up and throws when missing; a component without one yields a fresh SimpleMaterial built from it |
| GraphicsState.MaterialOrDefault | src/engine/world_graphics.ts:285-293 | an entity without a MaterialComponent gets the default white SimpleMaterial; otherwise its component's material |
| GraphicsState.MaterialIndex | src/engine/world_graphics.ts:302 | the materialIndex of an instance is instanceId - 1 for a StorageMaterial and 0 otherwise |
| GraphicsState.MaterialIndexInBuffer | src/engine/world_graphics.ts:302 | for a freshly constructed StorageMaterial, the materialIndex is a valid zero-based slot of its class buffer |
| Scenes.AddPawn | src/engine/world_graphics.ts:294-297 | addMesh adds a pawn under an id no live pawn has, leaving cameras and light |
| Scenes.RemovePawn | src/engine/world_graphics.ts:259-266 | removePawn removes exactly that pawn |
| Scenes.AddThenRemove | src/engine/world_graphics.ts:259-266 | removing a pawn just added leaves the Scene's pawns as they were |
| Scenes.RemovePawnSet | src/engine/world_graphics.ts:259-266 | removing a set of pawns leaves exactly the others, unchanged |
| Scenes.RemovePawns | src/engine/world_graphics.ts:510-523 | removing listed pawns one by one leaves exactly the unlisted ones, unchanged |
| Ecs.Select | src/engine/world_graphics.ts:180 | a query returns exactly the listed entities that carry the queried components, and repeats none when the list repeats none |
| Ecs.Entities | src/engine/world_graphics.ts:271 | a query over the World returns each matching entity once and no other |
| MeshPass.CreateMesh | src/engine/world_graphics.ts:280-311 | a new entity's mesh, then its material, is looked up (either missing one throws before any change); on success the entity is tracked under a fresh slot of its mesh's table, that slot holds a record with the entity's transform, the material's index (`instanceId - 1` for a StorageMaterial, else 0) and live flag 1, and no other record, entry or table changes |
| MeshPass.MeshPawn | src/engine/world_graphics.ts:284-297 | all instances of a mesh share one pawn: the existing one, or a new instanced-mesh pawn with the first instance's material |
| MeshPass.WriteInstance | src/engine/world_graphics.ts:313-337 | a tracked entity's writes throw exactly when its custom material is missing, and change no tracked entity, pawn or live slot; its live record gets the transform and, with a MaterialComponent that resolves, the variant index `variant \| 0` as an unsigned word and the blend `variant % 1.0` (on a throw, only the transform); every other record is unchanged |
| MeshPass.MeshStep | src/engine/world_graphics.ts:273-338 | one loop step tracks the entity when it completes and never drops or changes another tracked entity; for an entity already tracked it leaves the tracked entries and the Scene as they were |
| MeshPass.MeshLoop | src/engine/world_graphics.ts:273-338 | the entity loop changes only meshes, shared pawns and instance tables |
| MeshPass.RemoveStale | src/engine/world_graphics.ts:340-351 | stale removal keeps exactly the tracked entities that were seen, unchanged, and removes each dropped entity's slot from its mesh's table |
| MeshPass.RemoveAll | src/engine/world_graphics.ts:345-351 | removing a set of slots keeps exactly the other records |
| MeshPass.UpdateMeshes | src/engine/world_graphics.ts:269-352 | the mesh pass changes only meshes, shared pawns and instance tables |
| MeshPass.CreateMeshKeepsValid | src/engine/world_graphics.ts:294-310 | creating an entity's instance keeps every tracked slot live and distinct within its table |
| MeshPass.TrackingNewKeepsValid | src/engine/world_graphics.ts:300-310 | tracking a new entity under a fresh slot, other entries unchanged, keeps slots live and distinct |
| MeshPass.WriteInstanceKeepsValid | src/engine/world_graphics.ts:313-337 | the per-pass writes keep the slot bookkeeping consistent |
| MeshPass.MeshStepKeepsValid | src/engine/world_graphics.ts:273-338 | a loop step keeps the slot bookkeeping consistent |
| MeshPass.MeshLoopKeepsValid | src/engine/world_graphics.ts:273-338 | the entity loop keeps the slot bookkeeping consistent, even when it throws |
| MeshPass.RemoveStaleKeepsValid | src/engine/world_graphics.ts:340-351 | stale removal never takes a slot a kept entity holds |
| MeshPass.UpdateMeshesKeepsValid | src/engine/world_graphics.ts:269-352 | the mesh pass keeps every tracked entity's slot live in its table and no two entities on one slot |
| MeshPass.MeshLoopTracks | src/engine/world_graphics.ts:273-311 | the loop tracks every entity it completes and leaves unvisited entries alone |
| MeshPass.UpdateMeshesTracksSeen | src/engine/world_graphics.ts:269-352 | after a completed pass the tracked entities are exactly the entities with a mesh and a transform |
| MeshPass.StepWrites | src/engine/world_graphics.ts:280-337 | a step that completes leaves its entity's live record holding its transform and, with a MaterialComponent, its variant index and blend |
| MeshPass.WriteKeepsWritten | src/engine/world_graphics.ts:315-336 | the writes for one entity never touch another tracked entity's record |
| MeshPass.CreateKeepsWritten | src/engine/world_graphics.ts:300-310 | creating an entity's record pushes into a fresh slot and leaves every other tracked entity's record as it was |
| MeshPass.StepKeepsWritten | src/engine/world_graphics.ts:273-338 | a step on one entity leaves every other entity's written record as it was |
| MeshPass.MeshLoopWrites | src/engine/world_graphics.ts:273-338 | a loop that completes leaves every visited entity's record written and keeps every already written one |
| MeshPass.RemoveStaleKeepsWritten | src/engine/world_graphics.ts:340-351 | stale removal keeps the records of the entities it keeps |
| MeshPass.UpdateMeshesWritesCurrent | src/engine/world_graphics.ts:269-352 | after a pass that completes, every tracked entity's live record holds its current transform and, with a MaterialComponent, its current variant index and blend |
| MeshPass.UpdateMeshesRemovesStale | src/engine/world_graphics.ts:340-351 | an entity that lost its mesh or transform is untracked by a completed pass and its slot is no longer live |
| MeshPass.MeshStepSuccessResolves | src/engine/world_graphics.ts:321-324 | a completed step has found the entity's custom material |
| MeshPass.MeshLoopSuccessResolves | src/engine/world_graphics.ts:273-338 | a completed loop has found every custom material its entities name |
| MeshPass.MeshLoopTrackedIsQuiet | src/engine/world_graphics.ts:313-337 | over tracked entities whose materials resolve, the loop allocates and drops nothing and leaves every table's live slots |
| MeshPass.UpdateMeshesIdempotent | src/engine/world_graphics.ts:269-352 | a second pass over an unchanged World completes and allocates nothing: same entities, slots, pawns and live slots |
| MeshPass.StaleOfTrackedIsEmpty | src/engine/world_graphics.ts:341 | when every tracked entity was seen, stale removal changes nothing |
| MeshPass.RemoveAllStep | src/engine/world_graphics.ts:345-350 | removing one more slot by removeInstance is removing the enlarged set |
| MeshPass.RemovalDone | src/engine/world_graphics.ts:345-351 | the removal loop, once every stale entity is handled, has computed RemoveStale |
| MeshPass.StaleKeys | src/engine/world_graphics.ts:341 | the stale keys are exactly the keys not seen, each once when the keys are distinct |
| MeshPass.RemoveStaleMeshes | src/engine/world_graphics.ts:341-351 | the removal loop over the map's keys, in their order, computes RemoveStale, whatever that order |
| WorldPasses.CameraLoop | src/engine/world_graphics.ts:179-201 | the camera loop changes only the tracked cameras and the Scene's camera list |
| WorldPasses.CameraLoopTracks | src/engine/world_graphics.ts:182-192 | after the loop the tracked cameras are the earlier ones plus those visited, each listed once in the Scene, whose list only grows |
| WorldPasses.UpdateCamerasTracks | src/engine/world_graphics.ts:179-207 | after updateCameras every camera entity is tracked and listed once in the Scene, and none is ever dropped |
| WorldPasses.LightLoop | src/engine/world_graphics.ts:209-225 | the light loop tracks every light entity it visits and changes only lights and the Scene's light |
| WorldPasses.LastUntrackedIgnores | src/engine/world_graphics.ts:217-222 | tracking a light not in the remaining list does not change which new light the rest of the loop sets |
| WorldPasses.LightLoopLight | src/engine/world_graphics.ts:212-225 | the Scene's light after the loop is the last newly seen light, or unchanged if none is new |
| WorldPasses.UpdateLightsLight | src/engine/world_graphics.ts:209-231 | after updateLights the Scene's light is the last light entity not tracked before, in query order, or the previous light |
| WorldPasses.SetupDebug | src/engine/world_graphics.ts:156-171 | after setupMeshes both debug pawns exist and nothing else in the graphics state changed |
| WorldPasses.SetupDebugOnce | src/engine/world_graphics.ts:156-171 | the first setup adds the dot and the wireframe arrow pawns under the next two ids; a second setup changes nothing |
| WorldPasses.ParticleStep | src/engine/world_graphics.ts:238-252 | a new emitter throws exactly when its mesh is missing, and otherwise becomes tracked; tracked emitters keep their pawns |
| WorldPasses.ParticleLoop | src/engine/world_graphics.ts:236-257 | the particle loop changes only the tracked emitters |
| WorldPasses.RemoveStaleParticles | src/engine/world_graphics.ts:259-266 | stale emitters are untracked, and seen emitters keep their pawns |
| WorldPasses.UpdateParticles | src/engine/world_graphics.ts:233-267 | the particle pass changes only the tracked emitters |
| WorldPasses.ParticleStepKeepsValid | src/engine/world_graphics.ts:241-252 | an emitter step keeps every tracked emitter's pawn live in the Scene and pawn ids fresh |
| WorldPasses.ParticleLoopTracks | src/engine/world_graphics.ts:236-257 | the loop keeps tracked emitters and, when it completes, tracks exactly the earlier ones plus those visited |
| WorldPasses.UpdateParticlesDiff | src/engine/world_graphics.ts:233-267 | a completed particle pass tracks exactly the current emitters, and an untracked emitter's pawn has left the Scene |
| WorldPasses.UpdateParticlesIdempotent | src/engine/world_graphics.ts:233-267 | a second particle pass over an unchanged World changes nothing |
| WorldPasses.ParticleLoopAllTracked | src/engine/world_graphics.ts:241-252 | over emitters that are all tracked, the loop changes nothing |
| WorldPasses.DecorTerrain | src/engine/world_graphics.ts:392-394 | the decor's terrain, when there is one, belongs to some terrain entity; a World without terrain has none |
| WorldPasses.DecorStep | src/engine/world_graphics.ts:396-414 | a new decor entity gets a pawn with its mesh and the terrain seed before its material is resolved, so a missing material leaves that pawn in the Scene without tracking the entity; a tracked one changes nothing |
| WorldPasses.DecorLoop | src/engine/world_graphics.ts:396-418 | the decor loop changes only the tracked decor |
| WorldPasses.UpdateDecor | src/engine/world_graphics.ts:390-423 | the decor pass changes only the tracked decor, and nothing at all without a terrain entity |
| WorldPasses.DecorLoopTracks | src/engine/world_graphics.ts:396-418 | the loop never drops decor and, when it completes, tracks the earlier decor plus those visited |
| WorldPasses.UpdateDecorTracks | src/engine/world_graphics.ts:390-423 | decor is tracked from the first completed pass, never removed, and not at all without a usable terrain entity |
| WorldPasses.DecorRetryAddsAgain | src/engine/world_graphics.ts:400-413 | a decor entity with a missing custom material leaves a pawn each time it is retried, and is never tracked |
| WorldPasses.TerrainEntitiesOf | src/engine/world_graphics.ts:355 | the terrain query lists distinct entities, each carrying a well-formed terrain component |
| WorldPasses.TerrainLoop | src/engine/world_graphics.ts:357-382 | the terrain entity loop changes only the streaming state and keeps it and the Scene well-formed, adding no pawn |
| WorldPasses.UpdateTerrain | src/engine/world_graphics.ts:354-388 | the terrain pass changes only the streaming state and the Scene's pawns |
| WorldPasses.UpdateTerrainBounded | src/engine/world_graphics.ts:354-388 | the terrain pass keeps the streaming state and the Scene well-formed and adds at most eight pawns per frame |
| WorldUpdate.PlayerVelocityFound | src/engine/world_graphics.ts:101-102 | the player lookup succeeds only if some player entity carries a velocity, fails when there is no player, and succeeds when every player has a velocity |
| WorldUpdate.MeshErrorStopsLaterPasses | src/engine/world_graphics.ts:87-97 | when the mesh pass throws, its MissingResource ends the frame: cameras and lights are already tracked while debug pawns, terrain, decor and particles are untouched |
| WorldUpdate.MissingPlayerStopsLaterPasses | src/engine/world_graphics.ts:92-103 | when the player lookup fails, the frame ends in the debug pass with its TypeError: cameras, lights and both debug pawns are set up while terrain, decor and particles are untouched |
| WorldUpdate.CameraLoopAdds | src/engine/world_graphics.ts:182-192 | the camera loop adds every entity it visits |
| WorldUpdate.UpdateKeepsValid | src/engine/world_graphics.ts:87-97 | a whole update keeps pawn ids fresh, each tracked camera listed once and the terrain state well-formed, whether or not a pass throws |
| WorldUpdate.LaterPassesKeepValid | src/engine/world_graphics.ts:92-95 | the debug, terrain, decor and particle passes keep the frame well-formed |
| WorldUpdate.MeshesKeepScene | src/engine/world_graphics.ts:269-352 | the mesh pass keeps the frame well-formed |
| WorldUpdate.MeshLoopKeepsScene | src/engine/world_graphics.ts:273-338 | the mesh loop keeps the frame well-formed |
| WorldUpdate.MeshStepKeepsScene | src/engine/world_graphics.ts:294-297 | adding a mesh's shared pawn keeps the frame well-formed |
| WorldUpdate.DecorKeepsScene | src/engine/world_graphics.ts:390-423 | the decor pass keeps the frame well-formed |
| WorldUpdate.DecorLoopKeepsScene | src/engine/world_graphics.ts:396-418 | the decor loop keeps the frame well-formed |
| WorldUpdate.ParticlesKeepScene | src/engine/world_graphics.ts:233-267 | the particle pass keeps the frame well-formed |
| WorldUpdate.ParticleLoopKeepsScene | src/engine/world_graphics.ts:236-266 | the particle loop and its stale removal keep the frame well-formed |
| TerrainStreaming.EnqueueChunks | src/engine/world_graphics.ts:447-458 | each requested key neither active nor queued is appended to the queue with its entity, seed, size, chunk and material; existing entries are kept |
| TerrainStreaming.EnqueueAppends | src/engine/world_graphics.ts:448-457 | fresh distinct keys are queued in the order the component lists them |
| TerrainStreaming.EnqueueActive | src/engine/world_graphics.ts:449 | keys that are all active queue nothing |
| TerrainStreaming.ChunkPlacement | src/engine/world_graphics.ts:475-485 | the chunk id keeps the lod and 32-bit coordinates, and the pawn sits at height 0 |
| TerrainStreaming.PlacementOfAlignedChunk | src/engine/world_graphics.ts:475-485 | a chunk whose coordinates are multiples of its scale gets the quotient as id, and its pawn sits at the coordinates times the chunk size |
| TerrainStreaming.PlacementTruncatesTowardZero | src/engine/world_graphics.ts:476-478 | negative coordinates are divided toward zero, not floored |
| TerrainStreaming.Record | src/engine/world_graphics.ts:499-503 | the pawn is recorded for the chunk under its entity, creating the entity's map once and keeping the other records |
| TerrainStreaming.GenerateChunk | src/engine/world_graphics.ts:473-504 | generating a chunk makes its key active once, adds its terrain pawn under a fresh id and records it for the entity |
| TerrainStreaming.BatchCount | src/engine/world_graphics.ts:460-471 | a queue pass generates nothing exactly when the queue is empty, never more than is queued, and min(queued, batch size) for a positive batch size |
| TerrainStreaming.GenerateAll | src/engine/world_graphics.ts:464-470 | generating a batch adds one pawn per key |
| TerrainStreaming.GenerateAllActivates | src/engine/world_graphics.ts:487 | generation marks the batch's keys active, in order |
| TerrainStreaming.ActivateAppends | src/engine/world_graphics.ts:487 | distinct keys not yet active are appended to the active keys in batch order |
| TerrainStreaming.GenerateAllActive | src/engine/world_graphics.ts:464-470 | a distinct, not yet active batch is appended to the active keys |
| TerrainStreaming.GenerateAllKeepsPawns | src/engine/world_graphics.ts:488-498 | generation only adds pawns and keeps the Scene's ids fresh |
| TerrainStreaming.GenerateAllPawns | src/engine/world_graphics.ts:488-498 | the i-th generated chunk gets the i-th fresh pawn id, holding that chunk's terrain mesh |
| TerrainStreaming.GenerateAllKeepsRecords | src/engine/world_graphics.ts:499-503 | records of chunks outside the batch are kept |
| TerrainStreaming.GenerateAllRecords | src/engine/world_graphics.ts:499-503 | each generated chunk is recorded under its entity with the pawn it got |
| TerrainStreaming.ProcessQueue | src/engine/world_graphics.ts:460-471 | a queue pass dequeues and generates the first BatchCount entries in queue order |
| TerrainStreaming.ProcessQueueValid | src/engine/world_graphics.ts:460-471 | a queue pass keeps the state well-formed and moves the batch from the queue to the end of the active keys |
| TerrainStreaming.GenerateAllKeepsSceneValid | src/engine/world_graphics.ts:488-498 | generation hands out fresh pawn ids only |
| TerrainStreaming.ProcessQueueKeepsSceneValid | src/engine/world_graphics.ts:460-471 | a queue pass keeps the Scene's pawn ids fresh |
| TerrainStreaming.Expire | src/engine/world_graphics.ts:506-524 | eviction keeps requested keys active, drops only unrequested ones, removes only their pawns, and at most limit + 1 of them |
| TerrainStreaming.ExpireRemovesPrefix | src/engine/world_graphics.ts:509-523 | one eviction pass removes the first limit + 1 removable pawns in active order, or all if fewer |
| TerrainStreaming.Kept | src/engine/world_graphics.ts:512 | the kept keys are exactly the requested active ones |
| TerrainStreaming.ExpireBelowLimitActive | src/engine/world_graphics.ts:510-523 | when no more than the limit are removable, exactly the requested keys stay active, in order |
| TerrainStreaming.ExpireBelowLimitChunks | src/engine/world_graphics.ts:510-523 | when no more than the limit are removable, every unrequested active key loses its pawn |
| TerrainStreaming.RemoveExpiredChunks | src/engine/world_graphics.ts:506-524 | the imperative eviction loop, with limit 4 and the break on --limit < 0, computes Expire |
| TerrainStreaming.ExpireEntity | src/engine/world_graphics.ts:506-508 | an entity without chunks evicts nothing; otherwise requested keys stay active, only the entity's records change, and the queue is untouched |
| TerrainStreaming.TerrainEntityStep | src/engine/world_graphics.ts:378-381 | queueing comes first, and eviction happens only when the whole queue is empty; requested active keys stay active |
| TerrainStreaming.FirstFrameQueues | src/engine/world_graphics.ts:447-458 | a fresh entity requesting three chunks queues all three, in order |
| TerrainStreaming.FirstFrameKeepsScene | src/engine/world_graphics.ts:378-381 | with chunks queued, the first frame evicts nothing |
| TerrainStreaming.FirstFrameGenerates | src/engine/world_graphics.ts:460-504 | one batch turns the three queued chunks into pawns 0, 1 and 2, recorded for their entity |
| TerrainStreaming.StepWithNothingNew | src/engine/world_graphics.ts:378-381 | with nothing queued and every request active, a frame is exactly one eviction pass |
| TerrainStreaming.SecondFrameExpiry | src/engine/world_graphics.ts:510-523 | when chunk 2 is no longer requested, it goes with its pawn while 1 and 3 stay |
| TerrainStreaming.SecondFrameIsEviction | src/engine/world_graphics.ts:378-381 | the second frame queues nothing and is one eviction pass |
| TerrainStreaming.SecondFrameEvicts | src/engine/world_graphics.ts:506-524 | the second frame drops chunk 2's key, record and pawn, keeping 1 and 3 |
| PlayerInput.KeyCode | src/planet/systems/player_input.ts:26 | Forward is the only key whose value is 0, and so falsy |
| PlayerInput.Lookup | src/planet/systems/player_input.ts:25-50 | a binding lookup finds the bound key exactly for a bound name |
| PlayerInput.SetKey | src/planet/systems/player_input.ts:413-414 | a set stores the value, a new key going last in iteration order |
| PlayerInput.DeleteKey | src/planet/systems/player_input.ts:421 | a delete removes exactly that key |
| PlayerInput.OnKeyDown | src/planet/systems/player_input.ts:409-415 | a bound key (after lower-casing) becomes pressed and held at 1.0; an unbound key changes nothing |
| PlayerInput.OnKeyUp | src/planet/systems/player_input.ts:417-422 | a bound key is no longer held but stays pressed; an unbound key changes nothing |
| PlayerInput.TapLeavesPressed | src/planet/systems/player_input.ts:409-422 | a key pressed and released between frames is not held but still pressed for the next frame |
| PlayerInput.KeysIgnoreCase | src/planet/systems/player_input.ts:410 | keyboard events act the same whatever the case of the key name |
| PlayerInput.DefaultBindingsSplitA | src/planet/systems/player_input.ts:28-40 | the keyboard's A, in either case, rolls left, while the gamepad's A button drops a bomb |
| PlayerInput.AxisAt | src/planet/systems/player_input.ts:379-387 | a missing axis reads as undefined |
| PlayerInput.ButtonStep | src/planet/systems/player_input.ts:389-405 | an unchanged button value does nothing; a changed one is recorded, and above the threshold presses and holds its bound key (except falsy Forward), at or below releases it |
| PlayerInput.ButtonStepIdempotent | src/planet/systems/player_input.ts:391-394 | polling a button again at the value just seen changes nothing |
| PlayerInput.PollButtons | src/planet/systems/player_input.ts:389-405 | polling buttons keeps the axes and bindings |
| PlayerInput.PollPad | src/planet/systems/player_input.ts:379-405 | polling a pad keeps the bindings and the maps' consistency |
| PlayerInput.PollPads | src/planet/systems/player_input.ts:376-406 | polling the pads keeps the bindings and the maps' consistency |
| PlayerInput.UpdateGamepads | src/planet/systems/player_input.ts:374-407 | without document focus nothing is polled |
| PlayerInput.PollButtonsKeepsEarlier | src/planet/systems/player_input.ts:389-395 | polling later buttons leaves earlier buttons' recorded values alone |
| PlayerInput.PollButtonsRecords | src/planet/systems/player_input.ts:389-395 | polling records every button's value |
| PlayerInput.PollButtonsQuiet | src/planet/systems/player_input.ts:391-394 | buttons whose values are all recorded change nothing |
| PlayerInput.SinglePadPollIdempotent | src/planet/systems/player_input.ts:374-407 | with one gamepad, a second poll at the same values changes nothing |
| PlayerInput.TwoPads | src/planet/systems/player_input.ts:376-406 | polling two pads is polling one and then the other |
| PlayerInput.SharedButtonIndicesRefire | src/planet/systems/player_input.ts:24 | recorded values are shared by all pads, so two pads whose A buttons rest differently press A on every poll |
| PlayerInput.Toggled | src/planet/systems/player_input.ts:151-153 | ToggleMode turns Lander into Space and anything else into Lander |
| PlayerInput.ToggleTwice | src/planet/systems/player_input.ts:151-153 | toggling twice restores Space or Lander, while Ground goes to Lander and then Space |
| PlayerInput.At | src/planet/systems/player_input.ts:165-171 | indexing outside the array gives undefined |
| PlayerInput.IndexOf | src/planet/systems/player_input.ts:163 | indexOf gives the first position of the entity, or -1 exactly when it is absent |
| PlayerInput.CycleFocus | src/planet/systems/player_input.ts:155-172 | a new target is always one of the focusable entities, or undefined |
| PlayerInput.NextCameraAdvances | src/planet/systems/player_input.ts:157-172 | NextCamera moves to the next entity, wrapping from the last to the first, and picks the first when there is no focus |
| PlayerInput.PrevCameraRetreats | src/planet/systems/player_input.ts:155-169 | PrevCamera moves to the previous entity, wrapping from the first to the last |
| PlayerInput.AbsentFocus | src/planet/systems/player_input.ts:162-169 | a focus not among the entities sends NextCamera to the first, and PrevCamera to undefined for three or more entities but to the first for one or two |
| PlayerInput.IndexOfDistinct | src/planet/systems/player_input.ts:163 | an entity listed once is found at its own index |
| PlayerInput.NextThenPrev | src/planet/systems/player_input.ts:155-172 | over distinct non-zero entities, PrevCamera undoes NextCamera |
| PlayerInput.PrevThenNext | src/planet/systems/player_input.ts:155-172 | over distinct non-zero entities, NextCamera undoes PrevCamera |
| PlayerInput.Cycle | src/planet/systems/player_input.ts:159-161 | a camera key throws exactly when there is no follow camera, and keeps the mode |
| PlayerInput.ApplyKey | src/planet/systems/player_input.ts:148-174 | ToggleMode toggles the mode, the camera keys cycle the focus, and other keys do nothing here |
| PlayerInput.ApplyKeys | src/planet/systems/player_input.ts:148-174 | once a key has thrown, later keys do nothing |
| PlayerInput.ApplyKeysThrows | src/planet/systems/player_input.ts:155-161 | processing throws exactly when a camera key is pressed without a follow camera |
| PlayerInput.ApplyKeysMode | src/planet/systems/player_input.ts:151-153 | the mode is toggled exactly when ToggleMode is pressed and no earlier key threw |
| PlayerInput.UpdateMovement | src/planet/systems/player_input.ts:133-176 | movement polls the gamepads, returns early without a ship, and otherwise clears the pressed keys unless a key threw |
| PlayerInput.MovementConsumesKeys | src/planet/systems/player_input.ts:133-176 | with a ship, movement throws exactly when a camera key is pressed without a follow camera; otherwise it consumes the pressed keys and toggles the mode when ToggleMode was pressed |
| PlayerInput.NextCameraPressed | src/planet/systems/player_input.ts:157-175 | NextCamera alone with a follow camera moves the target as CycleFocus says and clears the keys |
| PlayerInput.MorphRate | src/planet/systems/player_input.ts:83 | the morph rate is dt * 10 capped at 1 |
| PlayerInput.MorphVariant | src/planet/systems/player_input.ts:84-104 | Space never leaves the variant below 0, Lander never above 1, and Ground leaves it alone |
| PlayerInput.UpdateMorph | src/planet/systems/player_input.ts:73-115 | morphing needs the ship, transform and material components, changes only the variant and never the scale |
| PlayerInput.MorphVariantFromUnit | src/planet/systems/player_input.ts:84-104 | from [0, 1], Space lowers the variant by t down to 0 and Lander raises it by t up to 1 |
| PlayerInput.MorphFromUnitRange | src/planet/systems/player_input.ts:83-104 | from [0, 1] the variant moves monotonically toward its mode's end and stays in [0, 1] |
| PlayerInput.MorphCompletes | src/planet/systems/player_input.ts:83-104 | a frame of a tenth of a second or more completes the morph |
| PlayerInput.MorphSnaps | src/planet/systems/player_input.ts:86-98 | a variant above 1 snaps to 1 in Space mode and to 0 in Lander mode before moving |
| ShipMeshes.SidePoints | src/planet/meshes/ship.ts:62-74 | each side contributes six points |
| ShipMeshes.Hull | src/planet/meshes/ship.ts:52-76 | an n-gon hull has 6n points |
| ShipMeshes.BuildNGon | src/planet/meshes/ship.ts:52-76 | the push loop builds exactly the hull, six points per side in side order |
| ShipMeshes.HullAt | src/planet/meshes/ship.ts:62-74 | point j of side i sits at index 6i + j |
| ShipMeshes.SideTriangles | src/planet/meshes/ship.ts:64-73 | side i's top triangle runs rim i, rim i+1, apex and its bottom one rim i, base, rim i+1, wrapping after the last side |
| ShipMeshes.Triangle | src/planet/meshes/ship.ts:62-74 | every triangle has three points |
| ShipMeshes.TriangleParity | src/planet/meshes/ship.ts:64-73 | even triangles hold the apex and odd ones the base |
| ShipMeshes.RimInRange | src/planet/meshes/ship.ts:66 | every rim point names a vertex of the polygon |
| ShipMeshes.IsTopParity | src/planet/meshes/ship.ts:11 | `(i / 3 \| 0) % 2 == 0` is the parity of i / 3 |
| ShipMeshes.TopMeansApex | src/planet/meshes/ship.ts:10-11 | a vertex counts as top exactly when its triangle holds the apex |
| ShipMeshes.PlanetColour | src/planet/meshes/ship.ts:8-21 | every vertex gets the window, top or underside colour |
| ShipMeshes.PlanetWindow | src/planet/meshes/ship.ts:12-21 | the planet ship's window colour covers the top triangles of its first two sides (indices 0-2 and 6-8), and bottom triangles are underside-coloured |
| ShipMeshes.PlanetVertex | src/planet/meshes/ship.ts:22-27 | a vertex carries softness 0, its position, a zero normal and its index's colour |
| ShipMeshes.PlanetBuilder | src/planet/meshes/ship.ts:78-116 | each builder maps the 36 hexagon points, in order, to coloured vertices |
| ShipMeshes.PlanetShipMesh | src/planet/meshes/ship.ts:30-50 | the planet ship holds three variants of 36 vertices, 108 in all, with vertex count 36 and three variants |
| ShipMeshes.PlanetVariantLayout | src/planet/meshes/ship.ts:44-48 | variant v's k-th vertex is hull point k as that variant's builder places it, with the same colouring in every variant |
| ShipMeshes.LandscapeColourAsWritten | src/landscape/ship_mesh.ts:9-22 | as written, the landscape colouring gives indices below 2 the window colour |
| ShipMeshes.LandscapeWindowSplit | src/landscape/ship_mesh.ts:13-16 | as written, the window triangle's apex at index 2 gets the hull colour |
| ShipMeshes.LandscapeColour | src/landscape/ship_mesh.ts:9-22 | the corrected colouring gives every vertex the window, top or underside colour |
| ShipMeshes.LandscapeWindowIsFirstTriangle | src/landscape/ship_mesh.ts:11-21 | with the correction, the window is exactly the first triangle, the rest follow the top and bottom parity, and only index 2 differs from the code as written |
| ShipMeshes.LandscapeVertex | src/landscape/ship_mesh.ts:23-27 | with the corrected colouring, a landscape vertex carries its position, a zero normal and its index's colour |
| ShipMeshes.LandscapeShipVertices | src/landscape/ship_mesh.ts:60-63 | with the corrected colouring, the landscape ship's 30 vertices are the pentagon hull's points in order, coloured by index |
| ShipMeshes.LandscapeHullShape | src/landscape/ship_mesh.ts:34-58 | the pentagon hull has 30 points and its last side wraps from rim 4 back to rim 0 |
| JsNumbers.ToUint32 | src/planet/materials/water.ts:31-35 | a Uint32Array element is the value's residue modulo 2^32 |
| JsNumbers.TruncDiv | src/engine/world_graphics.ts:477-478 | `a / b \| 0` rounds the quotient toward zero |
| JsNumbers.TruncRem | src/planet/systems/player_input.ts:167 | `%` leaves a remainder with the dividend's sign, smaller than the divisor |
| JsNumbers.ShiftOne | src/engine/world_graphics.ts:475 | `1 << n` is 2^(n mod 32) as a signed 32-bit integer |
| JsNumbers.WordOfBigInt | src/planet/materials/planet.ts:23 | `Number(x)` of a bigint stored in a Uint32Array is x modulo 2^32 for bigints a double holds exactly |
| JsNumbers.OrZero | src/planet/systems/player_input.ts:86 | `x \| 0` truncates and wraps to a signed 32-bit integer |
| JsNumbers.FracPart | src/engine/world_graphics.ts:325 | `x % 1.0` is the fractional part, with the sign of x |
| Bytes.WordsRoundTrip | src/engine/storage_buffer.ts:84 | the byte image of a word array reads back as the same words |

## Left out

- JavaScript numbers that stay fractional are modelled as exact reals, not as IEEE-754 doubles. This covers `dt`, material `variant`, the variant blend, key and gamepad button and axis values. So the model leaves out:
  - rounding, as in `material.variant -= t` (src/planet/systems/player_input.ts:89);
  - the single-precision rounding of `variant % 1.0` when it is stored in the instance's `Float32Array` (src/engine/world_graphics.ts:333-336);
  - NaN and ±Infinity. A NaN variant stays NaN through src/planet/systems/player_input.ts:85-92, and a NaN button value is never equal to its recorded value.
  - So the stepped and clamped variant of `PlayerInput.MorphVariantFromUnit` and `PlayerInput.MorphFromUnitRange`, and the blend `MeshPass.WriteInstance` stores hold in exact arithmetic only. `x % 1.0` itself is exact on doubles, and the integer results (`x | 0`, `ToUint32`, chunk coordinates) are exact as stated.
- Floating-point geometry is not modelled, because the model keeps only which entity or pawn each value belongs to. This covers:
  - transforms, rotations, positions, scales and quaternions;
  - `sin`/`cos` hull positions and `calculateNormals`;
  - camera near/far, light rotation and `updateForCamera`;
  - particle origin, direction, count and `performance.now()` simulation;
  - decor placement and `move`;
  - clipping planes, including `updateClipping`, the last step of `update`.
- `updateDebug`'s per-entity loop is not modelled; only `setupMeshes` is.
  - The loop pushes a dot and an arrow instance per moving entity into `debugInstances`.
  - The player-velocity lookup before the loop is modelled (`WorldUpdate.PlayerVelocityFound`).
  - That lookup assumes `world.getComponent(undefined, …)` returns `undefined` when the World has no player. The ECS World is not part of this model.
- PlayerInput.Cycle, PlayerInput.ApplyKeysThrows, PlayerInput.MovementConsumesKeys: "throws exactly when there is no follow camera" rests on the same assumption. With no FollowCameraComponent, `camera` is `undefined` (src/planet/systems/player_input.ts:159). `getComponent(undefined, …)` at line 160 is assumed to return `undefined`, so reading `.target` at line 161 throws.
- The water colour that `updateTerrain` copies from `ColorScheme.random`, and the terrain and decor pipelines' caches, are not modelled. They affect rendering only.
- Instance colours, `variantIndex` and `variantBlend` of a newly pushed instance are not modelled.
  - They come from the Material base class, which is not part of this model.
  - The record starts with variant 0. Entities with a MaterialComponent overwrite it in the same pass.
- SimpleMesh is not part of this model. Its `pushInstance`/`removeInstance` are stood in by an allocator that hands out slots no live record uses.
- The stale-removal loops over `terrains` and `decors` in `updateTerrain` and `updateDecor` have empty bodies in the source. There is nothing to model.
- A StorageBuffer created with capacity 0 never gets a GPU buffer: `resize(0)` returns at once (src/engine/storage_buffer.ts:39-41), and the buffer never grows.
  - Its first write passes `undefined` to `writeBuffer`, which throws a TypeError; `StorageBuffers.WriteInstance` returns `NoStorage`.
  - Its `bindingResource()` is `{ buffer: undefined }`; `StorageBuffers.BindingResource` gives the empty byte image.
- A write past the end of the buffer is a validation error the WebGPU device reports asynchronously. The model says it changes no byte.
  - A write at id 0 or below is different: its negative offset throws a TypeError at once, and `StorageBuffers.WriteInstance` returns that error.
- StorageBuffers.WriteInstance, StorageBuffers.Push: a thrown write returns only the error, not the buffer. Two mutations before the throw are therefore not kept:
  - the id's removal from the freed set;
  - in `push`, the reservation.
  - In a well-formed buffer of a width that is a multiple of 4 bytes, as every material class's width is, no throw can happen: it has a GPU buffer, and `StorageBuffers.WellFormedNeverThrowsOffset` rules out the offset.
- MaterialRegistry.Commit, MaterialRegistry.CommitNeverFails: both use the corrected Water serializer of the Findings table. The write as the code stands is `MaterialRegistry.CommitAsWritten`. It throws for every water material with a bigint seed (`MaterialRegistry.CommitAsWrittenFailsOnlyForBigIntWater`).
- Materials.ColorBigInt: number colours are assumed integral. `BigInt` throws a RangeError for a non-integral or non-finite number, and that error path is not modelled.
- The terrain pass keys a chunk by its key in `TerrainComponent.chunks`, and reuses that key for `activeTerrain` and `terrains`. The source recomputes `toChunkHash(chunk)` at src/engine/world_graphics.ts:486 and :503. This agrees only if the component's map is keyed by `toChunkHash`, which is assumed; the component's source is not part of this model.
- ShipMeshes.LandscapeVertex, ShipMeshes.LandscapeShipVertices: both use the corrected colouring of the Findings table, where the whole first triangle is the window. The code as written gives index 2 the top hull colour (`ShipMeshes.LandscapeColourAsWritten`, `ShipMeshes.LandscapeWindowSplit`).
- `StorageBuffer.resize`'s GPU copy command is modelled as an immediate copy of the common prefix. Submission order on the device queue is not modelled.
- `setTimeout` and `FinalizationRegistry` are not modelled as timing. `Commit` and `Release` are explicit steps that the caller orders.
- The colour helpers of `engine/color.ts` (`colorToBigInt`, `toColor`, `colorToInt`) are an explicit `ColorCodec` parameter. Their bodies are not part of this model.
- `Materials.PlanetLayout`: the seed word is stated only for seeds a double holds exactly. Larger bigints round, and their word is given only by `JsNumbers.WordOfBigInt`.
- `Materials.SingleColorWord`: stated only for colours below 2^53 in magnitude, for the same reason.
- `updateSpace`, `updateLander` and `updateCamera` of PlayerInputSystem are not modelled. They only turn held keys and axes into floating-point velocity, rotation, particle and sound changes.
- `tick` is not modelled as such. It calls `updateMorph` and `updateMovement` per player entity, and `UpdateMorph` and `UpdateMovement` model one call each.
- `String.prototype.toLowerCase` is modelled on ASCII letters only.
- `PlayerInput.UpdateGamepads`: `navigator.getGamepads()` and `document.hasFocus()` are parameters. A null pad is skipped, as in the source.
- `ShipMeshes.PlanetBuilder`: vertex positions are kept symbolically as the hull point plus the builder that placed it, not as coordinates.

## Behaviour of the code worth noting

The model follows the code in four places where a reader might expect otherwise.

- **Pawns removed per eviction pass.** `removeExpiredTerrainChunks` starts `limit` at 4 and breaks only once `--limit < 0`, after the fifth removed pawn. So one pass can remove five pawns: `TerrainStreaming.Expire` bounds the removals by limit + 1.
- **When eviction runs.** Eviction does not wait for a terrain entity's own chunks to be generated. The code tests the queue shared by all terrain entities (`this.queuedTerrain.size === 0`).
- **Which keys eviction drops.** The scan runs over the shared active list, so an entity's pass drops from the active list every key it does not request, including keys of other terrain entities. Pawns are removed only for keys found in the entity's own chunk map.
- **Buffer growth.** `reserve` sets the capacity *to* `Math.ceil(capacity * 1.5)`, not grows it by that amount. A buffer created with capacity 0 therefore never grows (`StorageBuffers.ZeroCapacityNeverGrows`), and since `resize(0)` creates no GPU buffer, every push into it throws (`StorageBuffers.ZeroCapacityPushThrows`).

## Findings

| source | as written | input that shows it | evidently intended | confidence | as-written member | corrected member |
|---|---|---|---|---|---|---|
| src/landscape/ship_mesh.ts:13-16 | the window colour goes to indices `i < 2` | index 2, the apex of the first triangle, which the comment calls the window, gets the hull colour, so the window triangle is shaded from black to pink | the whole first triangle, indices 0-2 (`i < 3`), is window-coloured | not executed; high | ShipMeshes.LandscapeWindowSplit | ShipMeshes.LandscapeWindowIsFirstTriangle |
| src/planet/materials/water.ts:30-36 | `toArrayBuffer` puts the raw `seed` into a `Uint32Array` | src/planet/index.ts:100-105 passes `planet.terrainSeed`, a bigint, as the seed, so `new Uint32Array([seed, ...])` throws a TypeError when the deferred write runs | convert with `Number(seed)`, as PlanetMaterial and SkyMaterial do | not executed; high | Materials.WaterBigIntSeedThrows, MaterialRegistry.CommitAsWritten | Materials.WaterBigIntSeedSerializes, MaterialRegistry.CommitNeverFails |

=== FILE: bytes.dfy ===
/** Bytes and the little-endian 32-bit words a `Uint32Array` lays out in an
    `ArrayBuffer` (every WebGPU platform is little-endian). */
module Bytes {
  import opened JsNumbers

  type byte = x: int | 0 <= x < 256

  function Zeros(n: nat): (r: seq<byte>)
    ensures |r| == n
    ensures forall i :: 0 <= i < n ==> r[i] == 0
  {
    seq(n, _ => 0)
  }

  /** The four bytes of one word, least significant first. */
  function WordBytes(w: uint32): (r: seq<byte>)
    ensures |r| == 4
  {
    [w % 256, (w / 256) % 256, (w / 65536) % 256, w / 16777216]
  }

  function BytesWord(b0: byte, b1: byte, b2: byte, b3: byte): uint32 {
    b0 + 256 * b1 + 65536 * b2 + 16777216 * b3
  }

  lemma WordBytesRoundTrip(w: uint32)
    ensures var b := WordBytes(w); BytesWord(b[0], b[1], b[2], b[3]) == w
  {
    var b := WordBytes(w);
    assert w == b[0] as int + 256 * (w / 256);
    assert w / 256 == b[1] as int + 256 * (w / 65536);
    assert w / 65536 == b[2] as int + 256 * (b[3] as int);
  }

  /** The byte image of a `Uint32Array` holding `words`. */
  function WordsToBytes(words: seq<uint32>): (r: seq<byte>)
    ensures |r| == 4 * |words|
  {
    if words == [] then [] else WordBytes(words[0]) + WordsToBytes(words[1..])
  }

  /** Reads a byte image back as little-endian words. */
  function BytesToWords(bytes: seq<byte>): (r: seq<uint32>)
    requires |bytes| % 4 == 0
    ensures 4 * |r| == |bytes|
  {
    if bytes == [] then []
    else [BytesWord(bytes[0], bytes[1], bytes[2], bytes[3])] + BytesToWords(bytes[4..])
  }

  lemma {:induction false} WordsRoundTrip(words: seq<uint32>)
    ensures |WordsToBytes(words)| % 4 == 0
    ensures BytesToWords(WordsToBytes(words)) == words
  {
    if words != [] {
      var bytes := WordsToBytes(words);
      assert bytes[..4] == WordBytes(words[0]);
      assert bytes[4..] == WordsToBytes(words[1..]);
      WordBytesRoundTrip(words[0]);
      WordsRoundTrip(words[1..]);
    }
  }
}

=== FILE: ecs.dfy ===
/** The slice of the ECS World the graphics layer reads: which entities
    exist, in the order the World's queries visit them, and the components
    each carries. The World itself is not part of this model; a query is the
    entities, in that order, that carry every component it asks for. */
module Ecs {
  import opened Wrappers
  import opened Seqs
  import opened Resources

  type Entity = int

  /** A 4x4 transform matrix; never inspected here. */
  datatype Transform = Transform(matrix: seq<real>)

  datatype MaterialComponent = MaterialComponent(custom: Option<ResourceId>, variant: real)

  /** A terrain chunk request: integer position and level of detail. */
  datatype Chunk = Chunk(x: int, y: int, lod: nat)

  /** The hash `toChunkHash` gives a chunk; opaque. */
  type ChunkKey = int

  /** `TerrainComponent.chunks`, an insertion-ordered map from chunk key to
      chunk, plus the seed and chunk size. */
  datatype TerrainComponent = TerrainComponent(
    keys: seq<ChunkKey>,
    chunks: map<ChunkKey, Chunk>,
    terrainSeed: int,
    chunkWidth: int,
    chunkHeight: int)

  datatype Components = Components(
    transform: Option<Transform>,
    meshId: Option<ResourceId>,
    material: Option<MaterialComponent>,
    camera: bool,
    light: bool,
    particlesMeshId: Option<ResourceId>,
    terrain: Option<TerrainComponent>,
    decorMeshId: Option<ResourceId>,
    velocity: bool,
    player: bool)

  datatype World = World(order: seq<Entity>, components: map<Entity, Components>)

  /** The component sets WorldGraphics queries for. */
  datatype Query = MeshQuery | CameraQuery | LightQuery | ParticlesQuery | TerrainQuery | DecorQuery | DebugQuery | PlayerQuery

  predicate Matches(q: Query, c: Components) {
    match q
    case MeshQuery => c.meshId.Some? && c.transform.Some?
    case CameraQuery => c.camera && c.transform.Some?
    case LightQuery => c.light && c.transform.Some?
    case ParticlesQuery => c.particlesMeshId.Some? && c.transform.Some?
    case TerrainQuery => c.terrain.Some?
    case DecorQuery => c.decorMeshId.Some?
    case DebugQuery => c.velocity && c.transform.Some?
    case PlayerQuery => c.player
  }

  /** The entities of a sequence, as a set. */
  function Elements(s: seq<Entity>): set<Entity> {
    set y | y in s
  }

  /** A terrain component whose key list and map agree. */
  ghost predicate TerrainValid(t: TerrainComponent) {
    NoDuplicates(t.keys) && (forall k :: k in t.keys <==> k in t.chunks)
  }

  /** Each entity listed once, every listed entity has components, and
      every terrain component is well-formed. */
  ghost predicate WorldValid(w: World) {
    && NoDuplicates(w.order)
    && (forall e :: e in w.order <==> e in w.components)
    && (forall e :: e in w.components && w.components[e].terrain.Some? ==> TerrainValid(w.components[e].terrain.value))
  }

  /** `world.entitiesWithComponents(...)`: the matching entities in World order. */
  function Select(q: Query, w: World, es: seq<Entity>): (r: seq<Entity>)
    requires forall i :: 0 <= i < |es| ==> es[i] in w.components
    ensures forall e :: e in r <==> e in es && Matches(q, w.components[e])
    ensures NoDuplicates(es) ==> NoDuplicates(r)
  {
    if es == [] then []
    else
      var rest := Select(q, w, es[1..]);
      assert NoDuplicates(es) ==> es[0] !in es[1..];
      assert NoDuplicates(es) ==> NoDuplicates(es[1..]) by {
        if NoDuplicates(es) {
          forall i, j | 0 <= i < j < |es[1..]|
            ensures es[1..][i] != es[1..][j]
          {
            assert es[1..][i] == es[i + 1] && es[1..][j] == es[j + 1];
          }
        }
      }
      if Matches(q, w.components[es[0]]) then
        assert NoDuplicates(es) ==> NoDuplicates([es[0]] + rest) by {
          if NoDuplicates(es) {
            forall i, j | 0 <= i < j < |[es[0]] + rest|
              ensures ([es[0]] + rest)[i] != ([es[0]] + rest)[j]
            {
              if i > 0 {
                assert ([es[0]] + rest)[i] == rest[i - 1];
              }
              assert ([es[0]] + rest)[j] == rest[j - 1];
            }
          }
        }
        [es[0]] + rest
      else rest
  }

  function Entities(q: Query, w: World): (r: seq<Entity>)
    requires WorldValid(w)
    ensures forall e :: e in r <==> e in w.components && Matches(q, w.components[e])
    ensures NoDuplicates(r)
  {
    assert forall i :: 0 <= i < |w.order| ==> w.order[i] in w.components by {
      forall i | 0 <= i < |w.order|
        ensures w.order[i] in w.components
      {
        var e := w.order[i];
        assert e in w.order;
        assert e in w.order <==> e in w.components;
      }
    }
    Select(q, w, w.order)
  }
}

=== FILE: graphics_state.dfy ===
/** The bookkeeping state of WorldGraphics (src/engine/world_graphics.ts)
    and what one pass over the World yields. Every collection the class
    keeps is a field here; GPU objects are named by opaque numbers, pawns by
    their Scene id. A thrown MissingResource ends `update` where it
    happens, with everything done before it kept, so an outcome carries the
    state reached and the error, if any. */
module GraphicsState {
  import opened Wrappers
  import opened Resources
  import opened Ecs
  import opened Scenes
  import opened MeshInstances
  import opened TerrainStreaming
  import MaterialRegistry
  import StorageBuffers
  import Materials

  /** A `meshes` entry: the instance slot, the mesh's shared pawn, and the
      mesh object whose instance table holds the slot. */
  datatype MeshEntry = MeshEntry(slot: nat, pawn: PawnId, meshObj: nat)

  /** The two debug pawns `setupMeshes` creates once. */
  datatype DebugPawns = DebugPawns(dot: Option<PawnId>, vector: Option<PawnId>)

  datatype Graphics = Graphics(
    resources: map<ResourceId, Resource>,
    nextResourceId: int,
    meshes: map<Entity, MeshEntry>,
    instanceMeshes: map<nat, PawnId>,
    tables: map<nat, InstanceTable>,
    cameras: set<Entity>,
    lights: set<Entity>,
    particles: map<Entity, PawnId>,
    decors: map<Entity, PawnId>,
    terrain: TerrainState,
    debug: DebugPawns)

  /** A new WorldGraphics, with the resource counter at its initial value. */
  const InitialGraphics: Graphics :=
    Graphics(map[], FIRST_RESOURCE_ID, map[], map[], map[], {}, {}, map[], map[], EmptyTerrain, DebugPawns(None, None))

  datatype Frame = Frame(g: Graphics, scene: Scene)

  /** The state a pass (or `update`) reached, and the MissingResource that
      stopped it, if one did. */
  datatype Outcome = Outcome(frame: Frame, error: Option<MissingResource>)

  /** `getMaterialForComponent(comp)`: a custom material is looked up (and
      a missing one throws); otherwise a fresh SimpleMaterial is built from
      the component. */
  function MaterialFor(resources: map<ResourceId, Resource>, comp: MaterialComponent): (r: Result<MaterialRef, MissingResource>)
    ensures r.Err? <==> comp.custom.Some? && comp.custom.value !in resources
    ensures r.Err? ==> r.error == MissingResource(comp.custom.value)
    ensures comp.custom.None? ==> r == Ok(ComponentMaterial(comp))
    ensures comp.custom.Some? && r.Ok? ==> r.value == ResourceMaterial(comp.custom.value, resources[comp.custom.value])
  {
    match comp.custom
    case None => Ok(ComponentMaterial(comp))
    case Some(id) =>
      match GetResource(resources, id)
      case Ok(res) => Ok(ResourceMaterial(id, res))
      case Err(e) => Err(e)
  }

  /** The material of an entity that may carry a MaterialComponent: the
      component's material, or the default white SimpleMaterial. */
  function MaterialOrDefault(resources: map<ResourceId, Resource>, comp: Option<MaterialComponent>): (r: Result<MaterialRef, MissingResource>)
    ensures comp.None? ==> r == Ok(DefaultMaterial)
    ensures comp.Some? ==> r == MaterialFor(resources, comp.value)
  {
    match comp
    case None => Ok(DefaultMaterial)
    case Some(c) => MaterialFor(resources, c)
  }

  /** The `materialIndex` of a pushed instance: `instanceId - 1` for a
      StorageMaterial, 0 for anything else. */
  function MaterialIndex(m: MaterialRef): (r: int)
    ensures m.ResourceMaterial? && m.resource.storageInstanceId.Some? ==> r == m.resource.storageInstanceId.value - 1
    ensures !(m.ResourceMaterial? && m.resource.storageInstanceId.Some?) ==> r == 0
  {
    if m.ResourceMaterial? && m.resource.storageInstanceId.Some? then m.resource.storageInstanceId.value - 1 else 0
  }

  /** A StorageMaterial registered as a resource right after construction
      gets a `materialIndex` that is its zero-based slot in its class
      buffer: at least 0 and below the buffer's capacity. */
  lemma MaterialIndexInBuffer(reg: MaterialRegistry.Registry, m: Materials.Material, id: ResourceId, obj: nat)
    requires MaterialRegistry.Valid(reg) && MaterialRegistry.WellFormed(reg)
    ensures var c := MaterialRegistry.Construct(reg, m);
      var idx := MaterialIndex(ResourceMaterial(id, Resource(obj, Some(c.instance.instanceId))));
      && idx == c.instance.instanceId - 1
      && 0 <= idx < c.registry.buffers[Materials.ClassOf(m)].capacity
  {
    MaterialRegistry.ConstructKeepsWellFormed(reg, m);
  }
}

=== FILE: js_numbers.dfy ===
/** The JavaScript numeric conversions the engine relies on, written out over
    unbounded integers and reals: ToInt32 and ToUint32 (section 7.1.6 and
    7.1.7 of ECMA-262), the truncating `/ ... | 0` and `%` on numbers (section
    6.1.6.1.6), `1 << n`, and `Number(bigint)` rounding to the nearest double. */
module JsNumbers {

  const TWO_31: int := 0x8000_0000
  const TWO_32: int := 0x1_0000_0000
  const TWO_53: int := 0x20_0000_0000_0000

  type uint32 = x: int | 0 <= x < TWO_32

  /** `Math.min` on integers. */
  function Min(a: int, b: int): int {
    if a <= b then a else b
  }

  function Abs(x: int): nat {
    if x < 0 then -x else x
  }

  function Pow2(n: nat): (r: nat)
    ensures r >= 1
  {
    if n == 0 then 1 else 2 * Pow2(n - 1)
  }

  /** ToUint32: the unique value in [0, 2^32) congruent to `x` modulo 2^32. */
  function ToUint32(x: int): (r: uint32)
    ensures (r - x) % TWO_32 == 0
    ensures 0 <= x < TWO_32 ==> r == x
  {
    x % TWO_32
  }

  /** ToInt32: the unique value in [-2^31, 2^31) congruent to `x` modulo 2^32. */
  function ToInt32(x: int): (r: int)
    ensures -TWO_31 <= r < TWO_31
    ensures (r - x) % TWO_32 == 0
    ensures -TWO_31 <= x < TWO_31 ==> r == x
  {
    var u := x % TWO_32;
    if u >= TWO_31 then u - TWO_32 else u
  }

  /** The integer part of `a / b` rounded toward zero, as JavaScript's
      `a / b | 0` computes it before the 32-bit wrap. */
  function TruncDiv(a: int, b: int): (q: int)
    requires b != 0
    ensures Abs(q) * Abs(b) <= Abs(a) < (Abs(q) + 1) * Abs(b)
    ensures q != 0 ==> ((q < 0) <==> ((a < 0) != (b < 0)))
  {
    var m := Abs(a) / Abs(b);
    DivBounds(Abs(a), Abs(b));
    if (a < 0) != (b < 0) then -m else m
  }

  lemma DivBounds(n: nat, d: nat)
    requires d > 0
    ensures (n / d) * d <= n < (n / d + 1) * d
  {
    var q := n / d;
    var r := n % d;
    assert n == q * d + r;
    assert (q + 1) * d == q * d + d;
  }

  /** JavaScript's `a % b` on integral numbers: the remainder takes the sign
      of the dividend. */
  function TruncRem(a: int, b: int): (r: int)
    requires b != 0
    ensures a == TruncDiv(a, b) * b + r
    ensures Abs(r) < Abs(b)
    ensures r != 0 ==> ((r < 0) <==> (a < 0))
  {
    var q := TruncDiv(a, b);
    TruncRemSign(a, b);
    a - q * b
  }

  lemma TruncRemSign(a: int, b: int)
    requires b != 0
    ensures Abs(a - TruncDiv(a, b) * b) < Abs(b)
    ensures a - TruncDiv(a, b) * b != 0 ==> ((a - TruncDiv(a, b) * b < 0) <==> (a < 0))
  {
    var q := TruncDiv(a, b);
    var m := Abs(a) / Abs(b);
    assert Abs(q) == m;
    var rem := Abs(a) - m * Abs(b);
    assert 0 <= rem < Abs(b);
    if a >= 0 {
      assert q * b == m * Abs(b);
      assert a - q * b == rem;
    } else {
      assert q * b == -(m * Abs(b));
      assert a - q * b == -rem;
    }
  }

  /** On non-negative operands the truncating remainder is `%`. */
  lemma TruncRemNonNegative(a: int, b: int)
    requires 0 <= a && 0 < b
    ensures TruncRem(a, b) == a % b
  {
    var r := TruncRem(a, b);
    var q := TruncDiv(a, b);
    assert a == q * b + r && 0 <= r < b;
    assert q == a / b;
  }

  /** On non-negative operands the truncating quotient is `/`. */
  lemma TruncDivNonNegative(a: int, b: int)
    requires 0 <= a && 0 < b
    ensures TruncDiv(a, b) == a / b
  {
  }

  /** `a % b` for 0 <= a <= b: a, or 0 when a reaches b. */
  lemma TruncRemUpTo(a: int, b: int)
    requires 0 <= a <= b && 0 < b
    ensures TruncRem(a, b) == if a == b then 0 else a
  {
    var q := TruncDiv(a, b);
    if a == b {
      assert q * b <= b < (q + 1) * b;
      assert q == 1;
    } else {
      assert q * b <= a < b;
      assert q == 0;
    }
  }

  /** `1 << n` in JavaScript: the shift count is taken modulo 32 and the
      result is a signed 32-bit integer. */
  function ShiftOne(n: nat): (r: int)
    ensures n % 32 < 31 ==> r == Pow2(n % 32)
    ensures n % 32 == 31 ==> r == -TWO_31
    ensures r != 0
  {
    Pow2Bounds(n % 32);
    if n % 32 == 31 then Pow2Is31(); ToInt32(Pow2(n % 32)) else ToInt32(Pow2(n % 32))
  }

  lemma Pow2Monotone(a: nat, b: nat)
    requires a <= b
    ensures Pow2(a) <= Pow2(b)
  {
    if a < b {
      Pow2Monotone(a, b - 1);
    }
  }

  lemma Pow2Is31()
    ensures Pow2(31) == TWO_31
  {
    assert Pow2(8) == 256;
    assert Pow2(16) == 65536 by { Pow2Add(8, 8); }
    assert Pow2(24) == 16777216 by { Pow2Add(16, 8); }
    assert Pow2(31) == 128 * Pow2(24) by { Pow2Add(24, 7); assert Pow2(7) == 128; }
  }

  lemma Pow2Add(a: nat, b: nat)
    ensures Pow2(a + b) == Pow2(a) * Pow2(b)
  {
    if b > 0 {
      Pow2Add(a, b - 1);
    }
  }

  lemma Pow2Bounds(n: nat)
    requires n < 32
    ensures n < 31 ==> Pow2(n) < TWO_31
    ensures n == 31 ==> Pow2(n) == TWO_31
  {
    Pow2Is31();
    if n < 31 {
      Pow2Monotone(n, 30);
      assert Pow2(31) == 2 * Pow2(30);
    }
  }

  // Number(bigint): the nearest double, ties to even.

  /** Number of binary digits of `n`. */
  function BitLength(n: nat): (r: nat)
    ensures n == 0 <==> r == 0
  {
    if n == 0 then 0 else 1 + BitLength(n / 2)
  }

  lemma {:induction false} BitLengthBounds(n: nat)
    requires n > 0
    ensures Pow2(BitLength(n) - 1) <= n < Pow2(BitLength(n))
  {
    if n > 1 {
      BitLengthBounds(n / 2);
    }
  }

  /** The magnitude of the double nearest to `n` (round half to even), as an
      integer; may reach or exceed 2^1024, where the double is Infinity. */
  function RoundMagnitude(n: nat): (m: nat)
    ensures n < TWO_53 ==> m == n
  {
    if n < TWO_53 then n
    else
      var e := if BitLength(n) > 53 then BitLength(n) - 53 else 0;
      RoundToUnit(n, Pow2(e))
  }

  /** `n` rounded to a multiple of `unit`, ties to the even multiple. */
  function RoundToUnit(n: nat, unit: nat): nat
    requires unit >= 1
  {
    var q := n / unit;
    var twice := 2 * (n - q * unit);
    if twice > unit || (twice == unit && q % 2 == 1) then (q + 1) * unit else q * unit
  }

  /** 2^1024: the least magnitude that rounds to Infinity as a double. */
  const TWO_1024: int := 0x10000000000000000000000000000000000000000000000000000000000000000000000000000000000000000000000000000000000000000000000000000000000000000000000000000000000000000000000000000000000000000000000000000000000000000000000000000000000000000000000000000000000000000

  /** The 32-bit word `new Uint32Array([Number(x)])` stores for a bigint `x`:
      ToUint32 of the nearest double, and 0 when that double is infinite. */
  function WordOfBigInt(x: int): (w: uint32)
    ensures Abs(x) < TWO_53 ==> w == ToUint32(x)
  {
    var m := RoundMagnitude(Abs(x));
    if m >= TWO_1024 then 0
    else if x < 0 then ToUint32(-(m as int)) else ToUint32(m)
  }

  // Number-to-integer conversions on reals (floating point rounding aside).

  /** The integral part of `x`, rounded toward zero. */
  function TruncReal(x: real): (r: int)
    ensures x >= 0.0 ==> r as real <= x < r as real + 1.0
    ensures x < 0.0 ==> r as real - 1.0 < x <= r as real
  {
    if x >= 0.0 then x.Floor else -((-x).Floor)
  }

  /** JavaScript's `x | 0` on a number: truncate, then wrap to 32 bits. */
  function OrZero(x: real): (r: int)
    ensures -TWO_31 <= r < TWO_31
    ensures (r - TruncReal(x)) % TWO_32 == 0
  {
    ToInt32(TruncReal(x))
  }

  /** JavaScript's `x % 1.0`: the fractional part, carrying the sign of `x`. */
  function FracPart(x: real): (r: real)
    ensures -1.0 < r < 1.0
    ensures x >= 0.0 ==> r >= 0.0
    ensures x <= 0.0 ==> r <= 0.0
    ensures (x - r).Floor as real == x - r
  {
    x - TruncReal(x) as real
  }
}

=== FILE: materials.dfy ===
/** The five storage-material classes and their fixed-width serializers:
    DebugMaterial and SolidMaterial (src/engine/materials/), WaterMaterial,
    PlanetMaterial and SkyMaterial (src/planet/materials/). A serialized
    instance is a `Uint32Array`; each class declares its width in bytes. */
module Materials {
  import opened Wrappers
  import opened JsNumbers
  import opened Bytes

  datatype MaterialClass = DebugClass | SolidClass | WaterClass | PlanetClass | SkyClass

  /** The static `instanceSize` each class declares. */
  function InstanceSize(c: MaterialClass): nat {
    match c
    case DebugClass => 4
    case SolidClass => 4
    case WaterClass => 3 * 4
    case PlanetClass => 4 * 3
    case SkyClass => 4 + 4 * 4
  }

  /** An RGBA colour vector; its components are never inspected here. */
  datatype Color = Color(r: real, g: real, b: real, a: real)

  /** A colour argument as callers pass it: a number, a bigint, a colour
      vector, or nothing at all (an omitted optional argument). Numbers are
      taken to be integral. */
  datatype ColorLike = NumberColor(n: int) | BigIntColor(big: int) | ArrayColor(color: Color) | Undefined

  /** The colour helpers of src/engine/color.ts that these classes call:
      `colorToBigInt`, `toColor` and `colorToInt`. They are not part of this
      model and enter as parameters. */
  datatype ColorCodec = ColorCodec(
    colorToBigInt: Color -> int,
    toColor: ColorLike -> Color,
    colorToInt: Color -> int)

  /** A seed argument: WaterMaterial declares a number, callers may pass a
      bigint. */
  datatype Seed = NumberSeed(n: int) | BigIntSeed(big: int)

  /** The fields a constructed instance holds, after each constructor's
      normalisation. */
  datatype Material =
    | Debug(color: int, isWireframe: bool)
    | Solid(color: int)
    | Water(seed: Seed, shallowColor: int, deepColor: int)
    | Planet(terrainSeed: int, landColor: Color, waterColor: Color)
    | Sky(skySeed: int, c0: Color, c1: Color, c2: Color, c3: Color)

  function ClassOf(m: Material): MaterialClass {
    match m
    case Debug(_, _) => DebugClass
    case Solid(_) => SolidClass
    case Water(_, _, _) => WaterClass
    case Planet(_, _, _) => PlanetClass
    case Sky(_, _, _, _, _) => SkyClass
  }

  /** `Array.isArray(c) ? colorToBigInt(c) : BigInt(c || 0)`: an array goes
      through the codec, any falsy value (0, 0n, undefined) becomes 0, and an
      integral number or bigint keeps its value. */
  function ColorBigInt(codec: ColorCodec, c: ColorLike): (r: int)
    ensures c.ArrayColor? ==> r == codec.colorToBigInt(c.color)
    ensures c.Undefined? ==> r == 0
    ensures c.NumberColor? ==> r == c.n
    ensures c.BigIntColor? ==> r == c.big
  {
    match c
    case ArrayColor(v) => codec.colorToBigInt(v)
    case NumberColor(n) => if n == 0 then 0 else n
    case BigIntColor(n) => if n == 0 then 0 else n
    case Undefined => 0
  }

  /** `new DebugMaterial(gfx, color, isWireframe = false)`. */
  function NewDebug(codec: ColorCodec, color: ColorLike, isWireframe: Option<bool>): (m: Material)
    ensures m.Debug?
    ensures m.color == ColorBigInt(codec, color)
    ensures isWireframe == None ==> !m.isWireframe
  {
    Debug(ColorBigInt(codec, color), isWireframe.GetOr(false))
  }

  /** `new SolidMaterial(gfx, color)`. */
  function NewSolid(codec: ColorCodec, color: ColorLike): (m: Material)
    ensures m.Solid? && m.color == ColorBigInt(codec, color)
  {
    Solid(ColorBigInt(codec, color))
  }

  /** `new WaterMaterial(gfx, seed, shallowColor?, deepColor?)`. */
  function NewWater(codec: ColorCodec, seed: Seed, shallowColor: ColorLike, deepColor: ColorLike): (m: Material)
    ensures m.Water? && m.seed == seed
    ensures m.shallowColor == ColorBigInt(codec, shallowColor)
    ensures m.deepColor == ColorBigInt(codec, deepColor)
    ensures shallowColor.Undefined? ==> m.shallowColor == 0
    ensures deepColor.Undefined? ==> m.deepColor == 0
  {
    Water(seed, ColorBigInt(codec, shallowColor), ColorBigInt(codec, deepColor))
  }

  /** `new PlanetMaterial(gfx, terrainSeed, landColor, waterColor)`: both
      colours normalised by `toColor`. */
  function NewPlanet(codec: ColorCodec, terrainSeed: int, landColor: ColorLike, waterColor: ColorLike): (m: Material)
    ensures m.Planet? && m.terrainSeed == terrainSeed
    ensures m.landColor == codec.toColor(landColor) && m.waterColor == codec.toColor(waterColor)
  {
    Planet(terrainSeed, codec.toColor(landColor), codec.toColor(waterColor))
  }

  /** `new SkyMaterial(gfx, seed, colors)`: exactly four colours, each
      normalised by `toColor`, order kept. */
  function NewSky(codec: ColorCodec, seed: int, colors: (ColorLike, ColorLike, ColorLike, ColorLike)): (m: Material)
    ensures m.Sky? && m.skySeed == seed
    ensures [m.c0, m.c1, m.c2, m.c3] == [codec.toColor(colors.0), codec.toColor(colors.1), codec.toColor(colors.2), codec.toColor(colors.3)]
  {
    Sky(seed, codec.toColor(colors.0), codec.toColor(colors.1), codec.toColor(colors.2), codec.toColor(colors.3))
  }

  /** Only WaterMaterial overrides `forwardRender`, setting it to true; the
      inherited default belongs to Material, which is not part of this model. */
  function ForwardRenderOverride(c: MaterialClass): (r: Option<bool>)
    ensures r.Some? <==> c == WaterClass
    ensures r.Some? ==> r.value
  {
    if c == WaterClass then Some(true) else None
  }

  /** A number as `Uint32Array` stores it: ToUint32. */
  function NumberWord(n: int): uint32 {
    ToUint32(n)
  }

  /** The words of `toArrayBuffer()`, with the water seed converted by
      `Number(seed)` like the planet and sky seeds (see WaterWordsAsWritten
      for the code as written). */
  function Words(codec: ColorCodec, m: Material): (r: seq<uint32>)
    ensures 4 * |r| == InstanceSize(ClassOf(m))
  {
    match m
    case Debug(color, _) => [WordOfBigInt(color)]
    case Solid(color) => [WordOfBigInt(color)]
    case Water(seed, shallow, deep) => [SeedWord(seed), WordOfBigInt(shallow), WordOfBigInt(deep)]
    case Planet(seed, land, water) =>
      [WordOfBigInt(seed), NumberWord(codec.colorToInt(land)), NumberWord(codec.colorToInt(water))]
    case Sky(seed, c0, c1, c2, c3) =>
      [WordOfBigInt(seed), NumberWord(codec.colorToInt(c0)), NumberWord(codec.colorToInt(c1)),
       NumberWord(codec.colorToInt(c2)), NumberWord(codec.colorToInt(c3))]
  }

  /** `Number(seed)` stored as a word, for either kind of seed. */
  function SeedWord(seed: Seed): uint32 {
    match seed
    case NumberSeed(n) => NumberWord(n)
    case BigIntSeed(b) => WordOfBigInt(b)
  }

  /** The serialized instance: the little-endian bytes of `Words`, exactly as
      wide as the class declares. */
  function Serialize(codec: ColorCodec, m: Material): (r: seq<byte>)
    ensures |r| == InstanceSize(ClassOf(m))
  {
    WordsToBytes(Words(codec, m))
  }

  /** Reading a serialized instance back as words gives the class's words. */
  lemma SerializeDecodes(codec: ColorCodec, m: Material)
    ensures |Serialize(codec, m)| % 4 == 0
    ensures BytesToWords(Serialize(codec, m)) == Words(codec, m)
  {
    WordsRoundTrip(Words(codec, m));
  }

  // WaterMaterial as written: `new Uint32Array([this.seed, ...])` with no
  // `Number(...)` around the seed. A bigint element makes the typed-array
  // constructor throw a TypeError.

  datatype SerializeError = TypeError

  function WaterWordsAsWritten(codec: ColorCodec, m: Material): (r: Result<seq<uint32>, SerializeError>)
    requires m.Water?
    ensures r.Err? <==> m.seed.BigIntSeed?
    ensures r.Ok? ==> r.value == Words(codec, m)
  {
    match m.seed
    case BigIntSeed(_) => Err(TypeError)
    case NumberSeed(n) => Ok([NumberWord(n), WordOfBigInt(m.shallowColor), WordOfBigInt(m.deepColor)])
  }

  /** `toArrayBuffer()` as written, for every class: only a water material
      with a bigint seed throws; every other material gives the bytes of
      `Serialize`. */
  function SerializeAsWritten(codec: ColorCodec, m: Material): (r: Result<seq<byte>, SerializeError>)
    ensures r.Err? <==> m.Water? && m.seed.BigIntSeed?
    ensures r.Ok? ==> r.value == Serialize(codec, m)
  {
    if m.Water? then
      match WaterWordsAsWritten(codec, m)
      case Err(e) => Err(e)
      case Ok(words) => Ok(WordsToBytes(words))
    else
      Ok(Serialize(codec, m))
  }

  // What each class puts on the wire.

  /** Debug and Solid: one word, the stored colour modulo 2^32 (for colours a
      double holds exactly); a falsy colour gives 0. */
  lemma SingleColorWord(codec: ColorCodec, color: ColorLike, isWireframe: Option<bool>)
    requires Abs(ColorBigInt(codec, color)) < TWO_53
    ensures Words(codec, NewDebug(codec, color, isWireframe)) == [ToUint32(ColorBigInt(codec, color))]
    ensures Words(codec, NewSolid(codec, color)) == [ToUint32(ColorBigInt(codec, color))]
    ensures color.Undefined? || color == NumberColor(0) || color == BigIntColor(0) ==>
              Words(codec, NewSolid(codec, color)) == [0] && Words(codec, NewDebug(codec, color, isWireframe)) == [0]
  {
  }

  /** Water: seed, shallow colour, deep colour, in that order; a missing
      colour is a zero word. */
  lemma WaterLayout(codec: ColorCodec, seed: int, shallowColor: ColorLike, deepColor: ColorLike)
    requires Abs(ColorBigInt(codec, shallowColor)) < TWO_53 && Abs(ColorBigInt(codec, deepColor)) < TWO_53
    ensures var w := Words(codec, NewWater(codec, NumberSeed(seed), shallowColor, deepColor));
            && w == [ToUint32(seed), ToUint32(ColorBigInt(codec, shallowColor)), ToUint32(ColorBigInt(codec, deepColor))]
            && (shallowColor.Undefined? ==> w[1] == 0)
            && (deepColor.Undefined? ==> w[2] == 0)
  {
  }

  /** Planet: `Number(terrainSeed)`, then the land and water colours packed
      by `colorToInt` after `toColor`. */
  lemma PlanetLayout(codec: ColorCodec, terrainSeed: int, landColor: ColorLike, waterColor: ColorLike)
    ensures var w := Words(codec, NewPlanet(codec, terrainSeed, landColor, waterColor));
            && w[1] == ToUint32(codec.colorToInt(codec.toColor(landColor)))
            && w[2] == ToUint32(codec.colorToInt(codec.toColor(waterColor)))
            && (Abs(terrainSeed) < TWO_53 ==> w[0] == ToUint32(terrainSeed))
  {
  }

  /** Sky: `Number(seed)` followed by the four colours in the order given,
      five words in all. */
  lemma SkyLayout(codec: ColorCodec, seed: int, colors: (ColorLike, ColorLike, ColorLike, ColorLike))
    ensures var w := Words(codec, NewSky(codec, seed, colors));
            && |w| == 5
            && w[1..] == [ToUint32(codec.colorToInt(codec.toColor(colors.0))), ToUint32(codec.colorToInt(codec.toColor(colors.1))),
                          ToUint32(codec.colorToInt(codec.toColor(colors.2))), ToUint32(codec.colorToInt(codec.toColor(colors.3)))]
            && (Abs(seed) < TWO_53 ==> w[0] == ToUint32(seed))
  {
  }

  /** planet/index.ts hands `planet.terrainSeed`, a bigint, to the water
      material: as written its serialization throws for every such seed. */
  lemma WaterBigIntSeedThrows(codec: ColorCodec, seed: int, shallowColor: ColorLike, deepColor: ColorLike)
    ensures WaterWordsAsWritten(codec, NewWater(codec, BigIntSeed(seed), shallowColor, deepColor)) == Err(TypeError)
  {
  }

  /** With `Number(seed)` the same call serializes to twelve bytes whose first
      word is the seed modulo 2^32. */
  lemma WaterBigIntSeedSerializes(codec: ColorCodec, seed: int, shallowColor: ColorLike, deepColor: ColorLike)
    requires Abs(seed) < TWO_53
    ensures var m := NewWater(codec, BigIntSeed(seed), shallowColor, deepColor);
            && |Serialize(codec, m)| == 12
            && Words(codec, m)[0] == ToUint32(seed)
  {
  }
}

=== FILE: mesh_instances.dfy ===
/** The per-mesh instance table the graphics layer fills: one record per
    drawn instance, laid out in the GPU buffer as the star renderer's
    `meshInstanceLayout` declares (src/planet/pipelines/render_star.ts).
    SimpleMesh is not part of this model; its `pushInstance` and
    `removeInstance` are stood in by an allocator that hands out fresh slot
    indices and forgets removed ones. */
module MeshInstances {
  import opened Wrappers
  import opened Ecs

  datatype Format = Float32x4 | Uint32 | Uint32x3 | Float32

  function FormatSize(f: Format): nat {
    match f
    case Float32x4 => 16
    case Uint32 => 4
    case Uint32x3 => 12
    case Float32 => 4
  }

  datatype Attribute = Attribute(location: nat, offset: nat, format: Format)

  /** Transform rows, material index, instance colours, variant index,
      variant blend, live flag. */
  const INSTANCE_LAYOUT: seq<Attribute> := [
    Attribute(3, 0, Float32x4),
    Attribute(4, 16, Float32x4),
    Attribute(5, 32, Float32x4),
    Attribute(6, 48, Float32x4),
    Attribute(7, 64, Uint32),
    Attribute(8, 68, Uint32x3),
    Attribute(9, 80, Uint32),
    Attribute(10, 84, Float32),
    Attribute(11, 88, Uint32)
  ]

  const ARRAY_STRIDE: nat := 92

  const VARIANT_INDEX_ATTRIBUTE: nat := 6
  const VARIANT_BLEND_ATTRIBUTE: nat := 7

  /** The attributes sit back to back from offset 0 and end at the stride. */
  predicate Packed(attrs: seq<Attribute>, stride: nat) {
    && |attrs| > 0
    && attrs[0].offset == 0
    && (forall i :: 0 <= i < |attrs| - 1 ==> attrs[i].offset + FormatSize(attrs[i].format) == attrs[i + 1].offset)
    && attrs[|attrs| - 1].offset + FormatSize(attrs[|attrs| - 1].format) == stride
  }

  /** The index of the attribute whose bytes contain `offset`, if any. */
  function AttributeAt(attrs: seq<Attribute>, offset: nat): (r: Option<nat>)
    ensures r.Some? ==> (r.value < |attrs|
      && attrs[r.value].offset <= offset < attrs[r.value].offset + FormatSize(attrs[r.value].format))
    ensures r.None? ==> forall i :: 0 <= i < |attrs| ==> !(attrs[i].offset <= offset < attrs[i].offset + FormatSize(attrs[i].format))
  {
    if attrs == [] then None
    else if attrs[0].offset <= offset < attrs[0].offset + FormatSize(attrs[0].format) then Some(0)
    else match AttributeAt(attrs[1..], offset)
      case None => None
      case Some(i) => Some(i + 1)
  }

  /** Byte offsets `updateMeshes` writes at for instance `idx` of a mesh
      whose instance size is `instanceSize`. */
  function TransformWriteOffset(idx: nat, instanceSize: nat): nat {
    idx * instanceSize
  }

  function VariantIndexWriteOffset(idx: nat, instanceSize: nat): nat {
    idx * instanceSize + 16 * 4 + 4 * 4
  }

  function VariantBlendWriteOffset(idx: nat, instanceSize: nat): nat {
    VariantIndexWriteOffset(idx, instanceSize) + 4
  }

  /** The layout is packed into 92 bytes: the attributes sit back to back
      from offset 0, and the first four are the Float32x4 rows of the
      transform at offsets 0, 16, 32 and 48. */
  lemma InstanceLayoutPacked()
    ensures Packed(INSTANCE_LAYOUT, ARRAY_STRIDE)
    ensures forall j :: 0 <= j < 4 ==> INSTANCE_LAYOUT[j].format == Float32x4 && INSTANCE_LAYOUT[j].offset == 16 * j
  {
  }

  /** With the instance size equal to the stride, the variant writes of
      instance `idx` start exactly at the offsets of the variant-index
      (a Uint32) and variant-blend (a Float32) attributes of its record, and
      the 64-byte transform write starts at the first transform row. */
  lemma WriteOffsetsMatchLayout(idx: nat)
    ensures VariantIndexWriteOffset(idx, ARRAY_STRIDE) == idx * ARRAY_STRIDE + INSTANCE_LAYOUT[VARIANT_INDEX_ATTRIBUTE].offset
    ensures VariantBlendWriteOffset(idx, ARRAY_STRIDE) == idx * ARRAY_STRIDE + INSTANCE_LAYOUT[VARIANT_BLEND_ATTRIBUTE].offset
    ensures INSTANCE_LAYOUT[VARIANT_INDEX_ATTRIBUTE].format == Uint32
    ensures INSTANCE_LAYOUT[VARIANT_BLEND_ATTRIBUTE].format == Float32
    ensures TransformWriteOffset(idx, ARRAY_STRIDE) == idx * ARRAY_STRIDE + INSTANCE_LAYOUT[0].offset
  {
  }

  /** The bytes at offsets 80 and 84 of a record belong to the variant-index
      and variant-blend attributes and to no earlier one. */
  lemma VariantAttributesAt()
    ensures AttributeAt(INSTANCE_LAYOUT, 80) == Some(VARIANT_INDEX_ATTRIBUTE)
    ensures AttributeAt(INSTANCE_LAYOUT, 84) == Some(VARIANT_BLEND_ATTRIBUTE)
  {
    var ends := seq(|INSTANCE_LAYOUT|, i requires 0 <= i < |INSTANCE_LAYOUT| => INSTANCE_LAYOUT[i].offset + FormatSize(INSTANCE_LAYOUT[i].format));
    assert ends == [16, 32, 48, 64, 68, 80, 84, 88, 92];
    FirstContaining(INSTANCE_LAYOUT, 80, 6);
    FirstContaining(INSTANCE_LAYOUT, 84, 7);
  }

  /** `AttributeAt` finds the first attribute whose bytes contain `offset`. */
  lemma {:induction false} FirstContaining(attrs: seq<Attribute>, offset: nat, j: nat)
    requires j < |attrs| && attrs[j].offset <= offset < attrs[j].offset + FormatSize(attrs[j].format)
    requires forall i :: 0 <= i < j ==> attrs[i].offset + FormatSize(attrs[i].format) <= offset
    ensures AttributeAt(attrs, offset) == Some(j)
    decreases j
  {
    if j > 0 {
      assert attrs[0].offset + FormatSize(attrs[0].format) <= offset;
      forall i | 0 <= i < j - 1
        ensures attrs[1..][i].offset + FormatSize(attrs[1..][i].format) <= offset
      {
        assert attrs[1..][i] == attrs[i + 1];
      }
      FirstContaining(attrs[1..], offset, j - 1);
    }
  }

  /** One record of the table; instance colours are not modelled. */
  datatype InstanceRecord = InstanceRecord(
    transform: Transform,
    materialIndex: int,
    variantIndex: int,
    variantBlend: real,
    live: int)

  /** Live records by slot, and the next slot the allocator hands out. */
  datatype InstanceTable = InstanceTable(records: map<nat, InstanceRecord>, next: nat)

  ghost predicate TableValid(t: InstanceTable) {
    forall i :: i in t.records ==> i < t.next
  }

  const EmptyTable: InstanceTable := InstanceTable(map[], 0)

  datatype Pushed = Pushed(slot: nat, table: InstanceTable)

  /** `mesh.pushInstance(record)`: store under a slot no live record uses. */
  function PushInstance(t: InstanceTable, rec: InstanceRecord): (r: Pushed)
    ensures TableValid(t) ==> TableValid(r.table) && r.slot !in t.records
    ensures r.table.records == t.records[r.slot := rec]
    ensures r.slot < r.table.next && t.next <= r.table.next
  {
    Pushed(t.next, InstanceTable(t.records[t.next := rec], t.next + 1))
  }

  /** `mesh.removeInstance(idx)`. */
  function RemoveInstance(t: InstanceTable, slot: nat): (r: InstanceTable)
    ensures TableValid(t) ==> TableValid(r)
    ensures r.records == t.records - {slot} && r.next == t.next
  {
    t.(records := t.records - {slot})
  }

  /** The transform write of `updateMeshes`: only that slot's transform
      changes; a write to a slot with no live record changes no record. */
  function SetTransform(t: InstanceTable, slot: nat, transform: Transform): (r: InstanceTable)
    ensures r.records.Keys == t.records.Keys && r.next == t.next
    ensures slot in t.records ==> r.records[slot] == t.records[slot].(transform := transform)
    ensures forall i :: i in t.records && i != slot ==> r.records[i] == t.records[i]
  {
    if slot in t.records then t.(records := t.records[slot := t.records[slot].(transform := transform)]) else t
  }

  /** The variant-index and variant-blend writes of `updateMeshes`. */
  function SetVariant(t: InstanceTable, slot: nat, index: int, blend: real): (r: InstanceTable)
    ensures r.records.Keys == t.records.Keys && r.next == t.next
    ensures slot in t.records ==> r.records[slot] == t.records[slot].(variantIndex := index, variantBlend := blend)
    ensures forall i :: i in t.records && i != slot ==> r.records[i] == t.records[i]
  {
    if slot in t.records then t.(records := t.records[slot := t.records[slot].(variantIndex := index, variantBlend := blend)]) else t
  }
}

=== FILE: mesh_pass.dfy ===
/** `updateMeshes` (src/engine/world_graphics.ts): every entity with a
    MeshComponent and a TransformComponent gets one instance slot in its
    mesh's instance table on first sight, under one shared pawn per mesh;
    every pass rewrites the slot's transform and, for an entity with a
    MaterialComponent, its variant fields; afterwards every tracked entity
    not seen in the pass loses its slot. */
module MeshPass {
  import opened Wrappers
  import opened Seqs
  import opened JsNumbers
  import opened Resources
  import opened Ecs
  import opened Scenes
  import opened MeshInstances
  import opened GraphicsState

  /** The record `pushInstance` receives for a new entity. The material's
      own variant fields start at 0 (the Material base class is not part of
      this model); for an entity with a MaterialComponent they are
      overwritten in the same pass. */
  function NewInstance(transform: Transform, m: MaterialRef): InstanceRecord {
    InstanceRecord(transform, MaterialIndex(m), 0, 0.0, 1)
  }

  /** The instance table of mesh object `obj` (empty before its first instance). */
  function TableOf(g: Graphics, obj: nat): InstanceTable {
    if obj in g.tables then g.tables[obj] else EmptyTable
  }

  /** The creating branch for an untracked entity: look up the mesh, then
      the material (either lookup may throw, before anything changes), add
      the mesh's pawn if the mesh has none yet, push the instance and track
      the entity. */
  function CreateMesh(f: Frame, e: Entity, meshId: ResourceId, transform: Transform, mat: Option<MaterialComponent>): (r: Result<Frame, MissingResource>)
    ensures r.Err? <==> meshId !in f.g.resources || MaterialOrDefault(f.g.resources, mat).Err?
    ensures r.Err? && meshId !in f.g.resources ==> r.error == MissingResource(meshId)
    ensures r.Ok? ==>
      && var obj := f.g.resources[meshId].obj;
      && var g := r.value.g;
      && g == f.g.(meshes := g.meshes, instanceMeshes := g.instanceMeshes, tables := g.tables)
      && g.meshes.Keys == f.g.meshes.Keys + {e}
      && g.meshes[e].meshObj == obj
      && (forall x :: x in f.g.meshes && x != e ==> g.meshes[x] == f.g.meshes[x])
      && obj in g.tables && g.tables[obj].records.Keys == TableOf(f.g, obj).records.Keys + {g.meshes[e].slot}
      && g.tables[obj].records == TableOf(f.g, obj).records[g.meshes[e].slot := NewInstance(transform, MaterialOrDefault(f.g.resources, mat).value)]
      && (forall o :: o in f.g.tables && o != obj ==> o in g.tables && g.tables[o] == f.g.tables[o])
      && g.tables.Keys == f.g.tables.Keys + {obj}
      && (TableValid(TableOf(f.g, obj)) ==> TableValid(g.tables[obj]) && g.meshes[e].slot !in TableOf(f.g, obj).records)
  {
    match GetResource(f.g.resources, meshId)
    case Err(err) => Err(err)
    case Ok(mesh) =>
      match MaterialOrDefault(f.g.resources, mat)
      case Err(err) => Err(err)
      case Ok(m) =>
        var obj := mesh.obj;
        var (pawn, scene) := MeshPawn(f, obj, m);
        var pushed := PushInstance(TableOf(f.g, obj), NewInstance(transform, m));
        var g := f.g.(
          meshes := f.g.meshes[e := MeshEntry(pushed.slot, pawn, obj)],
          instanceMeshes := f.g.instanceMeshes[obj := pawn],
          tables := f.g.tables[obj := pushed.table]);
        Ok(Frame(g, scene))
  }

  /** The pawn all instances of mesh object `obj` share: the existing
      one, or a new InstancedMeshPawn drawn with the first instance's
      material. */
  function MeshPawn(f: Frame, obj: nat, m: MaterialRef): (r: (PawnId, Scene))
    ensures obj in f.g.instanceMeshes ==> r == (f.g.instanceMeshes[obj], f.scene)
    ensures obj !in f.g.instanceMeshes ==> r.0 == f.scene.nextPawn && r.0 in r.1.pawns && r.1.pawns[r.0] == InstancedMeshPawn(obj, m)
  {
    if obj in f.g.instanceMeshes then (f.g.instanceMeshes[obj], f.scene)
    else var added := AddPawn(f.scene, InstancedMeshPawn(obj, m)); (added.id, added.scene)
  }

  /** The per-pass writes for a tracked entity: the transform, then (with
      a MaterialComponent, whose material is resolved again and may throw
      after the transform write) the variant index `variant | 0` as an
      unsigned word and the blend `variant % 1.0`. */
  function WriteInstance(f: Frame, e: Entity, transform: Transform, mat: Option<MaterialComponent>): (r: Outcome)
    requires e in f.g.meshes
    ensures r.error.Some? <==> mat.Some? && MaterialFor(f.g.resources, mat.value).Err?
    ensures r.frame.scene == f.scene
    ensures r.frame.g == f.g.(tables := r.frame.g.tables)
    ensures r.frame.g.tables.Keys == f.g.tables.Keys
    ensures forall o :: o in f.g.tables ==> r.frame.g.tables[o].records.Keys == f.g.tables[o].records.Keys && r.frame.g.tables[o].next == f.g.tables[o].next
    ensures var entry := f.g.meshes[e];
            forall o, i :: o in f.g.tables && i in f.g.tables[o].records && (o != entry.meshObj || i != entry.slot) ==>
              r.frame.g.tables[o].records[i] == f.g.tables[o].records[i]
    ensures var entry := f.g.meshes[e];
            entry.meshObj in f.g.tables && entry.slot in f.g.tables[entry.meshObj].records ==>
              var before := f.g.tables[entry.meshObj].records[entry.slot];
              var after := r.frame.g.tables[entry.meshObj].records[entry.slot];
              if mat.Some? && r.error.None? then
                after == before.(transform := transform,
                                 variantIndex := ToUint32(OrZero(mat.value.variant)),
                                 variantBlend := FracPart(mat.value.variant))
              else
                after == before.(transform := transform)
  {
    var entry := f.g.meshes[e];
    var obj := entry.meshObj;
    var g1 := if obj in f.g.tables then f.g.(tables := f.g.tables[obj := SetTransform(f.g.tables[obj], entry.slot, transform)]) else f.g;
    match mat
    case None => Outcome(Frame(g1, f.scene), None)
    case Some(comp) =>
      match MaterialFor(f.g.resources, comp)
      case Err(err) => Outcome(Frame(g1, f.scene), Some(err))
      case Ok(_) =>
        var index := ToUint32(OrZero(comp.variant));
        var blend := FracPart(comp.variant);
        var g2 := if obj in g1.tables then g1.(tables := g1.tables[obj := SetVariant(g1.tables[obj], entry.slot, index, blend)]) else g1;
        Outcome(Frame(g2, f.scene), None)
  }

  /** One iteration of the entity loop. */
  function MeshStep(f: Frame, e: Entity, c: Components): (r: Outcome)
    requires c.meshId.Some? && c.transform.Some?
    ensures r.frame.g == f.g.(meshes := r.frame.g.meshes, instanceMeshes := r.frame.g.instanceMeshes, tables := r.frame.g.tables)
    ensures r.error.None? ==> r.frame.g.meshes.Keys == f.g.meshes.Keys + {e}
    ensures r.frame.g.meshes.Keys <= f.g.meshes.Keys + {e}
    ensures f.g.meshes.Keys <= r.frame.g.meshes.Keys
    ensures forall x :: x in f.g.meshes && x != e ==> r.frame.g.meshes[x] == f.g.meshes[x]
    ensures e in f.g.meshes ==> r.frame.g.meshes == f.g.meshes && r.frame.scene == f.scene
  {
    if e in f.g.meshes then WriteInstance(f, e, c.transform.value, c.material)
    else
      match CreateMesh(f, e, c.meshId.value, c.transform.value, c.material)
      case Err(err) => Outcome(f, Some(err))
      case Ok(f1) => WriteInstance(f1, e, c.transform.value, c.material)
  }

  /** The entity loop over `es`, stopping at the first thrown error. */
  function MeshLoop(f: Frame, w: World, es: seq<Entity>): (r: Outcome)
    requires forall i :: 0 <= i < |es| ==> es[i] in w.components && Matches(MeshQuery, w.components[es[i]])
    ensures r.frame.g == f.g.(meshes := r.frame.g.meshes, instanceMeshes := r.frame.g.instanceMeshes, tables := r.frame.g.tables)
    decreases |es|
  {
    if es == [] then Outcome(f, None)
    else
      assert Matches(MeshQuery, w.components[es[0]]);
      var step := MeshStep(f, es[0], w.components[es[0]]);
      if step.error.Some? then step else MeshLoop(step.frame, w, es[1..])
  }

  /** The slots of tracked entities outside `seen` in mesh object `obj`. */
  function StaleSlots(meshes: map<Entity, MeshEntry>, seen: set<Entity>, obj: nat): set<nat> {
    set x | x in meshes && x !in seen && meshes[x].meshObj == obj :: meshes[x].slot
  }

  /** The stale-removal loop: every tracked entity outside `seen` is
      dropped from `meshes` and its slot removed from its mesh's table.
      The removals touch distinct entries and so commute; their order
      (that of `meshes.keys()`) does not matter. */
  function RemoveStale(g: Graphics, seen: set<Entity>): (r: Graphics)
    ensures r == g.(meshes := r.meshes, tables := r.tables)
    ensures forall x :: x in r.meshes <==> x in g.meshes && x in seen
    ensures forall x :: x in r.meshes ==> r.meshes[x] == g.meshes[x]
    ensures r.tables.Keys == g.tables.Keys
    ensures forall o :: o in g.tables ==> r.tables[o] == RemoveAll(g.tables[o], StaleSlots(g.meshes, seen, o))
  {
    g.(meshes := map x | x in g.meshes && x in seen :: g.meshes[x],
       tables := map o | o in g.tables :: RemoveAll(g.tables[o], StaleSlots(g.meshes, seen, o)))
  }

  /** `removeInstance` for each of a set of slots. */
  function RemoveAll(t: InstanceTable, slots: set<nat>): (r: InstanceTable)
    ensures forall i :: i in r.records <==> i in t.records && i !in slots
    ensures forall i :: i in r.records ==> r.records[i] == t.records[i]
    ensures r.next == t.next
  {
    t.(records := map i | i in t.records && i !in slots :: t.records[i])
  }

  /** `updateMeshes(world, scene)`. */
  function UpdateMeshes(f: Frame, w: World): (r: Outcome)
    requires WorldValid(w)
    ensures r.frame.g == f.g.(meshes := r.frame.g.meshes, instanceMeshes := r.frame.g.instanceMeshes, tables := r.frame.g.tables)
  {
    var es := Entities(MeshQuery, w);
    var looped := MeshLoop(f, w, es);
    if looped.error.Some? then looped
    else Outcome(Frame(RemoveStale(looped.frame.g, Elements(es)), looped.frame.scene), None)
  }

  /** Every tracked entity holds a live slot in its mesh's table, no two
      entities of one mesh share a slot, and every table is well-formed. */
  ghost predicate MeshesValid(g: Graphics) {
    && (forall o :: o in g.tables ==> TableValid(g.tables[o]))
    && (forall x :: x in g.meshes ==> g.meshes[x].meshObj in g.tables && g.meshes[x].slot in g.tables[g.meshes[x].meshObj].records)
    && (forall x, y :: x in g.meshes && y in g.meshes && x != y && g.meshes[x].meshObj == g.meshes[y].meshObj ==> g.meshes[x].slot != g.meshes[y].slot)
  }

  /** `g2`'s tables hold the same live slots and counters as `g1`'s. */
  predicate SameSlots(g1: Graphics, g2: Graphics) {
    && g1.tables.Keys == g2.tables.Keys
    && (forall o :: o in g1.tables ==> g2.tables[o].records.Keys == g1.tables[o].records.Keys && g2.tables[o].next == g1.tables[o].next)
  }

  lemma CreateMeshKeepsValid(f: Frame, e: Entity, meshId: ResourceId, transform: Transform, mat: Option<MaterialComponent>)
    requires MeshesValid(f.g) && e !in f.g.meshes
    requires CreateMesh(f, e, meshId, transform, mat).Ok?
    ensures MeshesValid(CreateMesh(f, e, meshId, transform, mat).value.g)
  {
    TrackingNewKeepsValid(f.g, CreateMesh(f, e, meshId, transform, mat).value.g, e, f.g.resources[meshId].obj);
  }

  /** Tracking a new entity `e` under a fresh slot of mesh object `obj`,
      with every other table and entry left alone, keeps MeshesValid. */
  lemma TrackingNewKeepsValid(g0: Graphics, g: Graphics, e: Entity, obj: nat)
    requires MeshesValid(g0) && e !in g0.meshes
    requires g.meshes.Keys == g0.meshes.Keys + {e} && g.meshes[e].meshObj == obj
    requires forall x :: x in g0.meshes && x != e ==> g.meshes[x] == g0.meshes[x]
    requires obj in g.tables && g.tables[obj].records.Keys == TableOf(g0, obj).records.Keys + {g.meshes[e].slot}
    requires forall o :: o in g0.tables && o != obj ==> o in g.tables && g.tables[o] == g0.tables[o]
    requires g.tables.Keys == g0.tables.Keys + {obj}
    requires TableValid(g.tables[obj]) && g.meshes[e].slot !in TableOf(g0, obj).records
    ensures MeshesValid(g)
  {
    forall x | x in g.meshes
      ensures g.meshes[x].meshObj in g.tables && g.meshes[x].slot in g.tables[g.meshes[x].meshObj].records
    {
      if x != e && g.meshes[x].meshObj == obj {
        assert TableOf(g0, obj) == g0.tables[obj];
      }
    }
    forall x, y | x in g.meshes && y in g.meshes && x != y && g.meshes[x].meshObj == g.meshes[y].meshObj
      ensures g.meshes[x].slot != g.meshes[y].slot
    {
      if x == e {
        assert g.meshes[y].slot in TableOf(g0, obj).records;
      } else if y == e {
        assert g.meshes[x].slot in TableOf(g0, obj).records;
      }
    }
  }

  lemma WriteInstanceKeepsValid(f: Frame, e: Entity, transform: Transform, mat: Option<MaterialComponent>)
    requires e in f.g.meshes && MeshesValid(f.g)
    ensures MeshesValid(WriteInstance(f, e, transform, mat).frame.g)
  {
    var g := WriteInstance(f, e, transform, mat).frame.g;
    assert SameSlots(f.g, g);
  }

  /** A pass step keeps the slot bookkeeping consistent. */
  lemma MeshStepKeepsValid(f: Frame, e: Entity, c: Components)
    requires c.meshId.Some? && c.transform.Some? && MeshesValid(f.g)
    ensures MeshesValid(MeshStep(f, e, c).frame.g)
  {
    if e !in f.g.meshes {
      var created := CreateMesh(f, e, c.meshId.value, c.transform.value, c.material);
      if created.Ok? {
        CreateMeshKeepsValid(f, e, c.meshId.value, c.transform.value, c.material);
        WriteInstanceKeepsValid(created.value, e, c.transform.value, c.material);
      }
    } else {
      WriteInstanceKeepsValid(f, e, c.transform.value, c.material);
    }
  }

  lemma {:induction false} MeshLoopKeepsValid(f: Frame, w: World, es: seq<Entity>)
    requires forall i :: 0 <= i < |es| ==> es[i] in w.components && Matches(MeshQuery, w.components[es[i]])
    requires MeshesValid(f.g)
    ensures MeshesValid(MeshLoop(f, w, es).frame.g)
    decreases |es|
  {
    if es != [] {
      assert Matches(MeshQuery, w.components[es[0]]);
      var step := MeshStep(f, es[0], w.components[es[0]]);
      MeshStepKeepsValid(f, es[0], w.components[es[0]]);
      if step.error.None? {
        MeshLoopKeepsValid(step.frame, w, es[1..]);
      }
    }
  }

  /** Removing the stale entities never takes a slot a kept entity holds. */
  lemma RemoveStaleKeepsValid(g: Graphics, seen: set<Entity>)
    requires MeshesValid(g)
    ensures MeshesValid(RemoveStale(g, seen))
  {
    var r := RemoveStale(g, seen);
    forall x | x in r.meshes
      ensures r.meshes[x].meshObj in r.tables && r.meshes[x].slot in r.tables[r.meshes[x].meshObj].records
    {
      var o := g.meshes[x].meshObj;
      assert g.meshes[x].slot !in StaleSlots(g.meshes, seen, o);
    }
  }

  /** `updateMeshes` keeps the slot bookkeeping consistent. */
  lemma UpdateMeshesKeepsValid(f: Frame, w: World)
    requires WorldValid(w) && MeshesValid(f.g)
    ensures MeshesValid(UpdateMeshes(f, w).frame.g)
  {
    var es := Entities(MeshQuery, w);
    MeshLoopKeepsValid(f, w, es);
    var looped := MeshLoop(f, w, es);
    if looped.error.None? {
      RemoveStaleKeepsValid(looped.frame.g, Elements(es));
    }
  }

  /** The entity loop tracks every entity it completes, and leaves the
      entries of entities it does not visit alone. */
  lemma {:induction false} MeshLoopTracks(f: Frame, w: World, es: seq<Entity>)
    requires forall i :: 0 <= i < |es| ==> es[i] in w.components && Matches(MeshQuery, w.components[es[i]])
    ensures var r := MeshLoop(f, w, es);
      && (forall x :: x in f.g.meshes && x !in es ==> x in r.frame.g.meshes && r.frame.g.meshes[x] == f.g.meshes[x])
      && (r.error.None? ==> forall x :: x in r.frame.g.meshes <==> x in f.g.meshes || x in es)
    decreases |es|
  {
    if es != [] {
      assert Matches(MeshQuery, w.components[es[0]]);
      var step := MeshStep(f, es[0], w.components[es[0]]);
      if step.error.None? {
        MeshLoopTracks(step.frame, w, es[1..]);
        assert forall x :: x in es <==> x == es[0] || x in es[1..];
      }
    }
  }

  /** After a pass that completes, the tracked entities are exactly those
      the mesh query returned. */
  lemma UpdateMeshesTracksSeen(f: Frame, w: World)
    requires WorldValid(w) && UpdateMeshes(f, w).error.None?
    ensures forall x :: x in UpdateMeshes(f, w).frame.g.meshes <==> x in w.components && Matches(MeshQuery, w.components[x])
  {
    MeshLoopTracks(f, w, Entities(MeshQuery, w));
  }

  /** A tracked entity the query no longer returns is untracked by a
      completed pass, and its slot is no longer live in its mesh's table;
      every entity still seen keeps its slot live. */
  lemma UpdateMeshesRemovesStale(f: Frame, w: World, x: Entity)
    requires WorldValid(w) && MeshesValid(f.g)
    requires x in f.g.meshes && !(x in w.components && Matches(MeshQuery, w.components[x]))
    ensures var r := UpdateMeshes(f, w);
      var entry := f.g.meshes[x];
      r.error.None? ==>
        && x !in r.frame.g.meshes
        && entry.meshObj in r.frame.g.tables
        && entry.slot !in r.frame.g.tables[entry.meshObj].records
  {
    var es := Entities(MeshQuery, w);
    MeshLoopTracks(f, w, es);
    MeshLoopKeepsValid(f, w, es);
    var looped := MeshLoop(f, w, es);
    if looped.error.None? {
      var entry := f.g.meshes[x];
      assert x !in es;
      assert entry.meshObj in looped.frame.g.tables;
      assert entry.slot in StaleSlots(looped.frame.g.meshes, Elements(es), entry.meshObj);
    }
  }

  /** Tracked entity `x` has a live record holding what the pass writes
      for its components `c`: the transform and, with a MaterialComponent,
      the variant index `variant | 0` as an unsigned word and the blend
      `variant % 1.0`. */
  ghost predicate Written(g: Graphics, x: Entity, c: Components) {
    && x in g.meshes
    && var entry := g.meshes[x];
    && entry.meshObj in g.tables
    && entry.slot in g.tables[entry.meshObj].records
    && var rec := g.tables[entry.meshObj].records[entry.slot];
    && c.transform.Some? && rec.transform == c.transform.value
    && (c.material.Some? ==>
          rec.variantIndex == ToUint32(OrZero(c.material.value.variant))
          && rec.variantBlend == FracPart(c.material.value.variant))
  }

  /** A step that completes leaves its entity's record written. */
  lemma StepWrites(f: Frame, e: Entity, c: Components)
    requires c.meshId.Some? && c.transform.Some? && MeshesValid(f.g)
    requires MeshStep(f, e, c).error.None?
    ensures Written(MeshStep(f, e, c).frame.g, e, c)
  {
    if e !in f.g.meshes {
      CreateMeshKeepsValid(f, e, c.meshId.value, c.transform.value, c.material);
    }
  }

  /** Writing entity `e`'s record leaves every other entity's record alone. */
  lemma WriteKeepsWritten(f: Frame, e: Entity, transform: Transform, mat: Option<MaterialComponent>, x: Entity, cx: Components)
    requires e in f.g.meshes && MeshesValid(f.g)
    requires x != e && Written(f.g, x, cx)
    ensures Written(WriteInstance(f, e, transform, mat).frame.g, x, cx)
  {
    var ex := f.g.meshes[x];
    assert ex.meshObj != f.g.meshes[e].meshObj || ex.slot != f.g.meshes[e].slot;
  }

  /** Creating entity `e`'s record pushes into a fresh slot, so every
      other entity's record stays as it was. */
  lemma CreateKeepsWritten(f: Frame, e: Entity, meshId: ResourceId, transform: Transform, mat: Option<MaterialComponent>, x: Entity, cx: Components)
    requires e !in f.g.meshes && MeshesValid(f.g) && Written(f.g, x, cx)
    requires CreateMesh(f, e, meshId, transform, mat).Ok?
    ensures Written(CreateMesh(f, e, meshId, transform, mat).value.g, x, cx)
  {
    var g := CreateMesh(f, e, meshId, transform, mat).value.g;
    var ex := f.g.meshes[x];
    var obj := f.g.resources[meshId].obj;
    if ex.meshObj == obj {
      assert TableOf(f.g, obj) == f.g.tables[obj];
      assert ex.slot != g.meshes[e].slot;
    }
  }

  /** A step on entity `e` leaves every other entity's record alone. */
  lemma StepKeepsWritten(f: Frame, e: Entity, c: Components, x: Entity, cx: Components)
    requires c.meshId.Some? && c.transform.Some? && MeshesValid(f.g)
    requires x != e && Written(f.g, x, cx)
    ensures Written(MeshStep(f, e, c).frame.g, x, cx)
  {
    if e in f.g.meshes {
      WriteKeepsWritten(f, e, c.transform.value, c.material, x, cx);
    } else {
      var created := CreateMesh(f, e, c.meshId.value, c.transform.value, c.material);
      if created.Ok? {
        CreateMeshKeepsValid(f, e, c.meshId.value, c.transform.value, c.material);
        CreateKeepsWritten(f, e, c.meshId.value, c.transform.value, c.material, x, cx);
        WriteKeepsWritten(created.value, e, c.transform.value, c.material, x, cx);
      }
    }
  }

  /** A loop that completes leaves every entity it visited written, and
      every entity already written still written. */
  lemma {:induction false} MeshLoopWrites(f: Frame, w: World, es: seq<Entity>)
    requires forall i :: 0 <= i < |es| ==> es[i] in w.components && Matches(MeshQuery, w.components[es[i]])
    requires MeshesValid(f.g)
    ensures var r := MeshLoop(f, w, es);
      r.error.None? ==>
        forall x :: x in w.components && (x in es || Written(f.g, x, w.components[x])) ==> Written(r.frame.g, x, w.components[x])
    decreases |es|
  {
    if es != [] {
      var c := w.components[es[0]];
      assert Matches(MeshQuery, c);
      var step := MeshStep(f, es[0], c);
      if step.error.None? {
        MeshStepKeepsValid(f, es[0], c);
        StepWrites(f, es[0], c);
        assert forall i :: 0 <= i < |es[1..]| ==> es[1..][i] == es[i + 1];
        MeshLoopWrites(step.frame, w, es[1..]);
        forall x | x in w.components && (x in es || Written(f.g, x, w.components[x]))
          ensures x in es[1..] || Written(step.frame.g, x, w.components[x])
        {
          if x !in es[1..] && x != es[0] {
            StepKeepsWritten(f, es[0], c, x, w.components[x]);
          }
        }
      }
    }
  }

  /** Stale removal keeps the records of the entities it keeps. */
  lemma RemoveStaleKeepsWritten(g: Graphics, seen: set<Entity>, x: Entity, c: Components)
    requires MeshesValid(g) && x in seen && Written(g, x, c)
    ensures Written(RemoveStale(g, seen), x, c)
  {
    var o := g.meshes[x].meshObj;
    assert g.meshes[x].slot !in StaleSlots(g.meshes, seen, o);
  }

  /** After a pass that completes, every tracked entity's live record
      holds its current transform and, with a MaterialComponent, its
      current variant index and blend. */
  lemma UpdateMeshesWritesCurrent(f: Frame, w: World)
    requires WorldValid(w) && MeshesValid(f.g) && UpdateMeshes(f, w).error.None?
    ensures var g := UpdateMeshes(f, w).frame.g;
      forall x :: x in g.meshes ==> x in w.components && Written(g, x, w.components[x])
  {
    var es := Entities(MeshQuery, w);
    var looped := MeshLoop(f, w, es);
    MeshLoopWrites(f, w, es);
    MeshLoopKeepsValid(f, w, es);
    UpdateMeshesTracksSeen(f, w);
    var g := UpdateMeshes(f, w).frame.g;
    forall x | x in g.meshes
      ensures x in w.components && Written(g, x, w.components[x])
    {
      assert x in es;
      RemoveStaleKeepsWritten(looped.frame.g, Elements(es), x, w.components[x]);
    }
  }

  /** The custom materials of every entity in `es` are registered. */
  predicate Resolves(resources: map<ResourceId, Resource>, w: World, es: seq<Entity>)
    requires forall i :: 0 <= i < |es| ==> es[i] in w.components
  {
    forall i :: 0 <= i < |es| ==> var mat := w.components[es[i]].material; mat.Some? ==> MaterialFor(resources, mat.value).Ok?
  }

  /** A step that completes has found the entity's custom material. */
  lemma MeshStepSuccessResolves(f: Frame, e: Entity, c: Components)
    requires c.meshId.Some? && c.transform.Some?
    requires MeshStep(f, e, c).error.None?
    ensures c.material.Some? ==> MaterialFor(f.g.resources, c.material.value).Ok?
  {
    if e !in f.g.meshes {
      assert CreateMesh(f, e, c.meshId.value, c.transform.value, c.material).Ok?;
    }
  }

  /** A loop that completes has found every custom material it needed. */
  lemma {:induction false} MeshLoopSuccessResolves(f: Frame, w: World, es: seq<Entity>)
    requires forall i :: 0 <= i < |es| ==> es[i] in w.components && Matches(MeshQuery, w.components[es[i]])
    requires MeshLoop(f, w, es).error.None?
    ensures Resolves(f.g.resources, w, es)
    decreases |es|
  {
    if es != [] {
      var c := w.components[es[0]];
      var step := MeshStep(f, es[0], c);
      MeshLoopUnfold(f, w, es);
      MeshStepSuccessResolves(f, es[0], c);
      MeshLoopSuccessResolves(step.frame, w, es[1..]);
      ResolvesCons(f.g.resources, w, es);
    }
  }

  /** A loop that completes has completed its first step and the rest. */
  lemma MeshLoopUnfold(f: Frame, w: World, es: seq<Entity>)
    requires forall i :: 0 <= i < |es| ==> es[i] in w.components && Matches(MeshQuery, w.components[es[i]])
    requires es != [] && MeshLoop(f, w, es).error.None?
    ensures var step := MeshStep(f, es[0], w.components[es[0]]);
      && step.error.None?
      && step.frame.g.resources == f.g.resources
      && (forall i :: 0 <= i < |es[1..]| ==> es[1..][i] in w.components && Matches(MeshQuery, w.components[es[1..][i]]))
      && MeshLoop(step.frame, w, es[1..]).error.None?
  {
    assert forall i :: 0 <= i < |es[1..]| ==> es[1..][i] == es[i + 1];
  }

  /** `Resolves` over a non-empty sequence: its head and its tail. */
  lemma ResolvesCons(resources: map<ResourceId, Resource>, w: World, es: seq<Entity>)
    requires |es| > 0 && forall i :: 0 <= i < |es| ==> es[i] in w.components
    requires var mat := w.components[es[0]].material; mat.Some? ==> MaterialFor(resources, mat.value).Ok?
    requires Resolves(resources, w, es[1..])
    ensures Resolves(resources, w, es)
  {
    forall i | 0 < i < |es|
      ensures var mat := w.components[es[i]].material; mat.Some? ==> MaterialFor(resources, mat.value).Ok?
    {
      assert es[i] == es[1..][i - 1];
    }
  }

  /** Over entities that are all tracked and whose materials resolve, the
      loop only rewrites instance data: nothing is allocated or dropped. */
  lemma {:induction false} MeshLoopTrackedIsQuiet(f: Frame, w: World, es: seq<Entity>)
    requires forall i :: 0 <= i < |es| ==> es[i] in w.components && Matches(MeshQuery, w.components[es[i]])
    requires forall i :: 0 <= i < |es| ==> es[i] in f.g.meshes
    requires Resolves(f.g.resources, w, es)
    ensures var r := MeshLoop(f, w, es);
      && r.error.None?
      && r.frame.scene == f.scene
      && r.frame.g.meshes == f.g.meshes
      && r.frame.g.instanceMeshes == f.g.instanceMeshes
      && SameSlots(f.g, r.frame.g)
    decreases |es|
  {
    if es != [] {
      var c := w.components[es[0]];
      assert Matches(MeshQuery, c);
      var step := MeshStep(f, es[0], c);
      assert step == WriteInstance(f, es[0], c.transform.value, c.material);
      assert SameSlots(f.g, step.frame.g);
      assert Resolves(step.frame.g.resources, w, es[1..]) by {
        forall i | 0 <= i < |es[1..]|
          ensures var mat := w.components[es[1..][i]].material; mat.Some? ==> MaterialFor(step.frame.g.resources, mat.value).Ok?
        {
          assert es[1..][i] == es[i + 1];
        }
      }
      MeshLoopTrackedIsQuiet(step.frame, w, es[1..]);
    }
  }

  /** A second pass over an unchanged World allocates nothing: it
      completes, tracks the same entities under the same slots and pawns,
      adds no pawn, and leaves every table's live slots and counter as
      they were. */
  lemma UpdateMeshesIdempotent(f: Frame, w: World)
    requires WorldValid(w)
    ensures var r1 := UpdateMeshes(f, w);
      var r2 := UpdateMeshes(r1.frame, w);
      r1.error.None? ==>
        && r2.error.None?
        && r2.frame.scene == r1.frame.scene
        && r2.frame.g.meshes == r1.frame.g.meshes
        && r2.frame.g.instanceMeshes == r1.frame.g.instanceMeshes
        && SameSlots(r1.frame.g, r2.frame.g)
  {
    var es := Entities(MeshQuery, w);
    var r1 := UpdateMeshes(f, w);
    if r1.error.None? {
      var f1 := r1.frame;
      MeshLoopSuccessResolves(f, w, es);
      assert Resolves(f1.g.resources, w, es);
      SeenAreTracked(f, w);
      MeshLoopTrackedIsQuiet(f1, w, es);
      var looped := MeshLoop(f1, w, es);
      StaleOfTrackedIsEmpty(looped.frame.g, es);
      assert UpdateMeshes(f1, w) == Outcome(Frame(RemoveStale(looped.frame.g, Elements(es)), looped.frame.scene), None);
    }
  }

  lemma SeenAreTracked(f: Frame, w: World)
    requires WorldValid(w) && UpdateMeshes(f, w).error.None?
    ensures var es := Entities(MeshQuery, w);
      forall i :: 0 <= i < |es| ==> es[i] in UpdateMeshes(f, w).frame.g.meshes
  {
    var es := Entities(MeshQuery, w);
    UpdateMeshesTracksSeen(f, w);
    forall i | 0 <= i < |es|
      ensures es[i] in UpdateMeshes(f, w).frame.g.meshes
    {
      var x := es[i];
      assert x in es;
      assert x in UpdateMeshes(f, w).frame.g.meshes <==> x in w.components && Matches(MeshQuery, w.components[x]);
    }
  }

  /** When every tracked entity was seen, stale removal changes no slot. */
  lemma StaleOfTrackedIsEmpty(g: Graphics, es: seq<Entity>)
    requires forall x :: x in g.meshes ==> x in es
    ensures var r := RemoveStale(g, Elements(es));
      r.meshes == g.meshes && SameSlots(g, r)
  {
    var seen := Elements(es);
    var r := RemoveStale(g, seen);
    forall o | o in g.tables
      ensures r.tables[o].records.Keys == g.tables[o].records.Keys
    {
      assert StaleSlots(g.meshes, seen, o) == {};
    }
    assert forall x :: x in g.meshes ==> x in seen;
    assert r.meshes.Keys == g.meshes.Keys;
  }

  /** The slots of mesh object `obj` held by stale entities outside `pending`. */
  function DoneSlots(meshes: map<Entity, MeshEntry>, seen: set<Entity>, pending: set<Entity>, obj: nat): set<nat> {
    set x | x in meshes && x !in seen && x !in pending && meshes[x].meshObj == obj :: meshes[x].slot
  }

  /** Removing one more slot is `removeInstance`. */
  lemma RemoveAllStep(t: InstanceTable, slots: set<nat>, slot: nat)
    ensures RemoveInstance(RemoveAll(t, slots), slot) == RemoveAll(t, slots + {slot})
  {
    assert RemoveInstance(RemoveAll(t, slots), slot).records == RemoveAll(t, slots + {slot}).records;
  }

  /** One iteration of the removal loop for stale entity `x`. */
  function RemoveOne(r: Graphics, x: Entity, entry: MeshEntry): Graphics {
    var o := entry.meshObj;
    if o in r.tables then r.(meshes := r.meshes - {x}, tables := r.tables[o := RemoveInstance(r.tables[o], entry.slot)])
    else r.(meshes := r.meshes - {x})
  }

  /** What the removal loop has achieved once only `pending` remains. */
  ghost predicate RemovalProgress(g: Graphics, seen: set<Entity>, pending: set<Entity>, r: Graphics) {
    && (forall x :: x in pending ==> x in g.meshes && x !in seen)
    && r == g.(meshes := r.meshes, tables := r.tables)
    && (forall x :: x in r.meshes <==> x in g.meshes && (x in seen || x in pending))
    && (forall x :: x in r.meshes ==> r.meshes[x] == g.meshes[x])
    && r.tables.Keys == g.tables.Keys
    && (forall o :: o in g.tables ==> r.tables[o] == RemoveAll(g.tables[o], DoneSlots(g.meshes, seen, pending, o)))
  }

  lemma RemoveOneProgress(g: Graphics, seen: set<Entity>, pending: set<Entity>, r: Graphics, x: Entity)
    requires RemovalProgress(g, seen, pending, r) && x in pending
    ensures RemovalProgress(g, seen, pending - {x}, RemoveOne(r, x, g.meshes[x]))
  {
    var r' := RemoveOne(r, x, g.meshes[x]);
    assert r' == g.(meshes := r'.meshes, tables := r'.tables);
    assert forall y :: y in r'.meshes <==> y in g.meshes && (y in seen || y in pending - {x});
    RemoveOneTables(g, seen, pending, r, x);
  }

  /** The table half of RemoveOneProgress: the slot of `x` joins the
      removed ones in its own table, and no other table changes. */
  lemma RemoveOneTables(g: Graphics, seen: set<Entity>, pending: set<Entity>, r: Graphics, x: Entity)
    requires RemovalProgress(g, seen, pending, r) && x in pending
    ensures var r' := RemoveOne(r, x, g.meshes[x]);
      && r'.tables.Keys == g.tables.Keys
      && forall o :: o in g.tables ==> r'.tables[o] == RemoveAll(g.tables[o], DoneSlots(g.meshes, seen, pending - {x}, o))
  {
    var entry := g.meshes[x];
    var o := entry.meshObj;
    var r' := RemoveOne(r, x, entry);
    if o in r.tables {
      RemoveAllStep(g.tables[o], DoneSlots(g.meshes, seen, pending, o), entry.slot);
      assert DoneSlots(g.meshes, seen, pending - {x}, o) == DoneSlots(g.meshes, seen, pending, o) + {entry.slot};
    }
    forall p | p in g.tables && p != o
      ensures r'.tables[p] == RemoveAll(g.tables[p], DoneSlots(g.meshes, seen, pending - {x}, p))
    {
      assert DoneSlots(g.meshes, seen, pending - {x}, p) == DoneSlots(g.meshes, seen, pending, p);
    }
  }

  lemma RemovalDone(g: Graphics, seen: set<Entity>, r: Graphics)
    requires RemovalProgress(g, seen, {}, r)
    ensures r == RemoveStale(g, seen)
  {
    var stale := RemoveStale(g, seen);
    assert forall o :: o in g.tables ==> DoneSlots(g.meshes, seen, {}, o) == StaleSlots(g.meshes, seen, o);
    assert forall x :: x in r.meshes <==> x in stale.meshes;
    assert forall x :: x in r.meshes ==> r.meshes[x] == stale.meshes[x];
    assert r.meshes == stale.meshes;
    assert forall o :: o in r.tables ==> r.tables[o] == stale.tables[o];
    assert r.tables == stale.tables;
  }

  /** The tracked entities not seen this pass, in `keys` order. */
  function StaleKeys(keys: seq<Entity>, seen: set<Entity>): (r: seq<Entity>)
    ensures forall x :: x in r <==> x in keys && x !in seen
    ensures NoDuplicates(keys) ==> NoDuplicates(r)
  {
    if keys == [] then []
    else
      var rest := StaleKeys(keys[1..], seen);
      assert NoDuplicates(keys) ==> NoDuplicates(keys[1..]) && keys[0] !in keys[1..] by {
        if NoDuplicates(keys) {
          forall i, j | 0 <= i < j < |keys[1..]|
            ensures keys[1..][i] != keys[1..][j]
          {
            assert keys[1..][i] == keys[i + 1] && keys[1..][j] == keys[j + 1];
          }
        }
      }
      if keys[0] in seen then rest
      else
        assert NoDuplicates(keys) ==> NoDuplicates([keys[0]] + rest) by {
          if NoDuplicates(keys) {
            forall i, j | 0 <= i < j < |[keys[0]] + rest|
              ensures ([keys[0]] + rest)[i] != ([keys[0]] + rest)[j]
            {
              if i > 0 {
                assert ([keys[0]] + rest)[i] == rest[i - 1];
              }
              assert ([keys[0]] + rest)[j] == rest[j - 1];
            }
          }
        }
        [keys[0]] + rest
  }

  /** The removal loop as the source runs it: collect the tracked
      entities not seen, in the map's insertion order `keys`, then for each
      delete it from `meshes` and call `removeInstance` on its slot. The
      result does not depend on that order. */
  method RemoveStaleMeshes(g: Graphics, seen: set<Entity>, keys: seq<Entity>) returns (r: Graphics)
    requires NoDuplicates(keys) && forall x :: x in keys <==> x in g.meshes
    ensures r == RemoveStale(g, seen)
  {
    var removed := StaleKeys(keys, seen);
    r := g;
    assert forall o :: o in g.tables ==> RemoveAll(g.tables[o], DoneSlots(g.meshes, seen, Elements(removed), o)) == g.tables[o];
    var i := 0;
    while i < |removed|
      invariant 0 <= i <= |removed|
      invariant RemovalProgress(g, seen, Elements(removed[i..]), r)
    {
      var x := removed[i];
      RemoveOneProgress(g, seen, Elements(removed[i..]), r, x);
      assert Elements(removed[i..]) - {x} == Elements(removed[i + 1..]) by {
        assert removed[i..] == [x] + removed[i + 1..];
        assert x !in removed[i + 1..] by {
          forall j | i + 1 <= j < |removed|
            ensures removed[j] != x
          {
          }
        }
      }
      r := RemoveOne(r, x, g.meshes[x]);
      i := i + 1;
    }
    assert Elements(removed[|removed|..]) == {} by {
      assert removed[|removed|..] == [];
    }
    RemovalDone(g, seen, r);
  }
}

=== FILE: player_input.dfy ===
/** The discrete state of PlayerInputSystem (src/planet/systems/player_input.ts):
    the held and pressed key maps that keyboard events and gamepad polls
    fill, the edge detection on gamepad buttons, the ship-mode toggle and
    focus cycling `updateMovement` performs on the pressed keys, and the
    variant clamp of `updateMorph`. Velocities, rotations and camera
    orientation are floating-point vector maths and are not modelled. */
module PlayerInput {
  import opened Wrappers
  import opened Seqs
  import opened JsNumbers
  import opened Ecs

  /** The `Key` enum of src/engine/input/index.ts, in declaration order. */
  datatype Key = Forward | Backward | Left | Right | Up | RollLeft | RollRight | Down | Boost | Thrust
    | Stable | Brake | CameraYaw | CameraPitch | ToggleMode | NextCamera | PrevCamera | Fire | Bomb | Pick

  /** The numeric value of a key. Forward is 0, the one key JavaScript
      treats as false. */
  function KeyCode(k: Key): (r: nat)
    ensures r == 0 <==> k == Forward
  {
    match k
    case Forward => 0 case Backward => 1 case Left => 2 case Right => 3 case Up => 4
    case RollLeft => 5 case RollRight => 6 case Down => 7 case Boost => 8 case Thrust => 9
    case Stable => 10 case Brake => 11 case CameraYaw => 12 case CameraPitch => 13 case ToggleMode => 14
    case NextCamera => 15 case PrevCamera => 16 case Fire => 17 case Bomb => 18 case Pick => 19
  }

  /** The `XboxAxis` enum. */
  datatype Axis = LeftStickX | LeftStickY | RightStickX | RightStickY

  /** The names of the `XboxButton` enum, indexed by button number. */
  const BUTTON_NAMES: seq<string> := ["A", "B", "X", "Y", "LeftBumper", "RightBumper",
    "LeftTrigger", "RightTrigger", "Options", "Menu", "LeftStick", "RightStick"]

  /** `XboxButton[i]` used as a property name: a button past the enum is
      `undefined`, which names the property "undefined". */
  function ButtonName(i: nat): string {
    if i < |BUTTON_NAMES| then BUTTON_NAMES[i] else "undefined"
  }

  /** The default `bindings` record: keyboard keys (lower-cased) and the
      gamepad button and axis names. */
  const DEFAULT_BINDINGS: map<string, Key> := map[
    "w" := Forward, "s" := Backward, "a" := RollLeft, "d" := RollRight,
    "q" := Left, "e" := Right, "f" := ToggleMode, "," := PrevCamera, "." := NextCamera,
    " " := Thrust, "alt" := Boost, "shift" := Brake,
    "X" := Fire, "B" := Pick, "A" := Bomb, "LeftBumper" := Left, "RightBumper" := Right,
    "LeftTrigger" := Brake, "RightTrigger" := Thrust, "LeftStick" := ToggleMode,
    "LeftStickX" := Left, "LeftStickY" := Forward, "RightStickX" := CameraYaw, "RightStickY" := CameraPitch]

  /** `bindings[name]`: the bound key, or None for `undefined`. */
  function Lookup(bindings: map<string, Key>, name: string): (r: Option<Key>)
    ensures r.Some? <==> name in bindings
    ensures r.Some? ==> r.value == bindings[name]
  {
    if name in bindings then Some(bindings[name]) else None
  }

  /** `toLowerCase()` on the ASCII letters; other characters are kept. */
  function LowerChar(c: char): char {
    if 'A' <= c <= 'Z' then (c as int + 32) as char else c
  }

  function Lower(s: string): string {
    seq(|s|, i requires 0 <= i < |s| => LowerChar(s[i]))
  }

  // ---------------------------------------------------------------------
  // Key maps

  /** A JavaScript `Map<Key, number>`: its keys in insertion order, and
      the value of each. */
  datatype KeyMap = KeyMap(order: seq<Key>, values: map<Key, real>)

  const EmptyKeys: KeyMap := KeyMap([], map[])

  ghost predicate KeyMapValid(m: KeyMap) {
    NoDuplicates(m.order) && (forall k :: k in m.order <==> k in m.values)
  }

  /** `map.set(k, v)`: a new key goes last, an existing key keeps its place. */
  function SetKey(m: KeyMap, k: Key, v: real): (r: KeyMap)
    ensures r.values == m.values[k := v]
    ensures KeyMapValid(m) ==> KeyMapValid(r)
  {
    if k in m.values then KeyMap(m.order, m.values[k := v])
    else
      assert KeyMapValid(m) ==> NoDuplicates(m.order + [k]) by {
        if KeyMapValid(m) {
          forall i, j | 0 <= i < j < |m.order + [k]| ensures (m.order + [k])[i] != (m.order + [k])[j] {
            if j == |m.order| {
              assert m.order[i] in m.order;
            }
          }
        }
      }
      KeyMap(m.order + [k], m.values[k := v])
  }

  /** `map.delete(k)`. */
  function DeleteKey(m: KeyMap, k: Key): (r: KeyMap)
    ensures r.values == m.values - {k}
    ensures KeyMapValid(m) ==> KeyMapValid(r)
  {
    KeyMap(Without(m.order, k), m.values - {k})
  }

  // ---------------------------------------------------------------------
  // Input state and events

  /** The fields of PlayerInputSystem that persist between frames. An
      axis read past the end of the gamepad's `axes` array is `undefined`,
      written None. */
  datatype InputState = InputState(
    held: KeyMap,
    pressed: KeyMap,
    axis: map<Axis, Option<real>>,
    previousButtons: map<nat, real>,
    bindings: map<string, Key>)

  const InitialInput: InputState := InputState(EmptyKeys, EmptyKeys, map[], map[], DEFAULT_BINDINGS)

  ghost predicate InputValid(s: InputState) {
    KeyMapValid(s.held) && KeyMapValid(s.pressed)
  }

  /** `onKeyDown`: a bound key (after lower-casing) is set to 1.0 in both
      the pressed and the held map; an unbound key changes nothing. */
  function OnKeyDown(s: InputState, name: string): (r: InputState)
    ensures Lower(name) !in s.bindings ==> r == s
    ensures Lower(name) in s.bindings ==>
      var k := s.bindings[Lower(name)];
      && r.pressed.values == s.pressed.values[k := 1.0]
      && r.held.values == s.held.values[k := 1.0]
      && r.axis == s.axis && r.previousButtons == s.previousButtons && r.bindings == s.bindings
    ensures InputValid(s) ==> InputValid(r)
  {
    match Lookup(s.bindings, Lower(name))
    case None => s
    case Some(k) => s.(pressed := SetKey(s.pressed, k, 1.0), held := SetKey(s.held, k, 1.0))
  }

  /** `onKeyUp`: a bound key leaves the held map only; a key pressed this
      frame stays pressed. */
  function OnKeyUp(s: InputState, name: string): (r: InputState)
    ensures Lower(name) !in s.bindings ==> r == s
    ensures Lower(name) in s.bindings ==>
      && r.held.values == s.held.values - {s.bindings[Lower(name)]}
      && r.pressed == s.pressed
      && r.axis == s.axis && r.previousButtons == s.previousButtons && r.bindings == s.bindings
    ensures InputValid(s) ==> InputValid(r)
  {
    match Lookup(s.bindings, Lower(name))
    case None => s
    case Some(k) => s.(held := DeleteKey(s.held, k))
  }

  /** A key tapped between two frames: released, it is no longer held but
      is still pressed for the next `updateMovement`. */
  lemma TapLeavesPressed(s: InputState, name: string)
    requires Lower(name) in s.bindings
    ensures var k := s.bindings[Lower(name)];
      var r := OnKeyUp(OnKeyDown(s, name), name);
      && k !in r.held.values
      && k in r.pressed.values && r.pressed.values[k] == 1.0
      && r.held.values == s.held.values - {k}
  {
    var k := s.bindings[Lower(name)];
    assert s.held.values[k := 1.0] - {k} == s.held.values - {k};
  }

  /** Lower-casing twice is lower-casing once. */
  lemma LowerIdempotent(name: string)
    ensures Lower(Lower(name)) == Lower(name)
  {
    assert forall i :: 0 <= i < |name| ==> LowerChar(LowerChar(name[i])) == LowerChar(name[i]);
  }

  /** Keyboard events do not depend on case: Shift+W acts as w. */
  lemma KeysIgnoreCase(s: InputState, name: string)
    ensures OnKeyDown(s, name) == OnKeyDown(s, Lower(name))
    ensures OnKeyUp(s, name) == OnKeyUp(s, Lower(name))
  {
    LowerIdempotent(name);
  }

  /** Under the default bindings the keyboard's A (either case) rolls
      left, while the gamepad's A button, looked up by its unlowered enum
      name, drops a bomb. */
  lemma DefaultBindingsSplitA()
    ensures Lookup(DEFAULT_BINDINGS, Lower("A")) == Some(RollLeft)
    ensures Lookup(DEFAULT_BINDINGS, ButtonName(0)) == Some(Bomb)
  {
    assert Lower("A") == "a";
  }

  // ---------------------------------------------------------------------
  // Gamepads

  /** A connected gamepad: its axes and its button values. */
  datatype Pad = Pad(axes: seq<real>, buttons: seq<real>)

  /** A button value above this counts as pressed. */
  const PRESS_THRESHOLD: real := 0.001

  /** `axes[i]`, or `undefined` past the end. */
  function AxisAt(axes: seq<real>, i: nat): (r: Option<real>)
    ensures r.Some? <==> i < |axes|
  {
    if i < |axes| then Some(axes[i]) else None
  }

  /** One button of `updateGamepads`. A value equal to the one recorded for
      this button index changes nothing. Otherwise the value is recorded;
      above the threshold, a bound key other than Forward (which is falsy)
      becomes pressed at 1.0 and held at the value; at or below it, the
      bound key leaves the held map. */
  function ButtonStep(s: InputState, i: nat, value: real): (r: InputState)
    ensures i in s.previousButtons && s.previousButtons[i] == value ==> r == s
    ensures r.previousButtons == s.previousButtons[i := value]
    ensures r.axis == s.axis && r.bindings == s.bindings
    ensures !(i in s.previousButtons && s.previousButtons[i] == value) ==>
      var key := Lookup(s.bindings, ButtonName(i));
      && (value > PRESS_THRESHOLD && key.Some? && key.value != Forward ==>
            && r.pressed.values == s.pressed.values[key.value := 1.0]
            && r.held.values == s.held.values[key.value := value])
      && (value > PRESS_THRESHOLD && !(key.Some? && key.value != Forward) ==>
            r.pressed == s.pressed && r.held == s.held)
      && (value <= PRESS_THRESHOLD && key.Some? ==>
            r.pressed == s.pressed && r.held.values == s.held.values - {key.value})
      && (value <= PRESS_THRESHOLD && key.None? ==> r.pressed == s.pressed && r.held == s.held)
    ensures InputValid(s) ==> InputValid(r)
  {
    if i in s.previousButtons && s.previousButtons[i] == value then s
    else
      var recorded := s.(previousButtons := s.previousButtons[i := value]);
      var key := Lookup(s.bindings, ButtonName(i));
      if value > PRESS_THRESHOLD then
        if key.Some? && KeyCode(key.value) != 0 then
          recorded.(pressed := SetKey(s.pressed, key.value, 1.0), held := SetKey(s.held, key.value, value))
        else recorded
      else if key.Some? then recorded.(held := DeleteKey(s.held, key.value))
      else recorded
  }

  /** Edge detection: polling a button again at the value just seen
      changes nothing. */
  lemma ButtonStepIdempotent(s: InputState, i: nat, value: real)
    ensures ButtonStep(ButtonStep(s, i, value), i, value) == ButtonStep(s, i, value)
  {
  }

  /** The buttons of one pad from index `from` on. */
  function PollButtons(s: InputState, buttons: seq<real>, from: nat): (r: InputState)
    requires from <= |buttons|
    ensures r.axis == s.axis && r.bindings == s.bindings
    ensures InputValid(s) ==> InputValid(r)
    decreases |buttons| - from
  {
    if from == |buttons| then s
    else PollButtons(ButtonStep(s, from, buttons[from]), buttons, from + 1)
  }

  /** One pad: its four axes, then its buttons in order. */
  function PollPad(s: InputState, pad: Pad): (r: InputState)
    ensures r.bindings == s.bindings
    ensures InputValid(s) ==> InputValid(r)
  {
    var axes := s.axis[LeftStickX := AxisAt(pad.axes, 0)][LeftStickY := AxisAt(pad.axes, 1)]
      [RightStickX := AxisAt(pad.axes, 2)][RightStickY := AxisAt(pad.axes, 3)];
    PollButtons(s.(axis := axes), pad.buttons, 0)
  }

  /** The pads in order, skipping the null entries. */
  function PollPads(s: InputState, pads: seq<Option<Pad>>): (r: InputState)
    ensures r.bindings == s.bindings
    ensures InputValid(s) ==> InputValid(r)
    decreases |pads|
  {
    if pads == [] then s
    else PollPads(if pads[0].Some? then PollPad(s, pads[0].value) else s, pads[1..])
  }

  /** `updateGamepads`: nothing while the document lacks focus. */
  function UpdateGamepads(s: InputState, focused: bool, pads: seq<Option<Pad>>): (r: InputState)
    ensures !focused ==> r == s
    ensures r.bindings == s.bindings
    ensures InputValid(s) ==> InputValid(r)
  {
    if focused then PollPads(s, pads) else s
  }

  /** Polling the buttons from `from` on leaves the records of the
      earlier buttons alone. */
  lemma {:induction false} PollButtonsKeepsEarlier(s: InputState, buttons: seq<real>, from: nat, i: nat)
    requires from <= |buttons| && i < from && i in s.previousButtons
    ensures var r := PollButtons(s, buttons, from);
      i in r.previousButtons && r.previousButtons[i] == s.previousButtons[i]
    decreases |buttons| - from
  {
    if from < |buttons| {
      var next := ButtonStep(s, from, buttons[from]);
      assert next.previousButtons == s.previousButtons[from := buttons[from]];
      PollButtonsKeepsEarlier(next, buttons, from + 1, i);
    }
  }

  /** Polling the buttons from `from` on records the value of each. */
  lemma {:induction false} PollButtonsRecords(s: InputState, buttons: seq<real>, from: nat, i: nat)
    requires from <= i < |buttons|
    ensures var r := PollButtons(s, buttons, from);
      i in r.previousButtons && r.previousButtons[i] == buttons[i]
    decreases |buttons| - from
  {
    var next := ButtonStep(s, from, buttons[from]);
    assert next.previousButtons == s.previousButtons[from := buttons[from]];
    if i == from {
      PollButtonsKeepsEarlier(next, buttons, from + 1, i);
    } else {
      PollButtonsRecords(next, buttons, from + 1, i);
    }
  }

  /** Buttons whose values are all already recorded leave the state alone. */
  lemma {:induction false} PollButtonsQuiet(s: InputState, buttons: seq<real>, from: nat)
    requires from <= |buttons|
    requires forall i :: from <= i < |buttons| ==> i in s.previousButtons && s.previousButtons[i] == buttons[i]
    ensures PollButtons(s, buttons, from) == s
    decreases |buttons| - from
  {
    if from < |buttons| {
      PollButtonsQuiet(s, buttons, from + 1);
    }
  }

  /** With one gamepad, a second poll at unchanged values changes nothing:
      keys are pressed on changes, not on levels. */
  lemma SinglePadPollIdempotent(s: InputState, pad: Pad)
    ensures var once := PollPads(s, [Some(pad)]);
      PollPads(once, [Some(pad)]) == once
  {
    var once := PollPad(s, pad);
    assert PollPads(s, [Some(pad)]) == once;
    var axes := s.axis[LeftStickX := AxisAt(pad.axes, 0)][LeftStickY := AxisAt(pad.axes, 1)]
      [RightStickX := AxisAt(pad.axes, 2)][RightStickY := AxisAt(pad.axes, 3)];
    forall i | 0 <= i < |pad.buttons|
      ensures i in once.previousButtons && once.previousButtons[i] == pad.buttons[i]
    {
      PollButtonsRecords(s.(axis := axes), pad.buttons, 0, i);
    }
    var again := once.(axis := once.axis[LeftStickX := AxisAt(pad.axes, 0)][LeftStickY := AxisAt(pad.axes, 1)]
      [RightStickX := AxisAt(pad.axes, 2)][RightStickY := AxisAt(pad.axes, 3)]);
    assert again.axis == once.axis;
    assert again == once;
    PollButtonsQuiet(once, pad.buttons, 0);
    assert PollPads(once, [Some(pad)]) == PollPad(once, pad);
  }

  /** Polling two pads is polling one, then the other. */
  lemma TwoPads(s: InputState, a: Pad, b: Pad)
    ensures PollPads(s, [Some(a), Some(b)]) == PollPad(PollPad(s, a), b)
  {
    assert [Some(a), Some(b)][1..] == [Some(b)];
    assert PollPads(PollPad(s, a), [Some(b)]) == PollPads(PollPad(PollPad(s, a), b), []);
  }

  /** The recorded values are keyed by button index alone, shared by all
      pads: with two pads whose A buttons rest at different values, every
      poll sees a change, so A is pressed again on each frame although
      nothing moved. */
  lemma SharedButtonIndicesRefire()
    ensures var pads := [Some(Pad([], [1.0])), Some(Pad([], [0.0]))];
      var first := UpdateGamepads(InitialInput, true, pads);
      var cleared := first.(pressed := EmptyKeys);
      var second := UpdateGamepads(cleared, true, pads);
      && Bomb in first.pressed.values
      && Bomb in second.pressed.values
      && second.previousButtons == first.previousButtons
  {
    var up := Pad([], [1.0]);
    var down := Pad([], [0.0]);
    assert Lookup(DEFAULT_BINDINGS, ButtonName(0)) == Some(Bomb);
    var first := PollPad(PollPad(InitialInput, up), down);
    TwoPads(InitialInput, up, down);
    assert first.previousButtons == map[0 := 0.0];
    assert Bomb in first.pressed.values;
    var cleared := first.(pressed := EmptyKeys);
    var second := PollPad(PollPad(cleared, up), down);
    TwoPads(cleared, up, down);
    assert PollPad(cleared, up).previousButtons == map[0 := 1.0];
    assert Bomb in second.pressed.values;
  }

  // ---------------------------------------------------------------------
  // updateMovement: mode toggle and focus cycling

  /** The `ShipMode` enum; a new ShipComponent starts in Space. */
  datatype ShipMode = Space | Lander | Ground

  /** ToggleMode: Lander becomes Space, anything else becomes Lander. */
  function Toggled(m: ShipMode): (r: ShipMode)
    ensures r != Ground
    ensures r == Space <==> m == Lander
  {
    if m == Lander then Space else Lander
  }

  /** Toggling twice returns to the mode, except that Ground never comes
      back: it goes to Lander and then Space. */
  lemma ToggleTwice(m: ShipMode)
    ensures m != Ground ==> Toggled(Toggled(m)) == m
    ensures m == Ground ==> Toggled(m) == Lander && Toggled(Toggled(m)) == Space
  {
  }

  /** An entity id as JavaScript sees it in `if (currentFocus)`: absent
      and 0 are both false. */
  predicate Truthy(e: Option<Entity>) {
    e.Some? && e.value != 0
  }

  /** `entities[i]`: `undefined` outside the array. */
  function At(es: seq<Entity>, i: int): (r: Option<Entity>)
    ensures r.Some? <==> 0 <= i < |es|
    ensures r.Some? ==> r.value == es[i]
  {
    if 0 <= i < |es| then Some(es[i]) else None
  }

  /** `entities.indexOf(x)`: the first position of `x`, or -1. */
  function IndexOf(es: seq<Entity>, x: Entity): (r: int)
    ensures -1 <= r < |es|
    ensures r == -1 <==> x !in es
    ensures r >= 0 ==> es[r] == x && x !in es[..r]
  {
    if es == [] then -1
    else if es[0] == x then 0
    else
      var rest := IndexOf(es[1..], x);
      assert forall y :: y in es <==> y == es[0] || y in es[1..];
      if rest == -1 then -1
      else
        assert es[..rest + 1] == [es[0]] + es[1..][..rest];
        rest + 1
  }

  /** The new follow target after a camera key, with `adjust` +1 for
      NextCamera and -1 for PrevCamera. With a truthy focus at index 0 and
      adjust -1, the last entity; otherwise `entities[(idx + adjust) %
      length]` with the truncating remainder, where a remainder by zero is
      NaN and indexes nothing. Without a truthy focus, `entities[0]`. */
  function CycleFocus(es: seq<Entity>, current: Option<Entity>, adjust: int): (r: Option<Entity>)
    requires adjust == 1 || adjust == -1
    ensures r.Some? ==> r.value in es
  {
    if Truthy(current) then
      var idx := IndexOf(es, current.value);
      if idx == 0 && adjust < 0 then At(es, |es| - 1)
      else if |es| == 0 then None
      else At(es, TruncRem(idx + adjust, |es|))
    else At(es, 0)
  }

  /** NextCamera from the entity at index `i` moves to index i+1, and
      from the last entity wraps to the first; with no truthy focus it
      picks the first entity. */
  lemma NextCameraAdvances(es: seq<Entity>, i: nat)
    requires i < |es| && es[i] != 0 && IndexOf(es, es[i]) == i
    ensures i + 1 < |es| ==> CycleFocus(es, Some(es[i]), 1) == Some(es[i + 1])
    ensures i + 1 == |es| ==> CycleFocus(es, Some(es[i]), 1) == Some(es[0])
    ensures CycleFocus(es, None, 1) == At(es, 0) && CycleFocus(es, Some(0), 1) == At(es, 0)
  {
    var n := |es|;
    TruncRemUpTo(i + 1, n);
    assert CycleFocus(es, Some(es[i]), 1) == At(es, TruncRem(i + 1, n));
  }

  /** PrevCamera from index 0 wraps to the last entity; from i > 0 it
      moves to i-1. */
  lemma PrevCameraRetreats(es: seq<Entity>, i: nat)
    requires i < |es| && es[i] != 0 && IndexOf(es, es[i]) == i
    ensures i == 0 ==> CycleFocus(es, Some(es[i]), -1) == Some(es[|es| - 1])
    ensures i > 0 ==> CycleFocus(es, Some(es[i]), -1) == Some(es[i - 1])
  {
    if i > 0 {
      TruncRemUpTo(i - 1, |es|);
      assert CycleFocus(es, Some(es[i]), -1) == At(es, TruncRem(i - 1, |es|));
    }
  }

  /** A truthy focus missing from the list has index -1. NextCamera then
      picks the first entity. PrevCamera computes (-1 - 1) % n: with three
      or more entities that is -2, which indexes nothing, so the target
      becomes `undefined`; with one or two it is -0, which indexes the
      first entity. */
  lemma AbsentFocus(es: seq<Entity>, e: Entity)
    requires e != 0 && e !in es
    ensures CycleFocus(es, Some(e), 1) == At(es, 0)
    ensures |es| >= 3 ==> CycleFocus(es, Some(e), -1) == None
    ensures 1 <= |es| <= 2 ==> CycleFocus(es, Some(e), -1) == Some(es[0])
    ensures |es| == 0 ==> CycleFocus(es, Some(e), -1) == None
  {
    if |es| > 0 {
      TruncRemNonNegative(0, |es|);
      var r := TruncRem(-2, |es|);
      assert TruncDiv(-2, |es|) == -(2 / |es|);
      if |es| >= 3 {
        assert 2 / |es| == 0;
      } else if |es| == 2 {
        assert 2 / |es| == 1;
      } else {
        assert 2 / |es| == 2;
      }
    }
  }

  /** An entity listed once is found at its own index. */
  lemma {:induction false} IndexOfDistinct(es: seq<Entity>, i: nat)
    requires NoDuplicates(es) && i < |es|
    ensures IndexOf(es, es[i]) == i
  {
    if i > 0 {
      assert es[0] != es[i];
      assert NoDuplicates(es[1..]) by {
        forall a, b | 0 <= a < b < |es[1..]| ensures es[1..][a] != es[1..][b] {
          assert es[1..][a] == es[a + 1] && es[1..][b] == es[b + 1];
        }
      }
      IndexOfDistinct(es[1..], i - 1);
      assert es[1..][i - 1] == es[i];
    }
  }

  /** Over a list of distinct non-zero entities, PrevCamera undoes
      NextCamera. */
  lemma NextThenPrev(es: seq<Entity>, i: nat)
    requires NoDuplicates(es) && i < |es|
    requires forall k :: 0 <= k < |es| ==> es[k] != 0
    ensures CycleFocus(es, CycleFocus(es, Some(es[i]), 1), -1) == Some(es[i])
  {
    IndexOfDistinct(es, i);
    NextCameraAdvances(es, i);
    var next := if i + 1 < |es| then i + 1 else 0;
    IndexOfDistinct(es, next);
    PrevCameraRetreats(es, next);
  }

  /** Over a list of distinct non-zero entities, NextCamera undoes
      PrevCamera. */
  lemma PrevThenNext(es: seq<Entity>, i: nat)
    requires NoDuplicates(es) && i < |es|
    requires forall k :: 0 <= k < |es| ==> es[k] != 0
    ensures CycleFocus(es, CycleFocus(es, Some(es[i]), -1), 1) == Some(es[i])
  {
    IndexOfDistinct(es, i);
    PrevCameraRetreats(es, i);
    var prev := if i == 0 then |es| - 1 else i - 1;
    IndexOfDistinct(es, prev);
    NextCameraAdvances(es, prev);
  }

  /** The FollowCamera the camera keys steer, reduced to its target. */
  datatype FollowCamera = FollowCamera(target: Option<Entity>)

  /** What the pressed keys act on: the ship's mode, the first follow
      camera (None when the World has none), and whether a TypeError has
      been thrown. */
  datatype Steering = Steering(mode: ShipMode, camera: Option<FollowCamera>, thrown: bool)

  /** A camera key: reading the target of a missing camera throws. */
  function Cycle(st: Steering, es: seq<Entity>, adjust: int): (r: Steering)
    requires adjust == 1 || adjust == -1
    ensures r.mode == st.mode
    ensures r.thrown <==> st.thrown || st.camera.None?
  {
    match st.camera
    case None => st.(thrown := true)
    case Some(cam) => st.(camera := Some(FollowCamera(CycleFocus(es, cam.target, adjust))))
  }

  /** One pressed key; keys other than the three below only act in the
      velocity updates, which are not modelled. */
  function ApplyKey(st: Steering, k: Key, es: seq<Entity>): (r: Steering)
    ensures k == ToggleMode ==> r == st.(mode := Toggled(st.mode))
    ensures k == NextCamera ==> r == Cycle(st, es, 1)
    ensures k == PrevCamera ==> r == Cycle(st, es, -1)
    ensures k !in {ToggleMode, NextCamera, PrevCamera} ==> r == st
  {
    match k
    case ToggleMode => st.(mode := Toggled(st.mode))
    case PrevCamera => Cycle(st, es, -1)
    case NextCamera => Cycle(st, es, 1)
    case _ => st
  }

  /** The pressed keys in insertion order, until one throws. */
  function ApplyKeys(st: Steering, keys: seq<Key>, es: seq<Entity>): (r: Steering)
    ensures st.thrown ==> r == st
    decreases |keys|
  {
    if keys == [] || st.thrown then st
    else ApplyKeys(ApplyKey(st, keys[0], es), keys[1..], es)
  }

  /** Processing throws exactly when a camera key is pressed and the World
      has no follow camera; the camera itself is never created or removed. */
  lemma {:induction false} ApplyKeysThrows(st: Steering, keys: seq<Key>, es: seq<Entity>)
    requires !st.thrown
    ensures var r := ApplyKeys(st, keys, es);
      && (r.thrown <==> st.camera.None? && (NextCamera in keys || PrevCamera in keys))
      && (r.camera.Some? <==> st.camera.Some?)
    decreases |keys|
  {
    if keys != [] {
      var next := ApplyKey(st, keys[0], es);
      assert forall k :: k in keys <==> k == keys[0] || k in keys[1..];
      if !next.thrown {
        ApplyKeysThrows(next, keys[1..], es);
      }
    }
  }

  /** Without ToggleMode among the keys the mode is kept; with it once
      (a Map holds each key once), the mode is toggled, provided no key
      before it threw. */
  lemma {:induction false} ApplyKeysMode(st: Steering, keys: seq<Key>, es: seq<Entity>)
    requires NoDuplicates(keys) && !st.thrown
    ensures var r := ApplyKeys(st, keys, es);
      && (ToggleMode !in keys ==> r.mode == st.mode)
      && (ToggleMode in keys && !r.thrown ==> r.mode == Toggled(st.mode))
    decreases |keys|
  {
    if keys != [] {
      var next := ApplyKey(st, keys[0], es);
      assert forall k :: k in keys <==> k == keys[0] || k in keys[1..];
      assert NoDuplicates(keys[1..]) && keys[0] !in keys[1..] by {
        forall i, j | 0 <= i < j < |keys[1..]| ensures keys[1..][i] != keys[1..][j] {
          assert keys[1..][i] == keys[i + 1] && keys[1..][j] == keys[j + 1];
        }
        forall j | 0 <= j < |keys[1..]| ensures keys[1..][j] != keys[0] {
          assert keys[1..][j] == keys[j + 1];
        }
      }
      if !next.thrown {
        ApplyKeysMode(next, keys[1..], es);
      } else {
        ApplyKeysThrows(st, keys, es);
      }
    }
  }

  /** The result of `updateMovement` on one player entity. */
  datatype Movement = Movement(input: InputState, mode: Option<ShipMode>, camera: Option<FollowCamera>, thrown: bool)

  /** `updateMovement(dt, world, entity)`: poll the gamepads; without a
      ShipComponent, return at once; otherwise act on each pressed key in
      insertion order and clear the pressed map, unless a key threw first. */
  function UpdateMovement(s: InputState, focused: bool, pads: seq<Option<Pad>>,
                          ship: Option<ShipMode>, camera: Option<FollowCamera>, es: seq<Entity>): (r: Movement)
    ensures var polled := UpdateGamepads(s, focused, pads);
      && r.input.held == polled.held
      && r.input.axis == polled.axis && r.input.previousButtons == polled.previousButtons
      && (ship.None? ==> r == Movement(polled, None, camera, false))
      && (ship.Some? && !r.thrown ==> r.input.pressed == EmptyKeys)
      && (r.thrown ==> r.input.pressed == polled.pressed)
      && (r.mode.Some? <==> ship.Some?)
    ensures InputValid(s) ==> InputValid(r.input)
  {
    var polled := UpdateGamepads(s, focused, pads);
    match ship
    case None => Movement(polled, None, camera, false)
    case Some(mode) =>
      var st := ApplyKeys(Steering(mode, camera, false), polled.pressed.order, es);
      Movement(if st.thrown then polled else polled.(pressed := EmptyKeys), Some(st.mode), st.camera, st.thrown)
  }

  /** `updateMovement` throws exactly when the entity has a ship, a camera
      key is pressed and the World has no follow camera; otherwise the
      pressed keys are consumed, and a pressed ToggleMode toggles the mode. */
  lemma MovementConsumesKeys(s: InputState, focused: bool, pads: seq<Option<Pad>>,
                             mode: ShipMode, camera: Option<FollowCamera>, es: seq<Entity>)
    requires InputValid(s)
    ensures var polled := UpdateGamepads(s, focused, pads);
      var r := UpdateMovement(s, focused, pads, Some(mode), camera, es);
      && (r.thrown <==> camera.None? && (NextCamera in polled.pressed.values || PrevCamera in polled.pressed.values))
      && (!r.thrown ==> r.input.pressed == EmptyKeys)
      && (ToggleMode !in polled.pressed.values ==> r.mode == Some(mode))
      && (ToggleMode in polled.pressed.values && !r.thrown ==> r.mode == Some(Toggled(mode)))
  {
    var polled := UpdateGamepads(s, focused, pads);
    ApplyKeysThrows(Steering(mode, camera, false), polled.pressed.order, es);
    ApplyKeysMode(Steering(mode, camera, false), polled.pressed.order, es);
  }

  /** With only NextCamera pressed and a follow camera present, the target
      moves as CycleFocus says. */
  lemma NextCameraPressed(s: InputState, mode: ShipMode, target: Option<Entity>, es: seq<Entity>)
    requires s.pressed == KeyMap([NextCamera], map[NextCamera := 1.0])
    ensures var r := UpdateMovement(s, false, [], Some(mode), Some(FollowCamera(target)), es);
      && !r.thrown
      && r.camera == Some(FollowCamera(CycleFocus(es, target, 1)))
      && r.mode == Some(mode)
      && r.input.pressed == EmptyKeys
  {
    assert [NextCamera][1..] == [];
  }

  // ---------------------------------------------------------------------
  // updateMorph

  /** A three-component vector (a transform's scale). */
  datatype Vec3 = Vec3(x: real, y: real, z: real)

  function Sub(a: Vec3, b: Vec3): Vec3 {
    Vec3(a.x - b.x, a.y - b.y, a.z - b.z)
  }

  function AddScaled(a: Vec3, d: Vec3, t: real): Vec3 {
    Vec3(a.x + d.x * t, a.y + d.y * t, a.z + d.z * t)
  }

  function MagnitudeSquared(a: Vec3): real {
    a.x * a.x + a.y * a.y + a.z * a.z
  }

  /** What `updateMorph` reads of the player entity: its ShipComponent's
      mode, its TransformComponent's scale and its MaterialComponent's
      variant, each None when the component is missing. */
  datatype Body = Body(ship: Option<ShipMode>, scale: Option<Vec3>, variant: Option<real>)

  /** `t = min(1.0, dt * 10.0)`. */
  function MorphRate(dt: real): (t: real)
    ensures t <= 1.0 && t <= dt * 10.0
    ensures t == 1.0 || t == dt * 10.0
  {
    if 1.0 <= dt * 10.0 then 1.0 else dt * 10.0
  }

  /** The variant after one morph step. In Space mode, a variant whose
      32-bit integer part is non-zero snaps to 1 first, then falls by t,
      stopping at 0. In Lander mode, a variant other than 1 with non-zero
      integer part snaps to 0 first, then rises by t, stopping at 1. Ground
      leaves it alone. */
  function MorphVariant(mode: ShipMode, v: real, t: real): (r: real)
    ensures mode == Space ==> r >= 0.0
    ensures mode == Lander ==> r <= 1.0
    ensures mode == Ground ==> r == v
  {
    match mode
    case Space =>
      var start := if v != 0.0 && OrZero(v) != 0 then 1.0 else v;
      if start - t < 0.0 then 0.0 else start - t
    case Lander =>
      var start := if v != 1.0 && OrZero(v) != 0 then 0.0 else v;
      if start + t > 1.0 then 1.0 else start + t
    case Ground => v
  }

  /** The scale step: move toward the target scale by t when it is more
      than 0.001 away (squared), otherwise take the target. */
  function MorphScale(scale: Vec3, target: Vec3, t: real): Vec3 {
    var diff := Sub(target, scale);
    if MagnitudeSquared(diff) > 0.001 then AddScaled(scale, diff, t) else target
  }

  /** `updateMorph(dt, world, entity)`: a no-op without the ship, transform
      or material component. The target scale is the current scale, so the
      scale never changes. */
  function UpdateMorph(dt: real, b: Body): (r: Body)
    ensures b.ship.None? || b.scale.None? || b.variant.None? ==> r == b
    ensures r.ship == b.ship && r.scale == b.scale
    ensures r.variant.Some? <==> b.variant.Some?
    ensures b.ship == Some(Ground) ==> r == b
    ensures b.ship.Some? && b.scale.Some? && b.variant.Some? ==>
      r.variant == Some(MorphVariant(b.ship.value, b.variant.value, MorphRate(dt)))
  {
    if b.ship.None? || b.scale.None? || b.variant.None? then b
    else
      var t := MorphRate(dt);
      var scale := b.scale.value;
      Body(b.ship, Some(MorphScale(scale, scale, t)), Some(MorphVariant(b.ship.value, b.variant.value, t)))
  }

  function MaxReal(a: real, b: real): real { if a >= b then a else b }
  function MinReal(a: real, b: real): real { if a <= b then a else b }

  /** `v | 0` on a number in [0, 2^31) is its integer part. */
  lemma OrZeroSmall(v: real)
    requires 0.0 <= v < 2147483648.0
    ensures OrZero(v) == v.Floor
  {
    assert TruncReal(v) == v.Floor;
    assert 0 <= v.Floor < TWO_31;
  }

  /** The variant step from [0, 1], for a rate t in [0, 1]. */
  lemma MorphVariantFromUnit(mode: ShipMode, v: real, t: real)
    requires 0.0 <= v <= 1.0 && 0.0 <= t <= 1.0
    ensures var r := MorphVariant(mode, v, t);
      && (mode == Space ==> r == MaxReal(0.0, v - t))
      && (mode == Lander ==> r == MinReal(1.0, v + t))
  {
    OrZeroSmall(v);
    if v < 1.0 {
      assert v.Floor == 0;
    } else {
      assert v.Floor == 1;
    }
  }

  /** From a variant in [0, 1] and a non-negative frame time, Space mode
      lowers the variant by t but not below 0, and Lander mode raises it by
      t but not above 1 (UpdateMorph applies MorphVariant at this rate). */
  lemma MorphFromUnitRange(dt: real, mode: ShipMode, v: real)
    requires 0.0 <= v <= 1.0 && dt >= 0.0
    ensures var t := MorphRate(dt);
      var r := MorphVariant(mode, v, t);
      && (mode == Space ==> r == MaxReal(0.0, v - t) && 0.0 <= r <= v)
      && (mode == Lander ==> r == MinReal(1.0, v + t) && v <= r <= 1.0)
      && 0.0 <= r <= 1.0
  {
    MorphVariantFromUnit(mode, v, MorphRate(dt));
  }

  /** A frame of 0.1 s or more completes the morph from anywhere in [0, 1]. */
  lemma MorphCompletes(dt: real, v: real)
    requires 0.0 <= v <= 1.0 && dt >= 0.1
    ensures MorphVariant(Space, v, MorphRate(dt)) == 0.0
    ensures MorphVariant(Lander, v, MorphRate(dt)) == 1.0
  {
    assert MorphRate(dt) == 1.0;
    MorphVariantFromUnit(Space, v, 1.0);
    MorphVariantFromUnit(Lander, v, 1.0);
  }

  /** A variant above 1 with a non-zero 32-bit integer part snaps back
      before moving: to 1 in Space mode, to 0 in Lander mode. */
  lemma MorphSnaps(dt: real, v: real)
    requires 1.0 < v < 2147483648.0 && 0.0 <= dt
    ensures MorphVariant(Space, v, MorphRate(dt)) == MaxReal(0.0, 1.0 - MorphRate(dt))
    ensures MorphVariant(Lander, v, MorphRate(dt)) == MinReal(1.0, MorphRate(dt))
  {
    OrZeroSmall(v);
    assert v.Floor >= 1;
  }
}

=== FILE: resources.dfy ===
/** The resource registry of WorldGraphics (src/engine/world_graphics.ts):
    meshes and materials registered under an id, either one the caller picks
    (`insertResource`) or one drawn from the module-wide counter that starts
    at 1000000 (`addResource`). A lookup of an unknown id is the fatal
    MissingResource error. */
module Resources {
  import opened Wrappers

  /** Ids are numbers from the counter or names chosen by callers. */
  datatype ResourceId = NumericId(n: int) | NamedId(name: string)

  /** A registered object: its identity, and its `instanceId` when it is a
      StorageMaterial (`material instanceof StorageMaterial`). */
  datatype Resource = Resource(obj: nat, storageInstanceId: Option<int>)

  /** The thrown `MissingResource(id)`. */
  datatype MissingResource = MissingResource(id: ResourceId)

  /** The initial value of the module-level `NEXT_RESOURCE_ID`. */
  const FIRST_RESOURCE_ID: int := 1000000

  datatype Added = Added(id: ResourceId, resources: map<ResourceId, Resource>, nextId: int)

  /** `addResource(resource)`: take the counter's value as the id, advance
      the counter, store under that id. */
  function AddResource(resources: map<ResourceId, Resource>, nextId: int, resource: Resource): (r: Added)
    ensures r.id == NumericId(nextId) && r.nextId > nextId
    ensures r.resources.Keys == resources.Keys + {r.id}
    ensures r.resources[r.id] == resource
    ensures forall k :: k in resources && k != r.id ==> r.resources[k] == resources[k]
  {
    Added(NumericId(nextId), resources[NumericId(nextId) := resource], nextId + 1)
  }

  /** `insertResource(id, resource)`: store under the given id, replacing
      whatever was there. */
  function InsertResource(resources: map<ResourceId, Resource>, id: ResourceId, resource: Resource): (r: map<ResourceId, Resource>)
    ensures r.Keys == resources.Keys + {id}
    ensures r[id] == resource
    ensures forall k :: k in resources && k != id ==> r[k] == resources[k]
  {
    resources[id := resource]
  }

  /** `getResource(id)`: the stored resource, or MissingResource(id). */
  function GetResource(resources: map<ResourceId, Resource>, id: ResourceId): (r: Result<Resource, MissingResource>)
    ensures r.Ok? <==> id in resources
    ensures r.Ok? ==> r.value == resources[id]
    ensures r.Err? ==> r.error.id == id
  {
    if id in resources then Ok(resources[id]) else Err(MissingResource(id))
  }

  /** Successive `addResource` calls from a fresh counter hand out 1000000,
      1000001, ... : strictly increasing, so never the same id twice, and
      each is found by `getResource` afterwards. */
  lemma AddedIdsIncrease(resources: map<ResourceId, Resource>, a: Resource, b: Resource)
    ensures var first := AddResource(resources, FIRST_RESOURCE_ID, a);
            var second := AddResource(first.resources, first.nextId, b);
            && first.id == NumericId(1000000)
            && second.id == NumericId(1000001)
            && GetResource(second.resources, first.id) == Ok(a)
            && GetResource(second.resources, second.id) == Ok(b)
  {
  }

  /** An inserted resource is found under its id until replaced. */
  lemma InsertThenGet(resources: map<ResourceId, Resource>, id: ResourceId, res: Resource, other: ResourceId)
    ensures GetResource(InsertResource(resources, id, res), id) == Ok(res)
    ensures other != id ==> GetResource(InsertResource(resources, id, res), other) == GetResource(resources, other)
  {
  }
}

=== FILE: scene.dfy ===
/** The Scene as the graphics layer sees it: a collection of pawns under
    fresh ids, the cameras added to it and the current light. Drawing,
    clipping and the pawns' GPU objects are not part of this model. */
module Scenes {
  import opened Wrappers
  import opened Resources
  import opened Ecs

  type PawnId = nat

  /** What `getMaterialForComponent` (or its caller's fallback) yields: a
      registered material resource, a fresh SimpleMaterial built from the
      component's colour, or the default white SimpleMaterial. */
  datatype MaterialRef =
    | ResourceMaterial(id: ResourceId, resource: Resource)
    | ComponentMaterial(component: MaterialComponent)
    | DefaultMaterial

  datatype Triple = Triple(x: int, y: int, z: int)

  datatype PawnInfo =
    | InstancedMeshPawn(meshObj: nat, material: MaterialRef)
    | TerrainPawn(entity: Entity, key: ChunkKey, chunk: Chunk, chunkWidth: int, chunkHeight: int, terrainSeed: int, material: MaterialRef)
    | ParticlesPawn(entity: Entity, meshObj: nat)
    | DecorPawn(entity: Entity, meshObj: nat, terrainSeed: int, decorMaterial: Option<MaterialRef>)
    | DebugPawn(vector: bool, colour: int)

  datatype Scene = Scene(pawns: map<PawnId, PawnInfo>, nextPawn: PawnId, cameras: seq<Entity>, light: Option<Entity>)

  /** Every pawn id was handed out by AddPawn. */
  ghost predicate Valid(s: Scene) {
    forall p :: p in s.pawns ==> p < s.nextPawn
  }

  const EmptyScene: Scene := Scene(map[], 0, [], None)

  datatype AddedPawn = AddedPawn(id: PawnId, scene: Scene)

  /** `scene.addMesh(...)`: a new pawn under an id no live pawn has. */
  function AddPawn(s: Scene, info: PawnInfo): (r: AddedPawn)
    ensures Valid(s) ==> Valid(r.scene) && r.id !in s.pawns
    ensures r.scene.pawns == s.pawns[r.id := info]
    ensures r.scene.cameras == s.cameras && r.scene.light == s.light
  {
    AddedPawn(s.nextPawn, s.(pawns := s.pawns[s.nextPawn := info], nextPawn := s.nextPawn + 1))
  }

  /** `scene.removePawn(pawn)`. */
  function RemovePawn(s: Scene, p: PawnId): (r: Scene)
    ensures Valid(s) ==> Valid(r)
    ensures r.pawns == s.pawns - {p}
    ensures r.nextPawn == s.nextPawn && r.cameras == s.cameras && r.light == s.light
  {
    s.(pawns := s.pawns - {p})
  }

  /** A pawn added and then removed leaves the pawns as they were. */
  lemma AddThenRemove(s: Scene, info: PawnInfo)
    requires Valid(s)
    ensures var added := AddPawn(s, info);
      RemovePawn(added.scene, added.id).pawns == s.pawns
  {
    var added := AddPawn(s, info);
    assert added.id !in s.pawns;
  }

  /** Remove every pawn of a set; the order does not matter. */
  function RemovePawnSet(s: Scene, ps: set<PawnId>): (r: Scene)
    ensures Valid(s) ==> Valid(r)
    ensures forall p :: p in r.pawns <==> p in s.pawns && p !in ps
    ensures forall p :: p in r.pawns ==> r.pawns[p] == s.pawns[p]
    ensures r.nextPawn == s.nextPawn && r.cameras == s.cameras && r.light == s.light
  {
    s.(pawns := map p | p in s.pawns && p !in ps :: s.pawns[p])
  }

  /** Remove each listed pawn in turn. */
  function RemovePawns(s: Scene, ps: seq<PawnId>): (r: Scene)
    ensures Valid(s) ==> Valid(r)
    ensures forall p :: p in r.pawns <==> p in s.pawns && p !in ps
    ensures forall p :: p in r.pawns ==> r.pawns[p] == s.pawns[p]
    ensures r.nextPawn == s.nextPawn && r.cameras == s.cameras && r.light == s.light
    decreases |ps|
  {
    if ps == [] then s else RemovePawns(RemovePawn(s, ps[0]), ps[1..])
  }
}

=== FILE: seqs.dfy ===
/** Sequences used as ordered collections: JavaScript arrays, and the key
    order of a `Set` or `Map`, which is insertion order. */
module Seqs {

  predicate NoDuplicates<T(==)>(s: seq<T>) {
    forall i, j :: 0 <= i < j < |s| ==> s[i] != s[j]
  }

  /** Dropping the head of a duplicate-free sequence. */
  lemma NoDuplicatesTail<T>(s: seq<T>)
    requires NoDuplicates(s) && |s| > 0
    ensures NoDuplicates(s[1..]) && s[0] !in s[1..]
  {
    forall i, j | 0 <= i < j < |s[1..]|
      ensures s[1..][i] != s[1..][j]
    {
      assert s[1..][i] == s[i + 1];
    }
  }

  /** Prepending an element absent from a duplicate-free sequence. */
  lemma NoDuplicatesCons<T>(a: T, s: seq<T>)
    requires NoDuplicates(s) && a !in s
    ensures NoDuplicates([a] + s)
  {
    forall i, j | 0 <= i < j < |[a] + s|
      ensures ([a] + s)[i] != ([a] + s)[j]
    {
      assert ([a] + s)[j] == s[j - 1];
      if i > 0 {
        assert ([a] + s)[i] == s[i - 1];
      }
    }
  }

  /** `s` without `x`, the order otherwise kept (`Set.prototype.delete`,
      `Map.prototype.delete`). */
  function Without<T(==, !new)>(s: seq<T>, x: T): (r: seq<T>)
    ensures x !in r
    ensures forall y :: y in r <==> y in s && y != x
    ensures NoDuplicates(s) ==> NoDuplicates(r)
    ensures x !in s ==> r == s
  {
    if s == [] then []
    else if s[0] == x then
      assert NoDuplicates(s) ==> NoDuplicates(s[1..]) by {
        if NoDuplicates(s) {
          NoDuplicatesTail(s);
        }
      }
      Without(s[1..], x)
    else
      var rest := Without(s[1..], x);
      assert NoDuplicates(s) ==> NoDuplicates([s[0]] + rest) by {
        if NoDuplicates(s) {
          NoDuplicatesTail(s);
          NoDuplicatesCons(s[0], rest);
        }
      }
      [s[0]] + rest
  }

  /** Appending the head of `b`, then its tail, appends `b`. */
  lemma AppendHead<T>(a: seq<T>, b: seq<T>)
    requires |b| > 0
    ensures (a + [b[0]]) + b[1..] == a + b
  {
    assert b == [b[0]] + b[1..];
  }
}

=== FILE: ship_mesh.dfy ===
/** The player ship meshes: the triangle hull `buildNGon` emits
    (src/planet/meshes/ship.ts and src/landscape/ship_mesh.ts), the
    index-based colouring of its vertices, and how the planet ShipMesh lays
    out its three mode variants. Vertex positions come from sine and cosine
    and from per-builder scaling; the model keeps only which hull point a
    vertex stands for and which builder placed it. */
module ShipMeshes {
  import opened Wrappers
  import opened JsNumbers

  /** A point of the hull: rim vertex `i` of the polygon, the apex above
      its centre, or the base point below it. */
  datatype HullPoint = Rim(i: nat) | Apex | Base

  /** The six points side `i` of an n-gon adds: the top triangle (rim i,
      rim i+1, apex), then the bottom triangle (rim i, base, rim i+1), the
      next rim vertex wrapping to 0 after the last. */
  function SidePoints(n: nat, i: nat): (r: seq<HullPoint>)
    requires i < n
    ensures |r| == 6
  {
    [Rim(i), Rim((i + 1) % n), Apex, Rim(i), Base, Rim((i + 1) % n)]
  }

  /** The hull as a whole: point k is point k mod 6 of side k / 6. */
  function Hull(n: nat): (r: seq<HullPoint>)
    ensures |r| == 6 * n
  {
    seq(6 * n, k requires 0 <= k < 6 * n => SidePoints(n, k / 6)[k % 6])
  }

  /** `buildNGon(sides, size)`: one pass over the sides, pushing each
      side's two triangles. */
  method BuildNGon(sides: nat) returns (hull: seq<HullPoint>)
    ensures hull == Hull(sides)
  {
    hull := [];
    var i := 0;
    while i < sides
      invariant 0 <= i <= sides
      invariant |hull| == 6 * i
      invariant forall k :: 0 <= k < |hull| ==> hull[k] == SidePoints(sides, k / 6)[k % 6]
    {
      var side := SidePoints(sides, i);
      ghost var before := hull;
      hull := hull + side;
      forall k | 6 * i <= k < 6 * i + 6
        ensures hull[k] == SidePoints(sides, k / 6)[k % 6]
      {
        assert k / 6 == i && k % 6 == k - 6 * i;
      }
      i := i + 1;
    }
  }

  /** Point j of side i sits at index 6i + j. */
  lemma HullAt(n: nat, i: nat, j: nat)
    requires i < n && j < 6
    ensures Hull(n)[6 * i + j] == SidePoints(n, i)[j]
  {
    assert (6 * i + j) / 6 == i && (6 * i + j) % 6 == j;
  }

  /** Side i's two triangles: the top one runs rim i, rim i+1, apex; the
      bottom one runs rim i, base, rim i+1, so it crosses the shared rim
      edge in the opposite direction and faces the other way. */
  lemma SideTriangles(n: nat, i: nat)
    requires i < n
    ensures var h := Hull(n);
      var next := if i + 1 < n then i + 1 else 0;
      && h[6 * i] == Rim(i) && h[6 * i + 1] == Rim(next) && h[6 * i + 2] == Apex
      && h[6 * i + 3] == Rim(i) && h[6 * i + 4] == Base && h[6 * i + 5] == Rim(next)
  {
    var side := SidePoints(n, i);
    NextRim(n, i);
    HullAt(n, i, 0);
    HullAt(n, i, 1);
    HullAt(n, i, 2);
    HullAt(n, i, 3);
    HullAt(n, i, 4);
    HullAt(n, i, 5);
  }

  /** The rim vertex after i: i+1, or 0 after the last. */
  lemma NextRim(n: nat, i: nat)
    requires i < n
    ensures (i + 1) % n == if i + 1 < n then i + 1 else 0
  {
  }

  /** Triangle t of the hull: points 3t, 3t+1 and 3t+2. */
  function Triangle(n: nat, t: nat): (r: seq<HullPoint>)
    requires t < 2 * n
    ensures |r| == 3
  {
    Hull(n)[3 * t..3 * t + 3]
  }

  /** Even triangles are the top ones, holding the apex; odd ones are the
      bottom ones, holding the base. */
  lemma TriangleParity(n: nat, t: nat)
    requires t < 2 * n
    ensures Apex in Triangle(n, t) <==> t % 2 == 0
    ensures Base in Triangle(n, t) <==> t % 2 == 1
  {
    var i := t / 2;
    var tri := Triangle(n, t);
    SideTriangles(n, i);
    if t % 2 == 0 {
      assert 3 * t == 6 * i;
      assert tri == [Hull(n)[6 * i], Hull(n)[6 * i + 1], Hull(n)[6 * i + 2]];
    } else {
      assert 3 * t == 6 * i + 3;
      assert tri == [Hull(n)[6 * i + 3], Hull(n)[6 * i + 4], Hull(n)[6 * i + 5]];
    }
  }

  /** Every rim point names a vertex of the polygon, so the ring closes. */
  lemma RimInRange(n: nat, k: nat)
    requires k < 6 * n && Hull(n)[k].Rim?
    ensures Hull(n)[k].i < n
  {
  }

  /** `(i / 3 | 0) % 2 == 0`: whether vertex i lies in an even triangle. */
  predicate IsTop(i: nat) {
    TruncRem(ToInt32(TruncDiv(i, 3)), 2) == 0
  }

  /** For every index a hull can have, IsTop is the parity of i / 3. */
  lemma IsTopParity(i: nat)
    requires i < 3 * TWO_31
    ensures IsTop(i) <==> (i / 3) % 2 == 0
  {
    TruncDivNonNegative(i, 3);
    assert ToInt32(i / 3) == i / 3;
    TruncRemNonNegative(i / 3, 2);
  }

  /** The colouring's premise holds: a vertex is in an even triangle
      exactly when its triangle is a top one, the one holding the apex. */
  lemma TopMeansApex(n: nat, k: nat)
    requires k < 6 * n && k < 3 * TWO_31
    ensures IsTop(k) <==> Apex in Triangle(n, k / 3)
  {
    IsTopParity(k);
    TriangleParity(n, k / 3);
  }

  // ---------------------------------------------------------------------
  // Vertices

  /** The builders that place hull points: the planet ship's three mode
      variants and the landscape ship. */
  datatype Shape = SpaceShape | LanderShape | GroundShape | LandscapeShape

  /** A vertex position: a hull point as a builder scales and moves it. */
  datatype Position = Position(shape: Shape, point: HullPoint)

  /** A ColorVertex before `calculateNormals`; the landscape ship's
      vertices have no softness. */
  datatype ColorVertex = ColorVertex(softness: Option<int>, position: Position, normal: seq<real>, color: nat)

  const ZERO_NORMAL: seq<real> := [0.0, 0.0, 0.0]

  /** The planet ship's colours. */
  const WINDOW_COLOUR: nat := 0xff00_0000
  const PLANET_TOP_COLOUR: nat := 0xff9c_31a3
  const BOTTOM_COLOUR: nat := 0xff4d_b2ff

  /** `toVertex` colouring: top vertices below index 12 get the window
      colour, other top vertices the hull colour, bottom vertices the
      underside colour. */
  function PlanetColour(i: nat): (c: nat)
    ensures c in {WINDOW_COLOUR, PLANET_TOP_COLOUR, BOTTOM_COLOUR}
  {
    if IsTop(i) && i < 12 then WINDOW_COLOUR
    else if IsTop(i) then PLANET_TOP_COLOUR
    else BOTTOM_COLOUR
  }

  /** The planet ship's window is the two top triangles of its first two
      sides (indices 0-2 and 6-8): the only window-coloured vertices. The
      remaining top vertices are hull-coloured and bottom vertices are
      underside-coloured. */
  lemma PlanetWindow(i: nat)
    requires i < 36
    ensures PlanetColour(i) == WINDOW_COLOUR <==> i < 3 || 6 <= i < 9
    ensures PlanetColour(i) == BOTTOM_COLOUR <==> (i / 3) % 2 == 1
  {
    IsTopParity(i);
  }

  /** `toVertex(position, i)`: softness 0, a copy of the position, a zero
      normal and the colour of index i. */
  function PlanetVertex(p: Position, i: nat): (v: ColorVertex)
    ensures v.softness == Some(0) && v.position == p && v.normal == ZERO_NORMAL
    ensures v.color == PlanetColour(i)
  {
    ColorVertex(Some(0), p, ZERO_NORMAL, PlanetColour(i))
  }

  /** A builder: `buildNGon(6).map(...)`, each point placed by the
      builder's shape and passed with its index to `toVertex`. */
  function PlanetBuilder(shape: Shape): (r: seq<ColorVertex>)
    ensures |r| == 36
    ensures forall k :: 0 <= k < 36 ==> r[k] == PlanetVertex(Position(shape, Hull(6)[k]), k)
  {
    seq(36, k requires 0 <= k < 36 => PlanetVertex(Position(shape, Hull(6)[k]), k))
  }

  /** The shape of a planet ship variant, in ShipMode order. */
  function VariantShape(v: nat): Shape
    requires v < 3
  {
    if v == 0 then SpaceShape else if v == 1 then LanderShape else GroundShape
  }

  /** A mesh's vertex buffer, the vertices drawn per variant, and the
      number of variants. */
  datatype Mesh = Mesh(vertices: seq<ColorVertex>, vertexCount: nat, variantCount: nat)

  /** The planet `ShipMesh`: the space, lander and ground vertices one
      after the other, with the vertex count forced to the lander's length
      and three variants. */
  function PlanetShipMesh(): (m: Mesh)
    ensures |m.vertices| == 108 && m.vertexCount == 36 && m.variantCount == 3
    ensures |m.vertices| == m.vertexCount * m.variantCount
  {
    var space := PlanetBuilder(SpaceShape);
    var lander := PlanetBuilder(LanderShape);
    var ground := PlanetBuilder(GroundShape);
    Mesh(space + lander + ground, |lander|, 3)
  }

  /** Variant v of the planet ship occupies vertices [36v, 36v + 36), and
      its k-th vertex is hull point k as that variant's builder places it,
      coloured as index k: every variant is coloured alike. */
  lemma PlanetVariantLayout(v: nat, k: nat)
    requires v < 3 && k < 36
    ensures var m := PlanetShipMesh();
      m.vertices[36 * v + k] == PlanetVertex(Position(VariantShape(v), Hull(6)[k]), k)
  {
    var all := PlanetShipMesh().vertices;
    assert all[36 * v + k] == PlanetBuilder(VariantShape(v))[k] by {
      var space := PlanetBuilder(SpaceShape);
      var lander := PlanetBuilder(LanderShape);
      var ground := PlanetBuilder(GroundShape);
      assert all == space + lander + ground;
      ConcatAt(space, lander, ground, v, k);
    }
  }

  /** Index 36v + k of three 36-long sequences joined is index k of the
      v-th. */
  lemma ConcatAt(a: seq<ColorVertex>, b: seq<ColorVertex>, c: seq<ColorVertex>, v: nat, k: nat)
    requires |a| == |b| == |c| == 36 && v < 3 && k < 36
    ensures (a + b + c)[36 * v + k] == if v == 0 then a[k] else if v == 1 then b[k] else c[k]
  {
  }

  // ---------------------------------------------------------------------
  // The landscape ship

  const LANDSCAPE_TOP_COLOUR: nat := 0xffff_66b2

  /** The landscape ship's colouring as written: indices below 2 get the
      window colour, then top vertices the hull colour and bottom vertices
      the underside colour. */
  function LandscapeColourAsWritten(i: nat): (c: nat)
    ensures c in {WINDOW_COLOUR, LANDSCAPE_TOP_COLOUR, BOTTOM_COLOUR}
  {
    if i < 2 then WINDOW_COLOUR
    else if IsTop(i) then LANDSCAPE_TOP_COLOUR
    else BOTTOM_COLOUR
  }

  /** The window, meant to be the first triangle, loses its third vertex:
      the apex at index 2 is hull-coloured, so the triangle is shaded from
      black to pink. */
  lemma LandscapeWindowSplit()
    ensures LandscapeColourAsWritten(0) == WINDOW_COLOUR && LandscapeColourAsWritten(1) == WINDOW_COLOUR
    ensures Hull(5)[2] == Apex && LandscapeColourAsWritten(2) == LANDSCAPE_TOP_COLOUR
  {
    IsTopParity(2);
    SideTriangles(5, 0);
  }

  /** The landscape colouring with the window covering the whole first
      triangle. */
  function LandscapeColour(i: nat): (c: nat)
    ensures c in {WINDOW_COLOUR, LANDSCAPE_TOP_COLOUR, BOTTOM_COLOUR}
  {
    if i < 3 then WINDOW_COLOUR
    else if IsTop(i) then LANDSCAPE_TOP_COLOUR
    else BOTTOM_COLOUR
  }

  /** With the correction, a vertex is window-coloured exactly when it
      belongs to the first triangle; other top-triangle vertices are
      hull-coloured and bottom-triangle vertices underside-coloured, and
      the two colourings differ only at index 2. */
  lemma LandscapeWindowIsFirstTriangle(i: nat)
    requires i < 30
    ensures LandscapeColour(i) == WINDOW_COLOUR <==> i / 3 == 0
    ensures i / 3 != 0 ==> (LandscapeColour(i) == LANDSCAPE_TOP_COLOUR <==> (i / 3) % 2 == 0)
    ensures LandscapeColour(i) != LandscapeColourAsWritten(i) <==> i == 2
  {
    IsTopParity(i);
  }

  /** The landscape ship's vertex: a copy of the position, a zero normal,
      and the colour as a BigInt (exact, the colours being integers below
      2^53). */
  function LandscapeVertex(p: Position, i: nat): (v: ColorVertex)
    ensures v.softness.None? && v.position == p && v.normal == ZERO_NORMAL
    ensures v.color == LandscapeColour(i)
  {
    ColorVertex(None, p, ZERO_NORMAL, LandscapeColour(i))
  }

  /** `buildShipMesh(callback)`: the hull of `buildNGon(5, 0.5)`, each
      point passed with its index. */
  function LandscapeShipVertices(): (r: seq<ColorVertex>)
    ensures |r| == 30
    ensures forall k :: 0 <= k < 30 ==> r[k] == LandscapeVertex(Position(LandscapeShape, Hull(5)[k]), k)
  {
    seq(30, k requires 0 <= k < 30 => LandscapeVertex(Position(LandscapeShape, Hull(5)[k]), k))
  }

  /** The landscape ship has five sides, two triangles each, and its rim
      wraps from vertex 4 back to vertex 0. */
  lemma LandscapeHullShape()
    ensures |LandscapeShipVertices()| == 30 == 6 * 5
    ensures Hull(5)[24] == Rim(4) && Hull(5)[25] == Rim(0) && Hull(5)[26] == Apex
    ensures Hull(5)[27] == Rim(4) && Hull(5)[28] == Base && Hull(5)[29] == Rim(0)
  {
    SideTriangles(5, 4);
  }
}

=== FILE: storage_buffer.dfy ===
/** The growable, slot-reusing instance store behind every storage material:
    `StorageBuffer` in src/engine/storage_buffer.ts (copied verbatim at the top
    of src/engine/storage_material.ts). The GPU buffer is modelled as its byte
    image; a GPU copy or queued write is applied at once. */
module StorageBuffers {
  import opened Wrappers
  import opened JsNumbers
  import opened Seqs
  import opened Bytes

  /** Why a write throws: the item's bytes have the wrong length; or the
      buffer never got a GPU buffer, so `writeBuffer` receives `undefined`;
      or the slot's byte offset `instanceSize * (id - 1)` is negative; or
      the number of bytes written is not a multiple of 4. The WebGPU
      binding rejects the middle two as TypeErrors while converting its
      arguments, the buffer first (a GPUBuffer, then [EnforceRange] on an
      unsigned 64-bit offset); `writeBuffer` itself then throws an
      OperationError for a data size that is not a multiple of 4 bytes
      (section 21.2.1 of the WebGPU specification, GPUQueue.writeBuffer). */
  datatype StorageError = SizeMismatch(expected: nat, got: nat) | NoStorage | NegativeOffset(offset: int) | Unaligned(size: nat)

  /** `deleted` is the JavaScript `Set` of freed ids, kept in insertion order,
      which is the order `deleted.values()` visits them in. `hasStorage`
      says whether `storage` was ever assigned: only a `resize` that changes
      the capacity creates the GPU buffer. */
  datatype StorageBuffer = StorageBuffer(
    instanceSize: nat,
    capacity: nat,
    nextIndex: int,
    deleted: seq<int>,
    bytes: seq<byte>,
    hasStorage: bool)

  /** The outcome of `reserve()`: the id handed out and the buffer after it. */
  datatype Reservation = Reservation(id: int, buffer: StorageBuffer)

  /** Shape of every buffer: the byte image spans `capacity` slots, a
      buffer with slots has its GPU buffer, the watermark starts at 1 and no
      freed id is listed twice. */
  predicate Valid(b: StorageBuffer) {
    && |b.bytes| == b.capacity * b.instanceSize
    && (b.capacity > 0 ==> b.hasStorage)
    && b.nextIndex >= 1
    && NoDuplicates(b.deleted)
  }

  /** The invariant of a buffer used only through `reserve` and
      `deleteInstance` of live ids: every id below the watermark fits in the
      buffer, and only ids already handed out are ever freed. */
  predicate WellFormed(b: StorageBuffer) {
    && Valid(b)
    && b.capacity >= 1
    && b.nextIndex <= b.capacity + 1
    && forall i :: 0 <= i < |b.deleted| ==> 1 <= b.deleted[i] < b.nextIndex
  }

  /** Ids handed out and not freed since. */
  function Live(b: StorageBuffer): set<int> {
    set i | 1 <= i < b.nextIndex && i !in b.deleted
  }

  lemma MulLe(a: nat, b: nat, k: nat)
    requires a <= b
    ensures a * k <= b * k
  {
  }

  lemma MinMul(a: nat, b: nat, k: nat)
    ensures Min(a * k, b * k) == Min(a, b) * k
  {
    if a <= b {
      MulLe(a, b, k);
    } else {
      MulLe(b, a, k);
    }
  }

  /** `Math.ceil(c * 1.5)` over the integers. */
  function GrownCapacity(c: nat): (r: nat)
    ensures 2 * r >= 3 * c && 2 * r < 3 * c + 2
  {
    (3 * c + 1) / 2
  }

  /** `resize(capacity)`: a new zero-filled buffer of `capacity` slots that
      receives a copy of the old buffer's common prefix. */
  function Resize(b: StorageBuffer, capacity: nat): (r: StorageBuffer)
    requires Valid(b)
    ensures Valid(r)
    ensures r.capacity == capacity
    ensures r.instanceSize == b.instanceSize && r.nextIndex == b.nextIndex && r.deleted == b.deleted
    ensures b.capacity == capacity ==> r == b
    ensures b.capacity != capacity ==> r.hasStorage
    ensures var keep := Min(b.capacity, capacity) * b.instanceSize;
            && keep <= |b.bytes| && keep <= |r.bytes|
            && r.bytes[..keep] == b.bytes[..keep]
            && forall i :: keep <= i < |r.bytes| ==> r.bytes[i] == 0
  {
    if b.capacity == capacity then b
    else
      var size := capacity * b.instanceSize;
      var keep := Min(|b.bytes|, size);
      MinMul(b.capacity, capacity, b.instanceSize);
      b.(capacity := capacity, bytes := b.bytes[..keep] + Zeros(size - keep), hasStorage := true)
  }

  /** The constructor: capacity defaults to 1; the initial resize from 0
      allocates a zero-filled buffer (none at all when the capacity is 0). */
  function New(instanceSize: nat, capacity: Option<nat>): (b: StorageBuffer)
    ensures Valid(b)
    ensures b.instanceSize == instanceSize
    ensures b.capacity == capacity.GetOr(1)
    ensures b.nextIndex == 1 && b.deleted == []
    ensures b.hasStorage <==> capacity.GetOr(1) != 0
    ensures forall i :: 0 <= i < |b.bytes| ==> b.bytes[i] == 0
    ensures capacity == None ==> WellFormed(b) && Live(b) == {}
  {
    Resize(StorageBuffer(instanceSize, 0, 1, [], [], false), capacity.GetOr(1))
  }

  /** `reserve()`: take the earliest freed id if any, else the watermark;
      grow once by half when the id does not fit. */
  function Reserve(b: StorageBuffer): (r: Reservation)
    requires Valid(b)
    ensures Valid(r.buffer)
    ensures r.buffer.instanceSize == b.instanceSize
    ensures b.deleted == [] ==>
              && r.id == b.nextIndex
              && r.buffer.nextIndex == b.nextIndex + 1
              && r.buffer.deleted == []
    ensures b.deleted != [] ==>
              && r.id == b.deleted[0]
              && r.buffer.deleted == b.deleted[1..]
              && r.buffer.nextIndex == b.nextIndex
    ensures r.buffer.capacity == if r.id > b.capacity then GrownCapacity(b.capacity) else b.capacity
    ensures r.buffer.hasStorage <==> b.hasStorage || r.buffer.capacity != b.capacity
    ensures |b.bytes| <= |r.buffer.bytes| && r.buffer.bytes[..|b.bytes|] == b.bytes
  {
    var (id, b1) :=
      if |b.deleted| > 0 then (b.deleted[0], b.(deleted := b.deleted[1..]))
      else (b.nextIndex, b.(nextIndex := b.nextIndex + 1));
    if id > b1.capacity then
      var b2 := Resize(b1, GrownCapacity(b1.capacity));
      assert Min(b1.capacity, GrownCapacity(b1.capacity)) * b.instanceSize == |b.bytes|;
      Reservation(id, b2)
    else
      Reservation(id, b1)
  }

  /** The byte range slot `id` occupies, when it lies inside the buffer. */
  predicate SlotInRange(b: StorageBuffer, id: int) {
    1 <= id <= b.capacity
  }

  lemma SlotBounds(b: StorageBuffer, id: int)
    requires Valid(b) && SlotInRange(b, id)
    ensures 0 <= (id - 1) * b.instanceSize
    ensures (id - 1) * b.instanceSize + b.instanceSize == id * b.instanceSize <= |b.bytes|
  {
    MulLe(id, b.capacity, b.instanceSize);
  }

  /** The bytes of slot `id`. */
  function ReadSlot(b: StorageBuffer, id: int): (r: seq<byte>)
    requires Valid(b) && SlotInRange(b, id)
    ensures |r| == b.instanceSize
  {
    SlotBounds(b, id);
    b.bytes[(id - 1) * b.instanceSize .. id * b.instanceSize]
  }

  /** `writeInstance(id, item)` given the item's serialized bytes: a wrong
      length is refused before anything changes; a buffer without GPU
      storage throws; a non-positive id of a non-empty class gives a
      negative byte offset, which throws; a width that is not a multiple of
      4 bytes throws; otherwise
      `id` leaves the freed set and the slot is overwritten. A write past the
      end of the GPU buffer is dropped by the device. */
  function WriteInstance(b: StorageBuffer, id: int, data: seq<byte>): (r: Result<StorageBuffer, StorageError>)
    requires Valid(b)
    ensures r.Err? <==> |data| != b.instanceSize || !b.hasStorage || (b.instanceSize > 0 && id <= 0) || b.instanceSize % 4 != 0
    ensures |data| != b.instanceSize ==> r == Err(SizeMismatch(b.instanceSize, |data|))
    ensures |data| == b.instanceSize && !b.hasStorage ==> r == Err(NoStorage)
    ensures |data| == b.instanceSize && b.hasStorage && r.Err? && r.error.NegativeOffset? ==> r.error.offset < 0
    ensures |data| == b.instanceSize && b.hasStorage && b.instanceSize > 0 && id <= 0 ==>
              r == Err(NegativeOffset(b.instanceSize * (id - 1)))
    ensures |data| == b.instanceSize && b.hasStorage && (b.instanceSize == 0 || id > 0) && b.instanceSize % 4 != 0 ==>
              r == Err(Unaligned(b.instanceSize))
    ensures r.Ok? ==>
              && Valid(r.value)
              && r.value.deleted == Without(b.deleted, id)
              && r.value.(deleted := b.deleted, bytes := b.bytes) == b
    ensures r.Ok? && SlotInRange(b, id) ==>
              && ReadSlot(r.value, id) == data
              && forall i :: 0 <= i < |b.bytes| && !(ByteInSlot(b, id, i)) ==> r.value.bytes[i] == b.bytes[i]
    ensures r.Ok? && !SlotInRange(b, id) ==> r.value.bytes == b.bytes
  {
    match WriteCheck(b, id, |data|)
    case Some(e) => Err(e)
    case None => Ok(Store(b, id, data))
  }

  /** The checks `writeInstance` makes of a write of `n` bytes at `id`, in
      the order they are made; None when the write goes through. */
  function WriteCheck(b: StorageBuffer, id: int, n: nat): (r: Option<StorageError>)
    ensures r.None? <==> n == b.instanceSize && b.hasStorage && !(b.instanceSize > 0 && id <= 0) && b.instanceSize % 4 == 0
    ensures n != b.instanceSize ==> r == Some(SizeMismatch(b.instanceSize, n))
    ensures n == b.instanceSize && !b.hasStorage ==> r == Some(NoStorage)
    ensures n == b.instanceSize && b.hasStorage && b.instanceSize > 0 && id <= 0 ==>
              r == Some(NegativeOffset(b.instanceSize * (id - 1))) && b.instanceSize * (id - 1) < 0
    ensures n == b.instanceSize && b.hasStorage && (b.instanceSize == 0 || id > 0) && b.instanceSize % 4 != 0 ==>
              r == Some(Unaligned(b.instanceSize))
  {
    OffsetSign(b.instanceSize, id);
    if n != b.instanceSize then Some(SizeMismatch(b.instanceSize, n))
    else if !b.hasStorage then Some(NoStorage)
    else if b.instanceSize * (id - 1) < 0 then Some(NegativeOffset(b.instanceSize * (id - 1)))
    else if b.instanceSize % 4 != 0 then Some(Unaligned(b.instanceSize))
    else None
  }

  lemma OffsetSign(size: nat, id: int)
    ensures size * (id - 1) < 0 <==> size > 0 && id <= 0
  {
    if size > 0 && id <= 0 {
      assert size * (id - 1) <= size * -1;
    }
  }

  /** The effect of a write that does not throw: `id` leaves the freed set
      and, when its slot lies in the buffer, the slot takes the data. */
  function Store(b: StorageBuffer, id: int, data: seq<byte>): (r: StorageBuffer)
    requires Valid(b) && |data| == b.instanceSize
    ensures Valid(r)
    ensures r.deleted == Without(b.deleted, id)
    ensures r.(deleted := b.deleted, bytes := b.bytes) == b
    ensures SlotInRange(b, id) ==>
              && ReadSlot(r, id) == data
              && forall i :: 0 <= i < |b.bytes| && !(ByteInSlot(b, id, i)) ==> r.bytes[i] == b.bytes[i]
    ensures !SlotInRange(b, id) ==> r.bytes == b.bytes
  {
    var b1 := b.(deleted := Without(b.deleted, id));
    if SlotInRange(b, id) then OverwriteSlot(b1, id, data) else b1
  }

  /** The device-side effect of an in-range `writeBuffer`: the slot's bytes
      become the data and no other byte moves. */
  function OverwriteSlot(b: StorageBuffer, id: int, data: seq<byte>): (r: StorageBuffer)
    requires Valid(b) && SlotInRange(b, id) && |data| == b.instanceSize
    ensures Valid(r) && r.(bytes := b.bytes) == b
    ensures ReadSlot(r, id) == data
    ensures forall i :: 0 <= i < |b.bytes| && !(ByteInSlot(b, id, i)) ==> r.bytes[i] == b.bytes[i]
  {
    SlotBounds(b, id);
    var off := (id - 1) * b.instanceSize;
    b.(bytes := b.bytes[..off] + data + b.bytes[off + b.instanceSize..])
  }

  predicate ByteInSlot(b: StorageBuffer, id: int, i: int) {
    (id - 1) * b.instanceSize <= i < id * b.instanceSize
  }

  /** `push(item)`: the width check comes first, so a rejected item reserves
      nothing; otherwise reserve an id and write the item there, which throws
      only if the buffer still has no GPU storage, the reserved id is not
      positive, or the width is not a multiple of 4 bytes. */
  function Push(b: StorageBuffer, data: seq<byte>): (r: Result<Reservation, StorageError>)
    requires Valid(b)
    ensures r.Err? <==> |data| != b.instanceSize || !Reserve(b).buffer.hasStorage || (b.instanceSize > 0 && Reserve(b).id <= 0) || b.instanceSize % 4 != 0
    ensures |data| != b.instanceSize ==> r == Err(SizeMismatch(b.instanceSize, |data|))
    ensures r.Ok? ==>
              var reserved := Reserve(b);
              && r.value.id == reserved.id
              && WriteInstance(reserved.buffer, reserved.id, data) == Ok(r.value.buffer)
  {
    if |data| != b.instanceSize then Err(SizeMismatch(b.instanceSize, |data|))
    else
      var reserved := Reserve(b);
      match WriteInstance(reserved.buffer, reserved.id, data)
      case Err(e) => Err(e)
      case Ok(written) => Ok(Reservation(reserved.id, written))
  }

  /** `deleteInstance(id)`: only records `id` as free; bytes, capacity and
      watermark stay as they are. */
  function DeleteInstance(b: StorageBuffer, id: int): (r: StorageBuffer)
    requires Valid(b)
    ensures Valid(r)
    ensures r.(deleted := b.deleted) == b
    ensures id in r.deleted
    ensures forall x :: x in r.deleted <==> x in b.deleted || x == id
    ensures |r.deleted| > 0 && r.deleted[0] == if b.deleted == [] then id else b.deleted[0]
  {
    if id in b.deleted then b else b.(deleted := b.deleted + [id])
  }

  /** `bindingResource()`: the whole buffer, every slot of it. */
  function BindingResource(b: StorageBuffer): (r: seq<byte>)
    requires Valid(b)
    ensures |r| == b.capacity * b.instanceSize
    ensures forall id :: SlotInRange(b, id) ==> ReadSlot(b, id) == (SlotBounds(b, id); r[(id - 1) * b.instanceSize .. id * b.instanceSize])
  {
    b.bytes
  }

  // Properties of the allocator as a whole.

  /** From a well-formed buffer, `reserve` hands out an id that is not live,
      fits in the (possibly grown) buffer, and makes exactly that id live. A
      reused id never triggers growth. */
  lemma ReserveKeepsWellFormed(b: StorageBuffer)
    requires WellFormed(b)
    ensures var r := Reserve(b);
            && WellFormed(r.buffer)
            && 1 <= r.id <= r.buffer.capacity
            && r.id !in Live(b)
            && Live(r.buffer) == Live(b) + {r.id}
            && (b.deleted != [] ==> r.buffer.capacity == b.capacity)
  {
    var r := Reserve(b);
    if b.deleted == [] {
      assert Live(r.buffer) == Live(b) + {r.id};
    } else {
      assert b.deleted[0] in b.deleted;
      assert b.deleted[0] !in b.deleted[1..] by {
        forall k | 0 <= k < |b.deleted[1..]|
          ensures b.deleted[1..][k] != b.deleted[0]
        {
          assert b.deleted[1..][k] == b.deleted[k + 1];
        }
      }
      assert forall x :: x in b.deleted <==> x == b.deleted[0] || x in b.deleted[1..] by {
        assert b.deleted == [b.deleted[0]] + b.deleted[1..];
      }
      assert Live(r.buffer) == Live(b) + {r.id};
      assert NoDuplicates(r.buffer.deleted) by {
        forall i, j | 0 <= i < j < |r.buffer.deleted|
          ensures r.buffer.deleted[i] != r.buffer.deleted[j]
        {
          assert r.buffer.deleted[i] == b.deleted[i + 1];
          assert r.buffer.deleted[j] == b.deleted[j + 1];
        }
      }
      assert forall i :: 0 <= i < |r.buffer.deleted| ==> r.buffer.deleted[i] == b.deleted[i + 1];
    }
  }

  /** Freeing a live id keeps the buffer well-formed and makes only that id
      dead; freeing it again changes nothing. */
  lemma DeleteKeepsWellFormed(b: StorageBuffer, id: int)
    requires WellFormed(b) && id in Live(b)
    ensures var d := DeleteInstance(b, id);
            && WellFormed(d)
            && Live(d) == Live(b) - {id}
            && DeleteInstance(d, id) == d
  {
    var d := DeleteInstance(b, id);
    assert d.deleted == b.deleted + [id];
    assert NoDuplicates(d.deleted) by {
      forall i, j | 0 <= i < j < |d.deleted|
        ensures d.deleted[i] != d.deleted[j]
      {
        if j == |b.deleted| {
          assert d.deleted[i] == b.deleted[i];
        } else {
          assert d.deleted[i] == b.deleted[i] && d.deleted[j] == b.deleted[j];
        }
      }
    }
    assert forall i :: 0 <= i < |b.deleted| ==> d.deleted[i] == b.deleted[i];
  }

  /** A freed id is handed out again by the next `reserve` once every id freed
      before it has been reused; the watermark does not move. */
  lemma ReserveReusesFreedId(b: StorageBuffer, id: int)
    requires WellFormed(b) && id in Live(b) && b.deleted == []
    ensures var r := Reserve(DeleteInstance(b, id));
            && r.id == id
            && r.buffer.nextIndex == b.nextIndex
            && r.buffer.capacity == b.capacity
            && Live(r.buffer) == Live(b)
  {
    DeleteKeepsWellFormed(b, id);
    ReserveKeepsWellFormed(DeleteInstance(b, id));
  }

  /** A well-sized write to a well-formed buffer succeeds exactly when the
      offset is not negative and the width is a multiple of 4 bytes; it
      keeps the buffer well-formed and revives `id` if it was freed (it
      leaves the freed set). */
  lemma WriteKeepsWellFormed(b: StorageBuffer, id: int, data: seq<byte>)
    requires WellFormed(b) && |data| == b.instanceSize
    ensures var w := WriteInstance(b, id, data);
            && (w.Ok? <==> (id >= 1 || b.instanceSize == 0) && b.instanceSize % 4 == 0)
            && (w.Ok? ==>
            && WellFormed(w.value)
            && Live(w.value) == Live(b) + (if 1 <= id < b.nextIndex then {id} else {}))
  {
    var w := WriteInstance(b, id, data);
    if w.Ok? {
      assert forall i :: 0 <= i < |w.value.deleted| ==> w.value.deleted[i] in b.deleted;
    }
  }

  /** A correctly sized `push` on a well-formed buffer succeeds exactly when
      the width is a multiple of 4 bytes, and then stores the item in a slot
      that was not live and now is; otherwise `writeBuffer` throws. */
  lemma PushStoresItem(b: StorageBuffer, data: seq<byte>)
    requires WellFormed(b) && |data| == b.instanceSize
    ensures var r := Push(b, data);
            && (r.Ok? <==> b.instanceSize % 4 == 0)
            && (r.Err? ==> r.error == Unaligned(b.instanceSize))
            && (r.Ok? ==>
                  && WellFormed(r.value.buffer)
                  && SlotInRange(r.value.buffer, r.value.id)
                  && ReadSlot(r.value.buffer, r.value.id) == data
                  && r.value.id !in Live(b)
                  && Live(r.value.buffer) == Live(b) + {r.value.id})
  {
    var reserved := Reserve(b);
    ReserveKeepsWellFormed(b);
    WriteKeepsWellFormed(reserved.buffer, reserved.id, data);
  }

  /** With the default capacity of 1, ids 1, 2, 3 come out in order and the
      capacity steps 1 -> 2 -> 3 (ceil(1.5) = 2, ceil(3) = 3); a fourth id
      grows it to ceil(4.5) = 5. */
  lemma DefaultGrowthSequence(size: nat)
    ensures var b0 := New(size, None);
            var r1 := Reserve(b0);
            var r2 := Reserve(r1.buffer);
            var r3 := Reserve(r2.buffer);
            var r4 := Reserve(r3.buffer);
            && r1.id == 1 && r1.buffer.capacity == 1
            && r2.id == 2 && r2.buffer.capacity == 2
            && r3.id == 3 && r3.buffer.capacity == 3
            && r4.id == 4 && r4.buffer.capacity == 5
  {
  }

  /** A buffer built with capacity 0 never grows: ceil(0 * 1.5) is 0, so the
      first id already lies outside the buffer. */
  lemma ZeroCapacityNeverGrows(size: nat)
    ensures var r := Reserve(New(size, Some(0)));
            r.id == 1 && r.buffer.capacity == 0 && !SlotInRange(r.buffer, r.id)
  {
  }

  /** Since `resize(0)` returns before creating a GPU buffer and the
      buffer never grows, every correctly sized push into a buffer built
      with capacity 0 throws, however many ids it has handed out. */
  lemma {:induction false} ZeroCapacityPushThrows(size: nat, data: seq<byte>, n: nat)
    requires |data| == size
    ensures Push(ReserveTimes(New(size, Some(0)), n), data) == Err(NoStorage)
  {
    ZeroCapacityStaysEmpty(size, n);
  }

  /** `n` calls of `reserve()`. */
  function ReserveTimes(b: StorageBuffer, n: nat): (r: StorageBuffer)
    requires Valid(b)
    ensures Valid(r) && r.instanceSize == b.instanceSize
    decreases n
  {
    if n == 0 then b else ReserveTimes(Reserve(b).buffer, n - 1)
  }

  lemma {:induction false} ZeroCapacityStaysEmpty(size: nat, n: nat)
    ensures var b := ReserveTimes(New(size, Some(0)), n);
            b.capacity == 0 && !b.hasStorage && b.deleted == []
  {
    if n > 0 {
      ReserveTimesFromEmpty(New(size, Some(0)), n);
    }
  }

  /** Reserving from a storage-less, capacity-0 buffer with no freed ids
      keeps it so. */
  lemma {:induction false} ReserveTimesFromEmpty(b: StorageBuffer, n: nat)
    requires Valid(b) && b.capacity == 0 && !b.hasStorage && b.deleted == []
    ensures var r := ReserveTimes(b, n);
            r.capacity == 0 && !r.hasStorage && r.deleted == []
    decreases n
  {
    if n > 0 {
      ReserveTimesFromEmpty(Reserve(b).buffer, n - 1);
    }
  }

  /** A well-formed buffer never frees an id below 1 and never hands one
      out, so the throw at a negative offset cannot follow a `reserve`, and
      the freed-set removal `writeInstance` performs just before throwing
      changes nothing. A correctly sized push then throws only for a width
      that is not a multiple of 4 bytes. */
  lemma WellFormedNeverThrowsOffset(b: StorageBuffer, id: int, data: seq<byte>)
    requires WellFormed(b) && id <= 0
    ensures id !in b.deleted && Without(b.deleted, id) == b.deleted
    ensures |data| == b.instanceSize ==>
              && (Push(b, data).Ok? <==> b.instanceSize % 4 == 0)
              && (Push(b, data).Err? ==> Push(b, data).error == Unaligned(b.instanceSize))
  {
    ReserveKeepsWellFormed(b);
  }

  /** The base class's placeholder width of one byte cannot be written:
      the first push into such a buffer throws in `writeBuffer`, and so does
      every later one. */
  lemma {:induction false} OneByteWidthPushThrows(data: seq<byte>, n: nat)
    requires |data| == 1
    ensures Push(ReserveTimes(New(1, None), n), data) == Err(Unaligned(1))
  {
    ReserveTimesKeepsWellFormed(New(1, None), n);
    WellFormedNeverThrowsOffset(ReserveTimes(New(1, None), n), 0, data);
  }

  /** Reserving keeps a buffer well-formed. */
  lemma {:induction false} ReserveTimesKeepsWellFormed(b: StorageBuffer, n: nat)
    requires WellFormed(b)
    ensures WellFormed(ReserveTimes(b, n))
    decreases n
  {
    if n > 0 {
      ReserveKeepsWellFormed(b);
      ReserveTimesKeepsWellFormed(Reserve(b).buffer, n - 1);
    }
  }

  /** Outside the well-formed discipline the throw is reachable:
      `deleteInstance(0)` then `push` hands out id 0, whose offset is
      `-instanceSize`. */
  lemma PushAfterFreeingZeroThrows(size: nat, data: seq<byte>)
    requires size > 0 && |data| == size
    ensures Push(DeleteInstance(New(size, None), 0), data) == Err(NegativeOffset(-(size as int)))
  {
  }
}

=== FILE: storage_material.dfy ===
/** The per-class registry of StorageMaterial (src/engine/storage_material.ts):
    each material class owns one StorageBuffer, created with the class's
    instance width when its first instance is constructed. The garbage
    collector's finalization callback becomes an explicit `Release`, and the
    write the constructor schedules with `setTimeout` becomes an explicit
    `Commit` that callers run once construction has finished. */
module MaterialRegistry {
  import opened Wrappers
  import opened Bytes
  import opened StorageBuffers
  import opened Materials

  /** The static `storage` field of every class that has one so far. */
  datatype Registry = Registry(buffers: map<MaterialClass, StorageBuffer>)

  datatype MaterialInstance = MaterialInstance(instanceId: int, material: Material)

  datatype Constructed = Constructed(instance: MaterialInstance, registry: Registry)

  /** Every class buffer has a sound shape. */
  predicate Valid(reg: Registry) {
    forall c :: c in reg.buffers ==> StorageBuffers.Valid(reg.buffers[c])
  }

  /** The cross-class invariant: each buffer was created with, and so keeps,
      its class's declared width; and each is used as an allocator should be. */
  predicate WellFormed(reg: Registry) {
    forall c :: c in reg.buffers ==>
      && StorageBuffers.WellFormed(reg.buffers[c])
      && reg.buffers[c].instanceSize == InstanceSize(c)
  }

  /** The empty registry: no class has a buffer before its first instance. */
  const Empty: Registry := Registry(map[])

  /** The class's buffer, or the one its first instance would create. */
  function ClassBuffer(reg: Registry, c: MaterialClass): (b: StorageBuffer)
    requires Valid(reg)
    ensures StorageBuffers.Valid(b)
    ensures c !in reg.buffers ==> b == New(InstanceSize(c), None)
  {
    if c in reg.buffers then reg.buffers[c] else New(InstanceSize(c), None)
  }

  /** The StorageMaterial constructor: create the class buffer on first use,
      then reserve the instance's id in it. Nothing is written yet. */
  function Construct(reg: Registry, m: Material): (r: Constructed)
    requires Valid(reg)
    ensures Valid(r.registry)
    ensures r.instance.material == m
    ensures r.registry.buffers.Keys == reg.buffers.Keys + {ClassOf(m)}
    ensures forall c :: c in reg.buffers && c != ClassOf(m) ==> r.registry.buffers[c] == reg.buffers[c]
    ensures ClassOf(m) !in reg.buffers ==> r.registry.buffers[ClassOf(m)].instanceSize == InstanceSize(ClassOf(m))
    ensures var before := ClassBuffer(reg, ClassOf(m));
            && r.instance.instanceId == Reserve(before).id
            && r.registry.buffers[ClassOf(m)] == Reserve(before).buffer
  {
    var c := ClassOf(m);
    var reserved := Reserve(ClassBuffer(reg, c));
    Constructed(MaterialInstance(reserved.id, m), Registry(reg.buffers[c := reserved.buffer]))
  }

  /** `write()`: serialize and store at `instanceId`; refused exactly when the
      serialized length differs from the class buffer's width, when that
      buffer has no GPU storage, for a class with a non-empty width when
      the id is not positive, or when the width is not a multiple of 4
      bytes. */
  function Commit(codec: ColorCodec, reg: Registry, inst: MaterialInstance): (r: Result<Registry, StorageError>)
    requires Valid(reg) && ClassOf(inst.material) in reg.buffers
    ensures var b := reg.buffers[ClassOf(inst.material)];
            r.Err? <==> |Serialize(codec, inst.material)| != b.instanceSize || !b.hasStorage || (b.instanceSize > 0 && inst.instanceId <= 0) || b.instanceSize % 4 != 0
    ensures r.Ok? ==>
              && Valid(r.value)
              && r.value.buffers.Keys == reg.buffers.Keys
              && (forall c :: c in reg.buffers && c != ClassOf(inst.material) ==> r.value.buffers[c] == reg.buffers[c])
              && r.value.buffers[ClassOf(inst.material)]
                 == WriteInstance(reg.buffers[ClassOf(inst.material)], inst.instanceId, Serialize(codec, inst.material)).value
  {
    var c := ClassOf(inst.material);
    var written := WriteInstance(reg.buffers[c], inst.instanceId, Serialize(codec, inst.material));
    match written
    case Err(e) => Err(e)
    case Ok(b) => Ok(Registry(reg.buffers[c := b]))
  }

  /** Why the deferred write throws in the code as written: the material
      cannot be serialized, or the buffer refuses its bytes. */
  datatype WriteError = Unserializable(serializeError: SerializeError) | Refused(storageError: StorageError)

  /** `write()` as the code stands, with WaterMaterial's unconverted seed:
      a water material with a bigint seed throws in `toArrayBuffer` before
      the buffer is touched; every other material behaves as `Commit`. */
  function CommitAsWritten(codec: ColorCodec, reg: Registry, inst: MaterialInstance): (r: Result<Registry, WriteError>)
    requires Valid(reg) && ClassOf(inst.material) in reg.buffers
    ensures (r.Err? && r.error.Unserializable?) <==> inst.material.Water? && inst.material.seed.BigIntSeed?
    ensures !(inst.material.Water? && inst.material.seed.BigIntSeed?) ==>
              var fixed := Commit(codec, reg, inst);
              && (r.Ok? <==> fixed.Ok?)
              && (r.Ok? ==> r.value == fixed.value)
              && (r.Err? ==> r.error == Refused(fixed.error))
  {
    match SerializeAsWritten(codec, inst.material)
    case Err(e) => Err(Unserializable(e))
    case Ok(bytes) =>
      var c := ClassOf(inst.material);
      match WriteInstance(reg.buffers[c], inst.instanceId, bytes)
      case Err(e) => Err(Refused(e))
      case Ok(b) => Ok(Registry(reg.buffers[c := b]))
  }

  /** The finalization callback, made explicit: free the instance's id. */
  function Release(reg: Registry, inst: MaterialInstance): (r: Registry)
    requires Valid(reg) && ClassOf(inst.material) in reg.buffers
    ensures Valid(r)
    ensures r.buffers.Keys == reg.buffers.Keys
    ensures forall c :: c in reg.buffers && c != ClassOf(inst.material) ==> r.buffers[c] == reg.buffers[c]
    ensures var b := reg.buffers[ClassOf(inst.material)];
            && r.buffers[ClassOf(inst.material)].(deleted := b.deleted) == b
            && inst.instanceId in r.buffers[ClassOf(inst.material)].deleted
  {
    var c := ClassOf(inst.material);
    Registry(reg.buffers[c := DeleteInstance(reg.buffers[c], inst.instanceId)])
  }

  /** The static `bindingResource()`: the class's whole buffer. */
  function ClassBindingResource(reg: Registry, c: MaterialClass): (r: seq<byte>)
    requires Valid(reg) && c in reg.buffers
    ensures |r| == reg.buffers[c].capacity * reg.buffers[c].instanceSize
  {
    BindingResource(reg.buffers[c])
  }

  /** The instance `bindingResource()`: also the class's whole buffer, not the
      instance's own slot; shaders index it by `instanceId - 1`. */
  function InstanceBindingResource(reg: Registry, inst: MaterialInstance): (r: seq<byte>)
    requires Valid(reg) && ClassOf(inst.material) in reg.buffers
    ensures r == ClassBindingResource(reg, ClassOf(inst.material))
    ensures |r| == reg.buffers[ClassOf(inst.material)].capacity * reg.buffers[ClassOf(inst.material)].instanceSize
  {
    BindingResource(reg.buffers[ClassOf(inst.material)])
  }

  // The registry's guarantees.

  /** Construction keeps the registry well-formed and hands out an id that is
      at least 1, fits the class buffer, and differs from every id live in
      that class; the first instance of a class finds a fresh buffer of the
      class's width and gets id 1. */
  lemma ConstructKeepsWellFormed(reg: Registry, m: Material)
    requires Valid(reg) && WellFormed(reg)
    ensures var r := Construct(reg, m);
            var c := ClassOf(m);
            && WellFormed(r.registry)
            && 1 <= r.instance.instanceId
            && SlotInRange(r.registry.buffers[c], r.instance.instanceId)
            && r.instance.instanceId !in Live(ClassBuffer(reg, c))
            && Live(r.registry.buffers[c]) == Live(ClassBuffer(reg, c)) + {r.instance.instanceId}
            && (c !in reg.buffers ==> r.instance.instanceId == 1 && r.registry.buffers[c].instanceSize == InstanceSize(c))
  {
    var c := ClassOf(m);
    var before := ClassBuffer(reg, c);
    assert StorageBuffers.WellFormed(before) && before.instanceSize == InstanceSize(c);
    ReserveKeepsWellFormed(before);
    var r := Construct(reg, m);
    var after := Reserve(before).buffer;
    assert r.registry.buffers[c] == after;
    assert after.instanceSize == before.instanceSize;
    forall c' | c' in r.registry.buffers
      ensures StorageBuffers.WellFormed(r.registry.buffers[c']) && r.registry.buffers[c'].instanceSize == InstanceSize(c')
    {
      if c' != c {
        assert r.registry.buffers[c'] == reg.buffers[c'];
      }
    }
  }

  /** Construction writes no instance bytes: whatever the class buffer held
      is still there (it may only have grown). */
  lemma ConstructWritesNothing(reg: Registry, m: Material)
    requires Valid(reg) && ClassOf(m) in reg.buffers
    ensures var before := reg.buffers[ClassOf(m)].bytes;
            var after := Construct(reg, m).registry.buffers[ClassOf(m)].bytes;
            |before| <= |after| && after[..|before|] == before
  {
  }

  /** The deferred write can never be refused: every class serializes to
      exactly its declared width, which is the width of its buffer. After it,
      the instance's slot reads back as the class's words. */
  lemma CommitNeverFails(codec: ColorCodec, reg: Registry, inst: MaterialInstance)
    requires Valid(reg) && WellFormed(reg) && ClassOf(inst.material) in reg.buffers
    requires SlotInRange(reg.buffers[ClassOf(inst.material)], inst.instanceId)
    ensures var r := Commit(codec, reg, inst);
            && r.Ok?
            && WellFormed(r.value)
            && var b := r.value.buffers[ClassOf(inst.material)];
               && |ReadSlot(b, inst.instanceId)| % 4 == 0
               && BytesToWords(ReadSlot(b, inst.instanceId)) == Words(codec, inst.material)
  {
    var c := ClassOf(inst.material);
    var data := Serialize(codec, inst.material);
    WriteKeepsWellFormed(reg.buffers[c], inst.instanceId, data);
    SerializeDecodes(codec, inst.material);
  }

  /** In the code as written the deferred write into a well-formed registry
      throws for exactly one kind of instance: a water material whose seed is
      a bigint. */
  lemma CommitAsWrittenFailsOnlyForBigIntWater(codec: ColorCodec, reg: Registry, inst: MaterialInstance)
    requires Valid(reg) && WellFormed(reg) && ClassOf(inst.material) in reg.buffers
    requires SlotInRange(reg.buffers[ClassOf(inst.material)], inst.instanceId)
    ensures CommitAsWritten(codec, reg, inst).Err? <==> inst.material.Water? && inst.material.seed.BigIntSeed?
  {
    CommitNeverFails(codec, reg, inst);
  }

  /** Releasing an instance, when no other id of its class is waiting, makes
      the class's next construction reuse its id. */
  lemma ReleaseThenConstructReuses(reg: Registry, inst: MaterialInstance, m: Material)
    requires Valid(reg) && WellFormed(reg) && ClassOf(inst.material) in reg.buffers
    requires ClassOf(m) == ClassOf(inst.material)
    requires inst.instanceId in Live(reg.buffers[ClassOf(m)]) && reg.buffers[ClassOf(m)].deleted == []
    ensures var r := Construct(Release(reg, inst), m);
            && r.instance.instanceId == inst.instanceId
            && Live(r.registry.buffers[ClassOf(m)]) == Live(reg.buffers[ClassOf(m)])
  {
    ReserveReusesFreedId(reg.buffers[ClassOf(m)], inst.instanceId);
  }

  /** With no freed id waiting, construction hands out the class's next
      id and advances it, and the buffer holds at least that many slots. */
  lemma ConstructTakesNextId(reg: Registry, m: Material)
    requires Valid(reg) && WellFormed(reg)
    requires ClassBuffer(reg, ClassOf(m)).deleted == []
    ensures var r := Construct(reg, m);
            var before := ClassBuffer(reg, ClassOf(m));
            && r.instance.instanceId == before.nextIndex
            && r.registry.buffers[ClassOf(m)].nextIndex == before.nextIndex + 1
            && r.registry.buffers[ClassOf(m)].deleted == []
            && r.registry.buffers[ClassOf(m)].capacity >= before.nextIndex
            && r.registry.buffers[ClassOf(m)].instanceSize == InstanceSize(ClassOf(m))
            && WellFormed(r.registry)
  {
    ConstructKeepsWellFormed(reg, m);
  }

  /** Two constructions of one class in a row, with no freed id waiting,
      get consecutive ids; from a registry without the class, ids 1 and 2. */
  lemma ConsecutiveIds(reg: Registry, m1: Material, m2: Material)
    requires Valid(reg) && WellFormed(reg) && ClassOf(m1) == ClassOf(m2)
    requires ClassBuffer(reg, ClassOf(m1)).deleted == []
    ensures var a := Construct(reg, m1);
            var b := Construct(a.registry, m2);
            && b.instance.instanceId == a.instance.instanceId + 1
            && (ClassOf(m1) !in reg.buffers ==> a.instance.instanceId == 1 && b.instance.instanceId == 2)
  {
    ConstructTakesNextId(reg, m1);
    var a := Construct(reg, m1);
    ConstructTakesNextId(a.registry, m2);
  }
}

=== FILE: terrain.dfy ===
/** Terrain streaming in WorldGraphics (src/engine/world_graphics.ts):
    requested chunks are queued once, generated a batch per frame in queue
    order, and evicted (a bounded number per call) when no longer requested.
    `queuedTerrain` and `activeTerrain` are insertion-ordered JavaScript
    collections, so both are kept as sequences here. */
module TerrainStreaming {
  import opened Wrappers
  import opened Seqs
  import opened JsNumbers
  import opened Ecs
  import opened Scenes

  /** `processTerrainQueue`'s default `batchSize`. */
  const DEFAULT_BATCH_SIZE: int := 8

  /** The initial `limit` of `removeExpiredTerrainChunks`. */
  const EVICTION_LIMIT: int := 4

  /** A `queuedTerrain` entry: who asked, with what seed, size and material. */
  datatype QueuedChunk = QueuedChunk(
    entity: Entity,
    terrainSeed: int,
    chunkWidth: int,
    chunkHeight: int,
    chunk: Chunk,
    material: MaterialRef)

  /** `queuedTerrain` (keys in insertion order plus entries), `activeTerrain`
      (keys in insertion order) and `terrains` (per entity, chunk key to pawn). */
  datatype TerrainState = TerrainState(
    queueKeys: seq<ChunkKey>,
    queue: map<ChunkKey, QueuedChunk>,
    active: seq<ChunkKey>,
    terrains: map<Entity, map<ChunkKey, PawnId>>)

  /** The queue's key list and map agree, neither key list repeats, and a
      key is never both queued and active. */
  ghost predicate Valid(ts: TerrainState) {
    && NoDuplicates(ts.queueKeys)
    && (forall k :: k in ts.queueKeys <==> k in ts.queue)
    && NoDuplicates(ts.active)
    && (forall k :: k in ts.queue ==> k !in ts.active)
  }

  const EmptyTerrain: TerrainState := TerrainState([], map[], [], map[])

  datatype Streamed = Streamed(ts: TerrainState, scene: Scene)

  /** The entry `updateTerrainQueue` stores for key `k` of component `tc`. */
  function QueuedFor(e: Entity, tc: TerrainComponent, mat: MaterialRef, k: ChunkKey): QueuedChunk
    requires k in tc.chunks
  {
    QueuedChunk(e, tc.terrainSeed, tc.chunkWidth, tc.chunkHeight, tc.chunks[k], mat)
  }

  /** `updateTerrainQueue`: each requested key, in the component's order,
      is appended to the queue unless it is already active or queued; no
      existing entry is overwritten. */
  function EnqueueChunks(ts: TerrainState, e: Entity, tc: TerrainComponent, mat: MaterialRef, keys: seq<ChunkKey>): (r: TerrainState)
    requires forall i :: 0 <= i < |keys| ==> keys[i] in tc.chunks
    ensures Valid(ts) ==> Valid(r)
    ensures r.active == ts.active && r.terrains == ts.terrains
    ensures |ts.queueKeys| <= |r.queueKeys| && r.queueKeys[..|ts.queueKeys|] == ts.queueKeys
    ensures forall k :: k in r.queue <==> k in ts.queue || (k in keys && k !in ts.active)
    ensures forall k :: k in ts.queue ==> r.queue[k] == ts.queue[k]
    ensures forall k :: k in r.queue && k !in ts.queue ==> k in tc.chunks && r.queue[k] == QueuedFor(e, tc, mat, k)
    decreases |keys|
  {
    if keys == [] then ts
    else
      var k := keys[0];
      var next :=
        if k in ts.active || k in ts.queue then ts
        else ts.(queueKeys := ts.queueKeys + [k], queue := ts.queue[k := QueuedFor(e, tc, mat, k)]);
      assert Valid(ts) ==> Valid(next) by {
        if Valid(ts) && !(k in ts.active || k in ts.queue) {
          assert k !in ts.queueKeys;
          forall i, j | 0 <= i < j < |next.queueKeys|
            ensures next.queueKeys[i] != next.queueKeys[j]
          {
            if j == |ts.queueKeys| {
              assert next.queueKeys[i] == ts.queueKeys[i];
            }
          }
        }
      }
      assert next.queueKeys[..|ts.queueKeys|] == ts.queueKeys;
      var r := EnqueueChunks(next, e, tc, mat, keys[1..]);
      assert r.queueKeys[..|ts.queueKeys|] == r.queueKeys[..|next.queueKeys|][..|ts.queueKeys|];
      r
  }

  /** Fresh, distinct keys are queued in the order given. */
  lemma {:induction false} EnqueueAppends(ts: TerrainState, e: Entity, tc: TerrainComponent, mat: MaterialRef, keys: seq<ChunkKey>)
    requires forall i :: 0 <= i < |keys| ==> keys[i] in tc.chunks
    requires NoDuplicates(keys)
    requires forall i :: 0 <= i < |keys| ==> keys[i] !in ts.queue && keys[i] !in ts.active
    ensures EnqueueChunks(ts, e, tc, mat, keys).queueKeys == ts.queueKeys + keys
    decreases |keys|
  {
    if keys != [] {
      var k := keys[0];
      var next := ts.(queueKeys := ts.queueKeys + [k], queue := ts.queue[k := QueuedFor(e, tc, mat, k)]);
      NoDuplicatesTail(keys);
      forall i | 0 <= i < |keys[1..]|
        ensures keys[1..][i] !in next.queue && keys[1..][i] !in next.active
      {
        assert keys[1..][i] == keys[i + 1];
      }
      EnqueueAppends(next, e, tc, mat, keys[1..]);
      assert EnqueueChunks(ts, e, tc, mat, keys) == EnqueueChunks(next, e, tc, mat, keys[1..]);
      AppendHead(ts.queueKeys, keys);
    }
  }

  /** Keys that are all active already queue nothing. */
  lemma {:induction false} EnqueueActive(ts: TerrainState, e: Entity, tc: TerrainComponent, mat: MaterialRef, keys: seq<ChunkKey>)
    requires forall i :: 0 <= i < |keys| ==> keys[i] in tc.chunks
    requires forall i :: 0 <= i < |keys| ==> keys[i] in ts.active
    ensures EnqueueChunks(ts, e, tc, mat, keys) == ts
    decreases |keys|
  {
    if keys != [] {
      EnqueueActive(ts, e, tc, mat, keys[1..]);
    }
  }

  /** Where `generateTerrainChunk` puts a chunk: `chunkId` and the
      translation of its pawn. */
  datatype Placement = Placement(chunkId: Triple, position: Triple)

  /** `scale = 1 << lod`; `chunkId = [x / scale | 0, y / scale | 0, lod]`;
      `position = [id0 * scale * width, 0, id1 * scale * height]`. */
  function ChunkPlacement(c: Chunk, width: int, height: int): (r: Placement)
    ensures r.chunkId.z == c.lod && r.position.y == 0
    ensures -TWO_31 <= r.chunkId.x < TWO_31 && -TWO_31 <= r.chunkId.y < TWO_31
  {
    var scale := ShiftOne(c.lod);
    var id0 := ToInt32(TruncDiv(c.x, scale));
    var id1 := ToInt32(TruncDiv(c.y, scale));
    Placement(Triple(id0, id1, c.lod), Triple(id0 * scale * width, 0, id1 * scale * height))
  }

  lemma TruncDivExact(q: int, p: int)
    requires p >= 1
    ensures TruncDiv(q * p, p) == q
  {
    var t := TruncDiv(q * p, p);
    assert Abs(q * p) == Abs(q) * p;
    if Abs(t) < Abs(q) {
      MulLeft(Abs(t) + 1, Abs(q), p);
    } else if Abs(t) > Abs(q) {
      MulLeft(Abs(q) + 1, Abs(t), p);
    }
    assert Abs(t) == Abs(q);
  }

  lemma MulLeft(a: int, b: int, p: int)
    requires a <= b && p >= 0
    ensures a * p <= b * p
  {
  }

  /** A chunk whose coordinates are multiples of its scale lands at the
      quotient, and its pawn at the chunk coordinate times the chunk size. */
  lemma PlacementOfAlignedChunk(c: Chunk, width: int, height: int, qx: int, qy: int)
    requires c.lod < 31
    requires c.x == qx * Pow2(c.lod) && c.y == qy * Pow2(c.lod)
    requires -TWO_31 <= qx < TWO_31 && -TWO_31 <= qy < TWO_31
    ensures ChunkPlacement(c, width, height) == Placement(Triple(qx, qy, c.lod), Triple(c.x * width, 0, c.y * height))
  {
    var scale := Pow2(c.lod);
    assert ShiftOne(c.lod) == scale by {
      assert c.lod % 32 == c.lod;
    }
    TruncDivExact(qx, scale);
    TruncDivExact(qy, scale);
    assert ToInt32(TruncDiv(c.x, scale)) == qx;
    assert ToInt32(TruncDiv(c.y, scale)) == qy;
    assert qx * scale * width == c.x * width;
    assert qy * scale * height == c.y * height;
  }

  /** The division truncates toward zero, unlike a floor: chunk x = -1 at
      lod 1 gets id 0, and x = -3 gets id -1. */
  lemma PlacementTruncatesTowardZero()
    ensures ChunkPlacement(Chunk(-1, 0, 1), 1, 1).chunkId.x == 0
    ensures ChunkPlacement(Chunk(-3, 0, 1), 1, 1).chunkId.x == -1
  {
    assert ShiftOne(1) == 2;
    assert TruncDiv(-1, 2) == 0;
    assert TruncDiv(-3, 2) == -1;
  }

  /** The pawn `generateTerrainChunk` adds for a queued chunk; its
      TerrainMesh and translation are `ChunkPlacement` of the chunk and
      size it records. */
  function TerrainPawnFor(key: ChunkKey, qc: QueuedChunk): PawnInfo {
    TerrainPawn(qc.entity, key, qc.chunk, qc.chunkWidth, qc.chunkHeight, qc.terrainSeed, qc.material)
  }

  /** `terrains` after recording pawn `p` for chunk `key` of entity `e`
      (creating the entity's map on first use). */
  function Record(terrains: map<Entity, map<ChunkKey, PawnId>>, e: Entity, key: ChunkKey, p: PawnId): (r: map<Entity, map<ChunkKey, PawnId>>)
    ensures r.Keys == terrains.Keys + {e}
    ensures r[e].Keys == (if e in terrains then terrains[e].Keys else {}) + {key} && r[e][key] == p
    ensures forall k :: e in terrains && k in terrains[e] && k != key ==> r[e][k] == terrains[e][k]
    ensures forall x :: x in terrains && x != e ==> r[x] == terrains[x]
  {
    var chunks := if e in terrains then terrains[e] else map[];
    terrains[e := chunks[key := p]]
  }

  /** The part of the state chunk generation touches. */
  datatype Generation = Generation(active: seq<ChunkKey>, terrains: map<Entity, map<ChunkKey, PawnId>>, scene: Scene)

  /** No element of `b` occurs in `a`. */
  predicate Disjoint(a: seq<ChunkKey>, b: seq<ChunkKey>) {
    forall i :: 0 <= i < |b| ==> b[i] !in a
  }

  /** `generateTerrainChunk`: mark the key active (a key already active
      keeps its place), add the chunk's pawn under a fresh id and record
      that pawn under the owning entity, next to its other chunks. */
  function GenerateChunk(g: Generation, key: ChunkKey, qc: QueuedChunk): (r: Generation)
    ensures key in g.active ==> r.active == g.active
    ensures key !in g.active ==> r.active == g.active + [key]
    ensures Scenes.Valid(g.scene) ==> Scenes.Valid(r.scene) && g.scene.nextPawn !in g.scene.pawns
    ensures g.scene.nextPawn in r.scene.pawns && r.scene.pawns[g.scene.nextPawn] == TerrainPawnFor(key, qc)
    ensures forall p :: p in g.scene.pawns && p != g.scene.nextPawn ==> p in r.scene.pawns && r.scene.pawns[p] == g.scene.pawns[p]
    ensures r.scene.nextPawn == g.scene.nextPawn + 1
    ensures r.scene.cameras == g.scene.cameras && r.scene.light == g.scene.light
    ensures r.terrains == Record(g.terrains, qc.entity, key, g.scene.nextPawn)
  {
    var active := if key in g.active then g.active else g.active + [key];
    var added := AddPawn(g.scene, TerrainPawnFor(key, qc));
    Generation(active, Record(g.terrains, qc.entity, key, added.id), added.scene)
  }

  /** How many entries one `processTerrainQueue` call generates: none from
      an empty queue, otherwise up to `batchSize` but at least one, since the
      loop checks `++i >= batchSize` only after generating. */
  function BatchCount(queued: nat, batchSize: int): (n: nat)
    ensures n <= queued
    ensures n == 0 <==> queued == 0
    ensures batchSize >= 1 ==> n == Min(queued, batchSize)
  {
    if queued == 0 then 0 else if batchSize <= 1 then 1 else Min(queued, batchSize)
  }


  /** Generate the listed queued chunks in order. */
  function GenerateAll(g: Generation, batch: seq<ChunkKey>, queue: map<ChunkKey, QueuedChunk>): (r: Generation)
    requires forall i :: 0 <= i < |batch| ==> batch[i] in queue
    ensures r.scene.nextPawn == g.scene.nextPawn + |batch|
    ensures r.scene.cameras == g.scene.cameras && r.scene.light == g.scene.light
    decreases |batch|
  {
    if batch == [] then g
    else
      var k := batch[0];
      GenerateAll(GenerateChunk(g, k, queue[k]), batch[1..], queue)
  }

  /** The active keys after marking each of `batch` active in turn. */
  function Activate(active: seq<ChunkKey>, batch: seq<ChunkKey>): seq<ChunkKey>
    decreases |batch|
  {
    if batch == [] then active
    else Activate(if batch[0] in active then active else active + [batch[0]], batch[1..])
  }

  lemma {:induction false} GenerateAllActivates(g: Generation, batch: seq<ChunkKey>, queue: map<ChunkKey, QueuedChunk>)
    requires forall i :: 0 <= i < |batch| ==> batch[i] in queue
    ensures GenerateAll(g, batch, queue).active == Activate(g.active, batch)
    decreases |batch|
  {
    if batch != [] {
      GenerateAllActivates(GenerateChunk(g, batch[0], queue[batch[0]]), batch[1..], queue);
    }
  }

  /** A duplicate-free batch of keys not yet active is appended to the
      active keys in batch order. */
  lemma {:induction false} ActivateAppends(active: seq<ChunkKey>, batch: seq<ChunkKey>)
    requires NoDuplicates(batch) && Disjoint(active, batch)
    ensures Activate(active, batch) == active + batch
    decreases |batch|
  {
    if batch != [] {
      var k := batch[0];
      var rest := batch[1..];
      NoDuplicatesTail(batch);
      assert Disjoint(active + [k], rest) by {
        forall i | 0 <= i < |rest|
          ensures rest[i] !in active + [k]
        {
          assert rest[i] == batch[i + 1];
        }
      }
      ActivateAppends(active + [k], rest);
      assert batch == [k] + rest;
      assert (active + [k]) + rest == active + ([k] + rest);
    }
  }

  lemma GenerateAllActive(g: Generation, batch: seq<ChunkKey>, queue: map<ChunkKey, QueuedChunk>)
    requires forall i :: 0 <= i < |batch| ==> batch[i] in queue
    requires NoDuplicates(batch) && Disjoint(g.active, batch)
    ensures GenerateAll(g, batch, queue).active == g.active + batch
  {
    GenerateAllActivates(g, batch, queue);
    ActivateAppends(g.active, batch);
  }

  /** A batch only adds pawns: pawns below the id watermark are untouched,
      and a valid scene stays valid. */
  lemma {:induction false} GenerateAllKeepsPawns(g: Generation, batch: seq<ChunkKey>, queue: map<ChunkKey, QueuedChunk>)
    requires forall i :: 0 <= i < |batch| ==> batch[i] in queue
    ensures var r := GenerateAll(g, batch, queue);
      && (Scenes.Valid(g.scene) ==> Scenes.Valid(r.scene))
      && (forall p :: p in g.scene.pawns && p < g.scene.nextPawn ==> p in r.scene.pawns && r.scene.pawns[p] == g.scene.pawns[p])
    decreases |batch|
  {
    if batch != [] {
      var next := GenerateChunk(g, batch[0], queue[batch[0]]);
      GenerateAllKeepsPawns(next, batch[1..], queue);
    }
  }

  /** The i-th generated chunk's pawn has id `nextPawn + i`. */
  lemma {:induction false} GenerateAllPawns(g: Generation, batch: seq<ChunkKey>, queue: map<ChunkKey, QueuedChunk>, i: nat, p: PawnId)
    requires forall j :: 0 <= j < |batch| ==> batch[j] in queue
    requires i < |batch| && p == g.scene.nextPawn + i
    ensures var r := GenerateAll(g, batch, queue);
      p in r.scene.pawns && r.scene.pawns[p] == TerrainPawnFor(batch[i], queue[batch[i]])
    decreases |batch|
  {
    var k := batch[0];
    var rest := batch[1..];
    var next := GenerateChunk(g, k, queue[k]);
    assert GenerateAll(g, batch, queue) == GenerateAll(next, rest, queue);
    if i == 0 {
      GenerateAllKeepsPawns(next, rest, queue);
    } else {
      assert batch[i] == rest[i - 1];
      GenerateAllPawns(next, rest, queue, i - 1, p);
    }
  }

  /** Chunk records of keys outside the batch are kept. */
  lemma {:induction false} GenerateAllKeepsRecords(g: Generation, batch: seq<ChunkKey>, queue: map<ChunkKey, QueuedChunk>, e: Entity, k: ChunkKey)
    requires forall i :: 0 <= i < |batch| ==> batch[i] in queue
    requires e in g.terrains && k in g.terrains[e] && k !in batch
    ensures var r := GenerateAll(g, batch, queue);
      e in r.terrains && k in r.terrains[e] && r.terrains[e][k] == g.terrains[e][k]
    decreases |batch|
  {
    if batch != [] {
      var next := GenerateChunk(g, batch[0], queue[batch[0]]);
      assert k != batch[0];
      assert k !in batch[1..];
      GenerateAllKeepsRecords(next, batch[1..], queue, e, k);
    }
  }

  /** With no key listed twice, each generated key is recorded under its
      entity with the pawn id it was given. */
  lemma {:induction false} GenerateAllRecords(g: Generation, batch: seq<ChunkKey>, queue: map<ChunkKey, QueuedChunk>, i: nat)
    requires forall j :: 0 <= j < |batch| ==> batch[j] in queue
    requires NoDuplicates(batch) && i < |batch|
    ensures var r := GenerateAll(g, batch, queue);
      var e := queue[batch[i]].entity;
      e in r.terrains && batch[i] in r.terrains[e] && r.terrains[e][batch[i]] == g.scene.nextPawn + i
    decreases |batch|
  {
    var k := batch[0];
    var rest := batch[1..];
    var next := GenerateChunk(g, k, queue[k]);
    NoDuplicatesTail(batch);
    if i == 0 {
      if rest != [] {
        GenerateAllKeepsRecords(next, rest, queue, queue[k].entity, k);
      }
    } else {
      assert batch[i] == rest[i - 1];
      GenerateAllRecords(next, rest, queue, i - 1);
    }
  }

  /** The first `n` queued keys, each with its queue entry. */
  lemma QueuedPrefix(ts: TerrainState, n: nat)
    requires Valid(ts) && n <= |ts.queueKeys|
    ensures forall i :: 0 <= i < |ts.queueKeys[..n]| ==> ts.queueKeys[..n][i] in ts.queue
  {
    forall i | 0 <= i < n
      ensures ts.queueKeys[..n][i] in ts.queue
    {
      assert ts.queueKeys[..n][i] == ts.queueKeys[i];
      assert ts.queueKeys[i] in ts.queueKeys;
    }
  }

  /** `processTerrainQueue(scene, batchSize)`: generate and dequeue the
      first `BatchCount` entries in queue order. */
  function ProcessQueue(ts: TerrainState, scene: Scene, batchSize: int): (r: Streamed)
    requires Valid(ts)
    ensures var n := BatchCount(|ts.queueKeys|, batchSize);
      && r.ts.queueKeys == ts.queueKeys[n..]
      && r.scene.nextPawn == scene.nextPawn + n
      && r.scene.cameras == scene.cameras && r.scene.light == scene.light
  {
    var n := BatchCount(|ts.queueKeys|, batchSize);
    var batch := ts.queueKeys[..n];
    QueuedPrefix(ts, n);
    var out := GenerateAll(Generation(ts.active, ts.terrains, scene), batch, ts.queue);
    var queue := map k | k in ts.queue && k !in batch :: ts.queue[k];
    Streamed(TerrainState(ts.queueKeys[n..], queue, out.active, out.terrains), out.scene)
  }

  /** Processing the queue keeps the state valid, moves the batch from the
      queue to the end of the active keys, and leaves the other queue
      entries as they were. */
  lemma ProcessQueueValid(ts: TerrainState, scene: Scene, batchSize: int)
    requires Valid(ts)
    ensures var n := BatchCount(|ts.queueKeys|, batchSize);
      var r := ProcessQueue(ts, scene, batchSize).ts;
      && Valid(r)
      && r.active == ts.active + ts.queueKeys[..n]
      && (forall k :: k in r.queue ==> k in ts.queue && r.queue[k] == ts.queue[k])
  {
    var n := BatchCount(|ts.queueKeys|, batchSize);
    var batch := ts.queueKeys[..n];
    QueuedPrefix(ts, n);
    SliceSplit(ts.queueKeys, n);
    assert Disjoint(ts.active, batch) by {
      forall i | 0 <= i < |batch|
        ensures batch[i] !in ts.active
      {
        assert batch[i] == ts.queueKeys[i];
        assert ts.queueKeys[i] in ts.queueKeys;
      }
    }
    GenerateAllActive(Generation(ts.active, ts.terrains, scene), batch, ts.queue);
    var r := ProcessQueue(ts, scene, batchSize).ts;
    assert r.active == ts.active + batch;
    forall x
      ensures x in r.queueKeys <==> x in r.queue
    {
      assert x in ts.queueKeys <==> x in batch || x in r.queueKeys by {
        assert ts.queueKeys == batch + r.queueKeys;
      }
    }
    forall x | x in r.queue
      ensures x !in r.active
    {
      assert x !in ts.active;
    }
    ActiveAppend(ts.active, batch);
  }

  /** Generating chunks hands out fresh pawn ids only. */
  lemma {:induction false} GenerateAllKeepsSceneValid(g: Generation, batch: seq<ChunkKey>, queue: map<ChunkKey, QueuedChunk>)
    requires forall i :: 0 <= i < |batch| ==> batch[i] in queue
    requires Scenes.Valid(g.scene)
    ensures Scenes.Valid(GenerateAll(g, batch, queue).scene)
    decreases |batch|
  {
    if batch != [] {
      var k := batch[0];
      GenerateAllKeepsSceneValid(GenerateChunk(g, k, queue[k]), batch[1..], queue);
    }
  }

  lemma ProcessQueueKeepsSceneValid(ts: TerrainState, scene: Scene, batchSize: int)
    requires Valid(ts) && Scenes.Valid(scene)
    ensures Scenes.Valid(ProcessQueue(ts, scene, batchSize).scene)
  {
    var n := BatchCount(|ts.queueKeys|, batchSize);
    QueuedPrefix(ts, n);
    GenerateAllKeepsSceneValid(Generation(ts.active, ts.terrains, scene), ts.queueKeys[..n], ts.queue);
  }

  /** Appending a batch disjoint from a duplicate-free list keeps it
      duplicate-free. */
  lemma ActiveAppend(a: seq<ChunkKey>, b: seq<ChunkKey>)
    requires NoDuplicates(a) && NoDuplicates(b) && Disjoint(a, b)
    ensures NoDuplicates(a + b)
  {
    forall i, j | 0 <= i < j < |a + b|
      ensures (a + b)[i] != (a + b)[j]
    {
      if j >= |a| && i < |a| {
        assert (a + b)[j] == b[j - |a|];
      }
    }
  }

  /** Splitting a duplicate-free sequence: both halves are duplicate-free
      and share no element. */
  lemma SliceSplit(s: seq<ChunkKey>, n: nat)
    requires NoDuplicates(s) && n <= |s|
    ensures s == s[..n] + s[n..]
    ensures NoDuplicates(s[..n]) && NoDuplicates(s[n..])
    ensures forall k :: k in s[..n] ==> k !in s[n..]
  {
    assert s == s[..n] + s[n..];
    forall k | k in s[..n]
      ensures k !in s[n..]
    {
      var i :| 0 <= i < n && s[..n][i] == k;
      assert s[i] == k;
    }
    forall i, j | 0 <= i < j < |s[n..]|
      ensures s[n..][i] != s[n..][j]
    {
      assert s[n..][i] == s[n + i];
    }
  }

  // removeExpiredTerrainChunks

  /** What one eviction pass leaves: the active keys (in order), the
      entity's chunk-to-pawn map, and the pawns to remove from the scene. */
  datatype Expiry = Expiry(active: seq<ChunkKey>, chunks: map<ChunkKey, PawnId>, removed: seq<PawnId>)

  /** The eviction loop over `active` in order, with `limit` removals left
      before the `--limit < 0` break: a requested key is kept; any other
      key leaves `active`; if the entity has a pawn for it, that pawn is
      removed, and the pass stops once the limit drops below zero, leaving
      the keys not yet visited in place. */
  function Expire(active: seq<ChunkKey>, requested: set<ChunkKey>, chunks: map<ChunkKey, PawnId>, limit: int): (r: Expiry)
    ensures forall k :: k in r.active ==> k in active
    ensures forall k :: k in active && k in requested ==> k in r.active
    ensures NoDuplicates(active) ==> NoDuplicates(r.active)
    ensures forall k :: k in r.chunks ==> k in chunks && r.chunks[k] == chunks[k]
    ensures forall k :: k in chunks && k !in r.chunks ==> k in active && k !in requested
    ensures limit >= 0 ==> |r.removed| <= limit + 1
    decreases |active|
  {
    if active == [] then Expiry([], chunks, [])
    else
      var k := active[0];
      if k in requested then
        var rest := Expire(active[1..], requested, chunks, limit);
        assert NoDuplicates(active) ==> NoDuplicates([k] + rest.active) by {
          if NoDuplicates(active) {
            NoDuplicatesTail(active);
            NoDuplicatesCons(k, rest.active);
          }
        }
        Expiry([k] + rest.active, rest.chunks, rest.removed)
      else if k !in chunks then
        assert NoDuplicates(active) ==> NoDuplicates(active[1..]) by {
          if NoDuplicates(active) {
            NoDuplicatesTail(active);
          }
        }
        Expire(active[1..], requested, chunks, limit)
      else if limit - 1 < 0 then
        assert NoDuplicates(active) ==> NoDuplicates(active[1..]) by {
          if NoDuplicates(active) {
            NoDuplicatesTail(active);
          }
        }
        Expiry(active[1..], chunks - {k}, [chunks[k]])
      else
        assert NoDuplicates(active) ==> NoDuplicates(active[1..]) by {
          if NoDuplicates(active) {
            NoDuplicatesTail(active);
          }
        }
        var rest := Expire(active[1..], requested, chunks - {k}, limit - 1);
        Expiry(rest.active, rest.chunks, [chunks[k]] + rest.removed)
  }

  /** The pawns of the unrequested keys of `active`, in `active` order:
      what a pass with no limit would remove. */
  function RemovablePawns(active: seq<ChunkKey>, requested: set<ChunkKey>, chunks: map<ChunkKey, PawnId>): seq<PawnId>
    decreases |active|
  {
    if active == [] then []
    else
      var k := active[0];
      (if k !in requested && k in chunks then [chunks[k]] else []) + RemovablePawns(active[1..], requested, chunks)
  }

  /** How many pawns a pass with no limit would remove. */
  function Removable(active: seq<ChunkKey>, requested: set<ChunkKey>, chunks: map<ChunkKey, PawnId>): nat {
    |RemovablePawns(active, requested, chunks)|
  }

  /** Dropping a key that `active` does not list changes nothing. */
  lemma {:induction false} RemovableWithout(active: seq<ChunkKey>, requested: set<ChunkKey>, chunks: map<ChunkKey, PawnId>, k: ChunkKey)
    requires k !in active
    ensures RemovablePawns(active, requested, chunks - {k}) == RemovablePawns(active, requested, chunks)
    decreases |active|
  {
    if active != [] {
      assert active[0] != k;
      assert k !in active[1..];
      RemovableWithout(active[1..], requested, chunks, k);
    }
  }

  /** One pass removes the first `limit + 1` removable pawns, in order (all
      of them if there are fewer). */
  lemma {:induction false} ExpireRemovesPrefix(active: seq<ChunkKey>, requested: set<ChunkKey>, chunks: map<ChunkKey, PawnId>, limit: int)
    requires NoDuplicates(active) && limit >= 0
    ensures var all := RemovablePawns(active, requested, chunks);
      Expire(active, requested, chunks, limit).removed == all[..Min(|all|, limit + 1)]
    decreases |active|
  {
    if active != [] {
      var k := active[0];
      var tail := RemovablePawns(active[1..], requested, chunks);
      NoDuplicatesTail(active);
      if k in requested || k !in chunks {
        ExpireRemovesPrefix(active[1..], requested, chunks, limit);
        assert RemovablePawns(active, requested, chunks) == tail by {
          assert [] + tail == tail;
        }
        assert Expire(active, requested, chunks, limit).removed == Expire(active[1..], requested, chunks, limit).removed;
      } else {
        RemovedHead(active, requested, chunks, limit);
      }
    }
  }

  /** The step of `ExpireRemovesPrefix` where the first key's pawn goes. */
  lemma {:induction false} RemovedHead(active: seq<ChunkKey>, requested: set<ChunkKey>, chunks: map<ChunkKey, PawnId>, limit: int)
    requires NoDuplicates(active) && limit >= 0
    requires active != [] && active[0] !in requested && active[0] in chunks
    ensures var all := RemovablePawns(active, requested, chunks);
      Expire(active, requested, chunks, limit).removed == all[..Min(|all|, limit + 1)]
    decreases |active|, 0
  {
    var k := active[0];
    var tail := RemovablePawns(active[1..], requested, chunks);
    NoDuplicatesTail(active);
    assert RemovablePawns(active, requested, chunks) == [chunks[k]] + tail;
    if limit >= 1 {
      ExpireRemovesPrefix(active[1..], requested, chunks - {k}, limit - 1);
      RemovableWithout(active[1..], requested, chunks, k);
      assert Expire(active, requested, chunks, limit).removed == [chunks[k]] + Expire(active[1..], requested, chunks - {k}, limit - 1).removed;
      assert ([chunks[k]] + tail)[..Min(|tail| + 1, limit + 1)] == [chunks[k]] + tail[..Min(|tail|, limit)];
    } else {
      assert ([chunks[k]] + tail)[..1] == [chunks[k]];
    }
  }

  /** The requested keys of `active`, in order. */
  function Kept(active: seq<ChunkKey>, requested: set<ChunkKey>): (r: seq<ChunkKey>)
    ensures forall k :: k in r <==> k in active && k in requested
    decreases |active|
  {
    if active == [] then []
    else (if active[0] in requested then [active[0]] else []) + Kept(active[1..], requested)
  }

  /** When no more than `limit` pawns are removable the pass never breaks:
      exactly the requested keys stay active, in order... */
  lemma {:induction false} ExpireBelowLimitActive(active: seq<ChunkKey>, requested: set<ChunkKey>, chunks: map<ChunkKey, PawnId>, limit: int)
    requires NoDuplicates(active) && 0 <= limit && Removable(active, requested, chunks) <= limit
    ensures Expire(active, requested, chunks, limit).active == Kept(active, requested)
    decreases |active|
  {
    if active != [] {
      var k := active[0];
      NoDuplicatesTail(active);
      var tail := Kept(active[1..], requested);
      if k in requested {
        ExpireBelowLimitActive(active[1..], requested, chunks, limit);
        assert Kept(active, requested) == [k] + tail;
      } else if k !in chunks {
        ExpireBelowLimitActive(active[1..], requested, chunks, limit);
        assert Kept(active, requested) == [] + tail;
      } else {
        RemovableWithout(active[1..], requested, chunks, k);
        ExpireBelowLimitActive(active[1..], requested, chunks - {k}, limit - 1);
        assert Kept(active, requested) == [] + tail;
      }
    }
  }

  /** ...and every unrequested active key loses its pawn. */
  lemma {:induction false} ExpireBelowLimitChunks(active: seq<ChunkKey>, requested: set<ChunkKey>, chunks: map<ChunkKey, PawnId>, limit: int)
    requires NoDuplicates(active) && 0 <= limit && Removable(active, requested, chunks) <= limit
    ensures var r := Expire(active, requested, chunks, limit);
      forall i :: 0 <= i < |active| && active[i] !in requested ==> active[i] !in r.chunks
    decreases |active|
  {
    if active != [] {
      var k := active[0];
      var r := Expire(active, requested, chunks, limit);
      NoDuplicatesTail(active);
      var rest;
      if k in requested || k !in chunks {
        ExpireBelowLimitChunks(active[1..], requested, chunks, limit);
        rest := Expire(active[1..], requested, chunks, limit);
        assert RemovablePawns(active, requested, chunks) == [] + RemovablePawns(active[1..], requested, chunks);
      } else {
        RemovableWithout(active[1..], requested, chunks, k);
        assert RemovablePawns(active, requested, chunks) == [chunks[k]] + RemovablePawns(active[1..], requested, chunks);
        ExpireBelowLimitChunks(active[1..], requested, chunks - {k}, limit - 1);
        rest := Expire(active[1..], requested, chunks - {k}, limit - 1);
      }
      assert r.chunks == rest.chunks;
      forall i | 0 <= i < |active| && active[i] !in requested
        ensures active[i] !in r.chunks
      {
        if i > 0 {
          assert active[i] == active[1..][i - 1];
        }
      }
    }
  }

  /** A finished prefix of the pass (keys kept, pawns removed) joined to
      the pass over the rest. */
  function Glue(kept: seq<ChunkKey>, removed: seq<PawnId>, e: Expiry): Expiry {
    Expiry(kept + e.active, e.chunks, removed + e.removed)
  }

  /** `removeExpiredTerrainChunks`' loop over `activeTerrain`, with the
      entity's chunk map; computes the same result as `Expire` with the
      initial limit. */
  method RemoveExpiredChunks(active: seq<ChunkKey>, requested: set<ChunkKey>, chunks: map<ChunkKey, PawnId>) returns (r: Expiry)
    ensures r == Expire(active, requested, chunks, EVICTION_LIMIT)
  {
    var kept: seq<ChunkKey> := [];
    var removed: seq<PawnId> := [];
    var current := chunks;
    var limit := EVICTION_LIMIT;
    var i := 0;
    while i < |active|
      invariant 0 <= i <= |active| && limit >= 0
      invariant Expire(active, requested, chunks, EVICTION_LIMIT) == Glue(kept, removed, Expire(active[i..], requested, current, limit))
      decreases |active| - i
    {
      var k := active[i];
      ghost var whole := Glue(kept, removed, Expire(active[i..], requested, current, limit));
      ExpireGlueStep(kept, removed, active, i, requested, current, limit);
      if k in requested {
        kept := kept + [k];
      } else if k in current {
        var pawn := current[k];
        if limit - 1 < 0 {
          r := Expiry(kept + active[i + 1..], current - {k}, removed + [pawn]);
          return;
        }
        current := current - {k};
        limit := limit - 1;
        removed := removed + [pawn];
      }
      assert whole == Glue(kept, removed, Expire(active[i + 1..], requested, current, limit));
      i := i + 1;
    }
    assert active[i..] == [];
    r := Expiry(kept, current, removed);
    assert kept + [] == kept && removed + [] == removed;
  }

  /** One iteration of the eviction loop, at key `active[i]`, as a step of
      `Expire` under a finished prefix. */
  lemma ExpireGlueStep(kept: seq<ChunkKey>, removed: seq<PawnId>, active: seq<ChunkKey>, i: nat, requested: set<ChunkKey>, current: map<ChunkKey, PawnId>, limit: int)
    requires i < |active|
    ensures var k := active[i];
      var g := Glue(kept, removed, Expire(active[i..], requested, current, limit));
      && (k in requested ==> g == Glue(kept + [k], removed, Expire(active[i + 1..], requested, current, limit)))
      && (k !in requested && k !in current ==> g == Glue(kept, removed, Expire(active[i + 1..], requested, current, limit)))
      && (k !in requested && k in current && limit - 1 < 0 ==> g == Expiry(kept + active[i + 1..], current - {k}, removed + [current[k]]))
      && (k !in requested && k in current && limit - 1 >= 0 ==>
            g == Glue(kept, removed + [current[k]], Expire(active[i + 1..], requested, current - {k}, limit - 1)))
  {
    var s := active[i..];
    var k := active[i];
    assert s[0] == k && s[1..] == active[i + 1..];
    if k in requested {
      var rest := Expire(s[1..], requested, current, limit);
      assert kept + ([k] + rest.active) == (kept + [k]) + rest.active;
    } else if k in current && limit - 1 >= 0 {
      var rest := Expire(s[1..], requested, current - {k}, limit - 1);
      assert removed + ([current[k]] + rest.removed) == (removed + [current[k]]) + rest.removed;
    }
  }

  /** `removeExpiredTerrainChunks(entity, terrain, scene)`: nothing happens
      for an entity with no chunk map yet; otherwise one eviction pass over
      `activeTerrain` against the entity's requested keys, removing the
      evicted pawns from the scene. */
  function ExpireEntity(ts: TerrainState, scene: Scene, e: Entity, requested: set<ChunkKey>): (r: Streamed)
    ensures Valid(ts) ==> Valid(r.ts)
    ensures r.ts.queueKeys == ts.queueKeys && r.ts.queue == ts.queue
    ensures r.ts.terrains.Keys == ts.terrains.Keys
    ensures forall x :: x in ts.terrains && x != e ==> r.ts.terrains[x] == ts.terrains[x]
    ensures forall k :: k in ts.active && k in requested ==> k in r.ts.active
    ensures forall k :: k in r.ts.active ==> k in ts.active
    ensures e !in ts.terrains ==> r == Streamed(ts, scene)
    ensures Scenes.Valid(scene) ==> Scenes.Valid(r.scene)
    ensures r.scene.nextPawn == scene.nextPawn && r.scene.cameras == scene.cameras && r.scene.light == scene.light
  {
    if e !in ts.terrains then Streamed(ts, scene)
    else
      var x := Expire(ts.active, requested, ts.terrains[e], EVICTION_LIMIT);
      Streamed(ts.(active := x.active, terrains := ts.terrains[e := x.chunks]), RemovePawns(scene, x.removed))
  }

  /** One iteration of `updateTerrain`'s entity loop once the material is
      resolved: queue the entity's requested chunks, then evict its stale
      chunks only if the whole queue is empty. */
  function TerrainEntityStep(ts: TerrainState, scene: Scene, e: Entity, tc: TerrainComponent, mat: MaterialRef): (r: Streamed)
    requires TerrainValid(tc)
    ensures Valid(ts) ==> Valid(r.ts)
    ensures r.scene.nextPawn == scene.nextPawn && r.scene.cameras == scene.cameras && r.scene.light == scene.light
    ensures Scenes.Valid(scene) ==> Scenes.Valid(r.scene)
    ensures r.ts.queueKeys != [] ==> r.scene == scene && r.ts.active == ts.active
    ensures forall k :: k in ts.active && k in tc.chunks ==> k in r.ts.active
  {
    assert forall i :: 0 <= i < |tc.keys| ==> tc.keys[i] in tc.chunks by {
      forall i | 0 <= i < |tc.keys|
        ensures tc.keys[i] in tc.chunks
      {
        var k := tc.keys[i];
        assert k in tc.keys;
        assert k in tc.keys <==> k in tc.chunks;
      }
    }
    var q := EnqueueChunks(ts, e, tc, mat, tc.keys);
    if q.queueKeys == [] then ExpireEntity(q, scene, e, tc.chunks.Keys) else Streamed(q, scene)
  }

  /** A terrain entity requesting chunks 1, 2 and 3. */
  function ThreeChunks(c1: Chunk, c2: Chunk, c3: Chunk): TerrainComponent {
    TerrainComponent([1, 2, 3], map[1 := c1, 2 := c2, 3 := c3], 7, 16, 16)
  }

  /** The same entity once chunk 2 is no longer requested. */
  function TwoChunks(c1: Chunk, c3: Chunk): TerrainComponent {
    TerrainComponent([1, 3], map[1 := c1, 3 := c3], 7, 16, 16)
  }

  /** First frame, queueing: all three keys are queued in order... */
  lemma FirstFrameQueues(e: Entity, c1: Chunk, c2: Chunk, c3: Chunk)
    ensures var q := EnqueueChunks(EmptyTerrain, e, ThreeChunks(c1, c2, c3), DefaultMaterial, [1, 2, 3]);
      && Valid(q) && q.queueKeys == [1, 2, 3] && q.active == [] && q.terrains == map[]
      && (forall k :: k in q.queue ==> q.queue[k].entity == e)
  {
    var tc := ThreeChunks(c1, c2, c3);
    assert Valid(EmptyTerrain);
    EnqueueAppends(EmptyTerrain, e, tc, DefaultMaterial, [1, 2, 3]);
    var q := EnqueueChunks(EmptyTerrain, e, tc, DefaultMaterial, [1, 2, 3]);
    forall k | k in q.queue
      ensures q.queue[k].entity == e
    {
      assert q.queue[k] == QueuedFor(e, tc, DefaultMaterial, k);
    }
  }

  /** ...and, the queue being non-empty, nothing is evicted. */
  lemma FirstFrameKeepsScene(e: Entity, c1: Chunk, c2: Chunk, c3: Chunk)
    ensures var q := EnqueueChunks(EmptyTerrain, e, ThreeChunks(c1, c2, c3), DefaultMaterial, [1, 2, 3]);
      TerrainEntityStep(EmptyTerrain, EmptyScene, e, ThreeChunks(c1, c2, c3), DefaultMaterial) == Streamed(q, EmptyScene)
  {
    var tc := ThreeChunks(c1, c2, c3);
    assert TerrainValid(tc);
    EnqueueAppends(EmptyTerrain, e, tc, DefaultMaterial, [1, 2, 3]);
  }

  /** First frame, generation: one batch of eight turns the three queued
      keys into pawns 0, 1 and 2 and records them for their entity. */
  lemma FirstFrameGenerates(q: TerrainState, e: Entity)
    requires Valid(q) && q.queueKeys == [1, 2, 3] && q.active == [] && q.terrains == map[]
    requires forall k :: k in q.queue ==> q.queue[k].entity == e
    ensures var g := ProcessQueue(q, EmptyScene, DEFAULT_BATCH_SIZE);
      && g.ts.active == [1, 2, 3] && g.ts.queueKeys == [] && Valid(g.ts)
      && e in g.ts.terrains && 1 in g.ts.terrains[e] && 2 in g.ts.terrains[e] && 3 in g.ts.terrains[e]
      && g.ts.terrains[e][1] == 0 && g.ts.terrains[e][2] == 1 && g.ts.terrains[e][3] == 2
      && 0 in g.scene.pawns && 1 in g.scene.pawns && 2 in g.scene.pawns
  {
    ProcessQueueValid(q, EmptyScene, DEFAULT_BATCH_SIZE);
    var g0 := Generation([], map[], EmptyScene);
    var batch := q.queueKeys;
    assert q.queueKeys[..3] == batch;
    QueuedPrefix(q, 3);
    GenerateAllRecords(g0, batch, q.queue, 0);
    GenerateAllRecords(g0, batch, q.queue, 1);
    GenerateAllRecords(g0, batch, q.queue, 2);
    GenerateAllPawns(g0, batch, q.queue, 0, 0);
    GenerateAllPawns(g0, batch, q.queue, 1, 1);
    GenerateAllPawns(g0, batch, q.queue, 2, 2);
  }

  /** A frame in which every requested chunk is active and nothing is
      queued is exactly one eviction pass for the entity. */
  lemma StepWithNothingNew(ts: TerrainState, scene: Scene, e: Entity, tc: TerrainComponent, mat: MaterialRef)
    requires TerrainValid(tc) && ts.queueKeys == []
    requires forall i :: 0 <= i < |tc.keys| ==> tc.keys[i] in ts.active
    ensures TerrainEntityStep(ts, scene, e, tc, mat) == ExpireEntity(ts, scene, e, tc.chunks.Keys)
  {
    assert forall i :: 0 <= i < |tc.keys| ==> tc.keys[i] in tc.chunks by {
      forall i | 0 <= i < |tc.keys|
        ensures tc.keys[i] in tc.chunks
      {
        var k := tc.keys[i];
        assert k in tc.keys;
        assert k in tc.keys <==> k in tc.chunks;
      }
    }
    EnqueueActive(ts, e, tc, mat, tc.keys);
  }

  /** The eviction pass of the second frame: chunk 2 goes, with pawn 1. */
  lemma SecondFrameExpiry(chunks: map<ChunkKey, PawnId>)
    requires 1 in chunks && 2 in chunks && 3 in chunks
    requires chunks[1] == 0 && chunks[2] == 1 && chunks[3] == 2
    ensures var x := Expire([1, 2, 3], {1, 3}, chunks, EVICTION_LIMIT);
      && x.active == [1, 3] && x.removed == [1]
      && 2 !in x.chunks && 1 in x.chunks && 3 in x.chunks
  {
    var requested: set<ChunkKey> := {1, 3};
    var active: seq<ChunkKey> := [1, 2, 3];
    assert active[1..] == [2, 3] && [2, 3][1..] == [3] && [3][1..] == [];
    assert RemovablePawns(active, requested, chunks) == [1];
    assert Kept(active, requested) == [1, 3];
    ExpireBelowLimitActive(active, requested, chunks, EVICTION_LIMIT);
    ExpireBelowLimitChunks(active, requested, chunks, EVICTION_LIMIT);
    assert active[1] == 2;
    ExpireRemovesPrefix(active, requested, chunks, EVICTION_LIMIT);
  }

  /** Second frame: with chunks 1, 2 and 3 active and the queue empty, the
      entity requests only 1 and 3. Nothing is queued, so the frame is one
      eviction pass... */
  lemma SecondFrameIsEviction(ts: TerrainState, scene: Scene, e: Entity, c1: Chunk, c3: Chunk)
    requires ts.active == [1, 2, 3] && ts.queueKeys == []
    ensures TerrainEntityStep(ts, scene, e, TwoChunks(c1, c3), DefaultMaterial) == ExpireEntity(ts, scene, e, {1, 3})
  {
    var tc := TwoChunks(c1, c3);
    assert TerrainValid(tc);
    assert tc.keys[0] == 1 && tc.keys[1] == 3;
    StepWithNothingNew(ts, scene, e, tc, DefaultMaterial);
    assert tc.chunks.Keys == {1, 3};
  }

  /** ...in which 2 leaves the active keys and the entity's records and its
      pawn (1) leaves the scene, while 1 and 3 keep their pawns 0 and 2. */
  lemma SecondFrameEvicts(ts: TerrainState, scene: Scene, e: Entity)
    requires ts.active == [1, 2, 3]
    requires e in ts.terrains && 1 in ts.terrains[e] && 2 in ts.terrains[e] && 3 in ts.terrains[e]
    requires ts.terrains[e][1] == 0 && ts.terrains[e][2] == 1 && ts.terrains[e][3] == 2
    requires 0 in scene.pawns && 1 in scene.pawns && 2 in scene.pawns
    ensures var f := ExpireEntity(ts, scene, e, {1, 3});
      && f.ts.active == [1, 3]
      && e in f.ts.terrains && 2 !in f.ts.terrains[e] && 1 in f.ts.terrains[e] && 3 in f.ts.terrains[e]
      && 1 !in f.scene.pawns && 0 in f.scene.pawns && 2 in f.scene.pawns
  {
    SecondFrameExpiry(ts.terrains[e]);
  }
}

=== FILE: world_passes.dfy ===
/** The passes of WorldGraphics.update other than the mesh pass
    (src/engine/world_graphics.ts): cameras and lights, which are added on
    first sight and never removed; the debug pawns; particles, which are
    diffed like meshes; decor, which is only ever added; and the terrain
    pass over TerrainStreaming. Positions, rotations, clipping planes and
    particle simulation are floating-point state not modelled here. */
module WorldPasses {
  import opened Wrappers
  import opened Seqs
  import opened Resources
  import opened Ecs
  import opened Scenes
  import opened GraphicsState
  import TerrainStreaming

  /* ---------------- cameras ---------------- */

  /** One camera entity: a new one gets a QuaternionCamera added to the
      Scene; a tracked one only has its pose copied. */
  function CameraStep(f: Frame, e: Entity): Frame {
    if e in f.g.cameras then f
    else Frame(f.g.(cameras := f.g.cameras + {e}), f.scene.(cameras := f.scene.cameras + [e]))
  }

  function CameraLoop(f: Frame, es: seq<Entity>): (r: Frame)
    ensures r.g == f.g.(cameras := r.g.cameras)
    ensures r.scene == f.scene.(cameras := r.scene.cameras)
    decreases |es|
  {
    if es == [] then f else CameraLoop(CameraStep(f, es[0]), es[1..])
  }

  /** `updateCameras`. Unseen cameras are only warned about. */
  function UpdateCameras(f: Frame, w: World): Frame
    requires WorldValid(w)
  {
    CameraLoop(f, Entities(CameraQuery, w))
  }

  /** The Scene lists every tracked camera, once each. */
  ghost predicate CamerasListed(f: Frame) {
    NoDuplicates(f.scene.cameras) && forall x :: x in f.scene.cameras <==> x in f.g.cameras
  }

  lemma {:induction false} CameraLoopTracks(f: Frame, es: seq<Entity>)
    requires CamerasListed(f)
    ensures var r := CameraLoop(f, es);
      && CamerasListed(r)
      && (forall x :: x in r.g.cameras <==> x in f.g.cameras || x in es)
      && f.scene.cameras <= r.scene.cameras
    decreases |es|
  {
    if es != [] {
      var next := CameraStep(f, es[0]);
      if es[0] !in f.g.cameras {
        forall i, j | 0 <= i < j < |next.scene.cameras|
          ensures next.scene.cameras[i] != next.scene.cameras[j]
        {
          if j == |f.scene.cameras| {
            assert next.scene.cameras[i] in f.scene.cameras;
          }
        }
      }
      CameraLoopTracks(next, es[1..]);
      var r := CameraLoop(f, es);
      assert forall x :: x in es <==> x == es[0] || x in es[1..];
    }
  }

  /** After `updateCameras` the tracked cameras are those tracked before
      plus every camera entity seen, none is ever dropped, the Scene's
      camera list only grows at its end, and it still names each tracked
      camera once. */
  lemma UpdateCamerasTracks(f: Frame, w: World)
    requires WorldValid(w) && CamerasListed(f)
    ensures var r := UpdateCameras(f, w);
      && CamerasListed(r)
      && (forall x :: x in r.g.cameras <==> x in f.g.cameras || (x in w.components && Matches(CameraQuery, w.components[x])))
      && f.scene.cameras <= r.scene.cameras
  {
    CameraLoopTracks(f, Entities(CameraQuery, w));
  }

  /* ---------------- lights ---------------- */

  /** One light entity: a new one replaces the Scene's light. */
  function LightStep(f: Frame, e: Entity): Frame {
    if e in f.g.lights then f
    else Frame(f.g.(lights := f.g.lights + {e}), f.scene.(light := Some(e)))
  }

  function LightLoop(f: Frame, es: seq<Entity>): (r: Frame)
    ensures r.g == f.g.(lights := r.g.lights)
    ensures r.scene == f.scene.(light := r.scene.light)
    ensures forall x :: x in r.g.lights <==> x in f.g.lights || x in es
    decreases |es|
  {
    if es == [] then f
    else
      assert forall x :: x in es <==> x == es[0] || x in es[1..];
      LightLoop(LightStep(f, es[0]), es[1..])
  }

  /** `updateLights`. Unseen lights are only warned about. */
  function UpdateLights(f: Frame, w: World): Frame
    requires WorldValid(w)
  {
    LightLoop(f, Entities(LightQuery, w))
  }

  /** The last entity of `es` outside `tracked`, searching from the end. */
  function LastUntracked(es: seq<Entity>, tracked: set<Entity>): Option<Entity>
    decreases |es|
  {
    if es == [] then None
    else if es[|es| - 1] !in tracked then Some(es[|es| - 1])
    else LastUntracked(es[..|es| - 1], tracked)
  }

  /** Searching from the end agrees with searching the tail first. */
  lemma {:induction false} LastUntrackedCons(es: seq<Entity>, tracked: set<Entity>)
    requires es != []
    ensures LastUntracked(es, tracked) ==
      if LastUntracked(es[1..], tracked).Some? then LastUntracked(es[1..], tracked)
      else if es[0] !in tracked then Some(es[0]) else None
    decreases |es|
  {
    if |es| > 1 {
      assert es[1..][..|es[1..]| - 1] == es[..|es| - 1][1..];
      assert es[1..][|es[1..]| - 1] == es[|es| - 1];
      if es[|es| - 1] in tracked {
        LastUntrackedCons(es[..|es| - 1], tracked);
      }
    }
  }

  /** A light first seen later in a frame does not change what an
      earlier entity would pick. */
  lemma {:induction false} LastUntrackedIgnores(es: seq<Entity>, tracked: set<Entity>, e: Entity)
    requires e !in es
    ensures LastUntracked(es, tracked + {e}) == LastUntracked(es, tracked)
    decreases |es|
  {
    if es != [] {
      LastUntrackedIgnores(es[..|es| - 1], tracked, e);
    }
  }

  lemma {:induction false} LightLoopLight(f: Frame, es: seq<Entity>)
    requires NoDuplicates(es)
    ensures var last := LastUntracked(es, f.g.lights);
      LightLoop(f, es).scene.light == if last.Some? then last else f.scene.light
    decreases |es|
  {
    if es != [] {
      var next := LightStep(f, es[0]);
      assert NoDuplicates(es[1..]) && es[0] !in es[1..] by {
        forall i, j | 0 <= i < j < |es[1..]|
          ensures es[1..][i] != es[1..][j]
        {
          assert es[1..][i] == es[i + 1] && es[1..][j] == es[j + 1];
        }
        forall i | 0 <= i < |es[1..]|
          ensures es[1..][i] != es[0]
        {
          assert es[1..][i] == es[i + 1];
        }
      }
      LightLoopLight(next, es[1..]);
      LastUntrackedCons(es, f.g.lights);
      if es[0] !in f.g.lights {
        LastUntrackedIgnores(es[1..], f.g.lights, es[0]);
      }
    }
  }

  /** After `updateLights` the Scene's light is the last newly seen light
      entity in query order, or the light it had if no light entity is
      new; lights already tracked never take the Scene's light back. */
  lemma UpdateLightsLight(f: Frame, w: World)
    requires WorldValid(w)
    ensures var es := Entities(LightQuery, w);
      var last := LastUntracked(es, f.g.lights);
      UpdateLights(f, w).scene.light == if last.Some? then last else f.scene.light
  {
    LightLoopLight(f, Entities(LightQuery, w));
  }

  /* ---------------- debug pawns ---------------- */

  const DOT_COLOUR: int := 0xffff_ff00
  const VECTOR_COLOUR: int := 0xff00_ff00

  /** `setupMeshes`: each debug pawn is created the first time only. */
  function SetupDebug(f: Frame): (r: Frame)
    ensures r.g.debug.dot.Some? && r.g.debug.vector.Some?
    ensures r.g == f.g.(debug := r.g.debug)
  {
    var (dot, s1) :=
      if f.g.debug.dot.Some? then (f.g.debug.dot.value, f.scene)
      else var a := AddPawn(f.scene, DebugPawn(false, DOT_COLOUR)); (a.id, a.scene);
    var (vector, s2) :=
      if f.g.debug.vector.Some? then (f.g.debug.vector.value, s1)
      else var a := AddPawn(s1, DebugPawn(true, VECTOR_COLOUR)); (a.id, a.scene);
    Frame(f.g.(debug := DebugPawns(Some(dot), Some(vector))), s2)
  }

  /** The first setup adds the two debug pawns; any later one changes
      nothing. */
  lemma SetupDebugOnce(f: Frame)
    ensures f.g.debug.dot.None? && f.g.debug.vector.None? ==>
      var r := SetupDebug(f);
      && r.scene.nextPawn == f.scene.nextPawn + 2
      && r.scene.pawns == f.scene.pawns[f.scene.nextPawn := DebugPawn(false, DOT_COLOUR)][f.scene.nextPawn + 1 := DebugPawn(true, VECTOR_COLOUR)]
      && r.g.debug == DebugPawns(Some(f.scene.nextPawn), Some(f.scene.nextPawn + 1))
    ensures SetupDebug(SetupDebug(f)) == SetupDebug(f)
  {
  }

  /* ---------------- particles ---------------- */

  /** One particle emitter: a new one looks its mesh up (which may throw)
      and gets a Particles pawn. */
  function ParticleStep(f: Frame, e: Entity, meshId: ResourceId): (r: Outcome)
    ensures r.frame.g == f.g.(particles := r.frame.g.particles)
    ensures r.error.Some? <==> e !in f.g.particles && meshId !in f.g.resources
    ensures r.error.None? ==> r.frame.g.particles.Keys == f.g.particles.Keys + {e}
    ensures forall x :: x in f.g.particles ==> x in r.frame.g.particles && r.frame.g.particles[x] == f.g.particles[x]
  {
    if e in f.g.particles then Outcome(f, None)
    else
      match GetResource(f.g.resources, meshId)
      case Err(err) => Outcome(f, Some(err))
      case Ok(mesh) =>
        var added := AddPawn(f.scene, ParticlesPawn(e, mesh.obj));
        Outcome(Frame(f.g.(particles := f.g.particles[e := added.id]), added.scene), None)
  }

  function ParticleLoop(f: Frame, w: World, es: seq<Entity>): (r: Outcome)
    requires forall i :: 0 <= i < |es| ==> es[i] in w.components && Matches(ParticlesQuery, w.components[es[i]])
    ensures r.frame.g == f.g.(particles := r.frame.g.particles)
    decreases |es|
  {
    if es == [] then Outcome(f, None)
    else
      assert Matches(ParticlesQuery, w.components[es[0]]);
      var step := ParticleStep(f, es[0], w.components[es[0]].particlesMeshId.value);
      if step.error.Some? then step else ParticleLoop(step.frame, w, es[1..])
  }

  /** The pawns of tracked emitters outside `seen`. */
  function StalePawns(particles: map<Entity, PawnId>, seen: set<Entity>): set<PawnId> {
    set x | x in particles && x !in seen :: particles[x]
  }

  /** Every unseen emitter is untracked and its pawn removed. */
  function RemoveStaleParticles(f: Frame, seen: set<Entity>): (r: Frame)
    ensures r.g == f.g.(particles := r.g.particles)
    ensures forall x :: x in r.g.particles <==> x in f.g.particles && x in seen
    ensures forall x :: x in r.g.particles ==> r.g.particles[x] == f.g.particles[x]
  {
    Frame(f.g.(particles := map x | x in f.g.particles && x in seen :: f.g.particles[x]),
          RemovePawnSet(f.scene, StalePawns(f.g.particles, seen)))
  }

  /** `updateParticles`. */
  function UpdateParticles(f: Frame, w: World): (r: Outcome)
    requires WorldValid(w)
    ensures r.frame.g == f.g.(particles := r.frame.g.particles)
  {
    var es := Entities(ParticlesQuery, w);
    var looped := ParticleLoop(f, w, es);
    if looped.error.Some? then looped
    else Outcome(RemoveStaleParticles(looped.frame, Elements(es)), None)
  }

  /** Each tracked emitter's pawn is a live Particles pawn for that
      emitter, so distinct emitters hold distinct pawns. */
  ghost predicate ParticlesValid(f: Frame) {
    && Scenes.Valid(f.scene)
    && forall x :: x in f.g.particles ==>
         f.g.particles[x] in f.scene.pawns
         && f.scene.pawns[f.g.particles[x]].ParticlesPawn?
         && f.scene.pawns[f.g.particles[x]].entity == x
  }

  lemma ParticleStepKeepsValid(f: Frame, e: Entity, meshId: ResourceId)
    requires ParticlesValid(f)
    ensures ParticlesValid(ParticleStep(f, e, meshId).frame)
  {
  }

  lemma {:induction false} ParticleLoopTracks(f: Frame, w: World, es: seq<Entity>)
    requires forall i :: 0 <= i < |es| ==> es[i] in w.components && Matches(ParticlesQuery, w.components[es[i]])
    requires ParticlesValid(f)
    ensures var r := ParticleLoop(f, w, es);
      && ParticlesValid(r.frame)
      && (forall x :: x in f.g.particles ==> x in r.frame.g.particles && r.frame.g.particles[x] == f.g.particles[x])
      && (r.error.None? ==> forall x :: x in r.frame.g.particles <==> x in f.g.particles || x in es)
    decreases |es|
  {
    if es != [] {
      assert Matches(ParticlesQuery, w.components[es[0]]);
      var step := ParticleStep(f, es[0], w.components[es[0]].particlesMeshId.value);
      ParticleStepKeepsValid(f, es[0], w.components[es[0]].particlesMeshId.value);
      if step.error.None? {
        ParticleLoopTracks(step.frame, w, es[1..]);
        assert forall x :: x in es <==> x == es[0] || x in es[1..];
      }
    }
  }

  /** After a completed `updateParticles` the tracked emitters are exactly
      the entities the query returned; an unseen emitter's pawn has left
      the Scene, while every seen emitter keeps its live pawn. */
  lemma UpdateParticlesDiff(f: Frame, w: World)
    requires WorldValid(w) && ParticlesValid(f)
    ensures var r := UpdateParticles(f, w);
      && ParticlesValid(r.frame)
      && (r.error.None? ==> forall x :: x in r.frame.g.particles <==> x in w.components && Matches(ParticlesQuery, w.components[x]))
      && (r.error.None? ==> forall x :: x in f.g.particles && x !in r.frame.g.particles ==> f.g.particles[x] !in r.frame.scene.pawns)
  {
    var es := Entities(ParticlesQuery, w);
    ParticleLoopTracks(f, w, es);
    var looped := ParticleLoop(f, w, es);
    if looped.error.None? {
      var r := RemoveStaleParticles(looped.frame, Elements(es));
      var stale := StalePawns(looped.frame.g.particles, Elements(es));
      forall x | x in r.g.particles
        ensures r.g.particles[x] in r.scene.pawns
      {
        forall y | y in looped.frame.g.particles && y !in Elements(es)
          ensures looped.frame.g.particles[y] != r.g.particles[x]
        {
          assert looped.frame.scene.pawns[looped.frame.g.particles[y]].entity == y;
        }
        assert r.g.particles[x] !in stale;
      }
      forall x | x in f.g.particles && x !in r.g.particles
        ensures f.g.particles[x] !in r.scene.pawns
      {
        assert f.g.particles[x] in stale;
      }
      forall x
        ensures x in r.g.particles <==> x in w.components && Matches(ParticlesQuery, w.components[x])
      {
        assert x in Elements(es) <==> x in es;
      }
    }
  }

  /** A second `updateParticles` over an unchanged World changes nothing. */
  lemma UpdateParticlesIdempotent(f: Frame, w: World)
    requires WorldValid(w) && ParticlesValid(f)
    ensures var r1 := UpdateParticles(f, w);
      r1.error.None? ==> UpdateParticles(r1.frame, w) == r1
  {
    var es := Entities(ParticlesQuery, w);
    var r1 := UpdateParticles(f, w);
    if r1.error.None? {
      UpdateParticlesDiff(f, w);
      var f1 := r1.frame;
      forall i | 0 <= i < |es|
        ensures es[i] in f1.g.particles
      {
        var x := es[i];
        assert x in es;
        assert x in f1.g.particles <==> x in w.components && Matches(ParticlesQuery, w.components[x]);
      }
      ParticleLoopAllTracked(f1, w, es);
      assert StalePawns(f1.g.particles, Elements(es)) == {};
      var r := RemoveStaleParticles(f1, Elements(es));
      assert r.g.particles == f1.g.particles;
      assert r.scene.pawns == f1.scene.pawns;
    }
  }

  /** Over emitters that are all tracked the loop does nothing. */
  lemma {:induction false} ParticleLoopAllTracked(f: Frame, w: World, es: seq<Entity>)
    requires forall i :: 0 <= i < |es| ==> es[i] in w.components && Matches(ParticlesQuery, w.components[es[i]])
    requires forall i :: 0 <= i < |es| ==> es[i] in f.g.particles
    ensures ParticleLoop(f, w, es) == Outcome(f, None)
    decreases |es|
  {
    if es != [] {
      assert Matches(ParticlesQuery, w.components[es[0]]);
      ParticleLoopAllTracked(f, w, es[1..]);
    }
  }

  /* ---------------- decor ---------------- */

  /** The terrain whose seed the decor uses: that of the first terrain
      entity. With no terrain entity, or when that entity is 0 (which the
      source's truthiness test rejects too), the pass returns at once. */
  function DecorTerrain(w: World): (r: Option<TerrainComponent>)
    requires WorldValid(w)
    ensures r.Some? ==> exists x :: x in w.components && w.components[x].terrain == Some(r.value)
    ensures (forall x :: x in w.components ==> w.components[x].terrain.None?) ==> r.None?
  {
    var ts := Entities(TerrainQuery, w);
    if ts == [] || ts[0] == 0 then None
    else
      assert ts[0] in ts;
      Some(w.components[ts[0]].terrain.value)
  }

  /** The material a new decor pawn ends up with: the component's, or
      (None) the DecorMesh's own. */
  function DecorMaterial(resources: map<ResourceId, Resource>, mat: Option<MaterialComponent>): Result<Option<MaterialRef>, MissingResource> {
    match mat
    case None => Ok(None)
    case Some(comp) =>
      match MaterialFor(resources, comp)
      case Err(err) => Err(err)
      case Ok(m) => Ok(Some(m))
  }

  /** One decor entity. A new one looks its mesh up (which may throw), gets
      a Decor pawn, and only then resolves its material; if that throws,
      the pawn stays in the Scene but the entity is not tracked. */
  function DecorStep(f: Frame, e: Entity, meshId: ResourceId, mat: Option<MaterialComponent>, seed: int): (r: Outcome)
    ensures r.frame.g == f.g.(decors := r.frame.g.decors)
    ensures e in f.g.decors ==> r == Outcome(f, None)
    ensures r.error.None? ==> r.frame.g.decors.Keys == f.g.decors.Keys + {e}
    ensures r.error.Some? ==> r.frame.g.decors == f.g.decors
    ensures forall x :: x in f.g.decors ==> x in r.frame.g.decors && r.frame.g.decors[x] == f.g.decors[x]
    ensures e !in f.g.decors && meshId in f.g.resources ==>
      && var p := f.scene.nextPawn;
      && r.frame.scene.nextPawn == p + 1
      && p in r.frame.scene.pawns
      && var info := r.frame.scene.pawns[p];
      && info.DecorPawn? && info.entity == e && info.meshObj == f.g.resources[meshId].obj && info.terrainSeed == seed
      && (r.error.Some? ==> info.decorMaterial.None?)
      && (r.error.None? ==> r.frame.g.decors[e] == p)
      && (forall q :: q in f.scene.pawns && q != p ==> q in r.frame.scene.pawns && r.frame.scene.pawns[q] == f.scene.pawns[q])
  {
    if e in f.g.decors then Outcome(f, None)
    else
      match GetResource(f.g.resources, meshId)
      case Err(err) => Outcome(f, Some(err))
      case Ok(mesh) =>
        match DecorMaterial(f.g.resources, mat)
        case Err(err) =>
          var added := AddPawn(f.scene, DecorPawn(e, mesh.obj, seed, None));
          Outcome(Frame(f.g, added.scene), Some(err))
        case Ok(m) =>
          var added := AddPawn(f.scene, DecorPawn(e, mesh.obj, seed, m));
          Outcome(Frame(f.g.(decors := f.g.decors[e := added.id]), added.scene), None)
  }

  function DecorLoop(f: Frame, w: World, es: seq<Entity>, seed: int): (r: Outcome)
    requires forall i :: 0 <= i < |es| ==> es[i] in w.components && Matches(DecorQuery, w.components[es[i]])
    ensures r.frame.g == f.g.(decors := r.frame.g.decors)
    decreases |es|
  {
    if es == [] then Outcome(f, None)
    else
      var c := w.components[es[0]];
      assert Matches(DecorQuery, c);
      var step := DecorStep(f, es[0], c.decorMeshId.value, c.material, seed);
      if step.error.Some? then step else DecorLoop(step.frame, w, es[1..], seed)
  }

  /** `updateDecor`. Decor is never removed. */
  function UpdateDecor(f: Frame, w: World): (r: Outcome)
    requires WorldValid(w)
    ensures r.frame.g == f.g.(decors := r.frame.g.decors)
    ensures (forall x :: x in w.components ==> w.components[x].terrain.None?) ==> r == Outcome(f, None)
  {
    match DecorTerrain(w)
    case None => Outcome(f, None)
    case Some(tc) => DecorLoop(f, w, Entities(DecorQuery, w), tc.terrainSeed)
  }

  lemma {:induction false} DecorLoopTracks(f: Frame, w: World, es: seq<Entity>, seed: int)
    requires forall i :: 0 <= i < |es| ==> es[i] in w.components && Matches(DecorQuery, w.components[es[i]])
    ensures var r := DecorLoop(f, w, es, seed);
      && (forall x :: x in f.g.decors ==> x in r.frame.g.decors && r.frame.g.decors[x] == f.g.decors[x])
      && (r.error.None? ==> forall x :: x in r.frame.g.decors <==> x in f.g.decors || x in es)
    decreases |es|
  {
    if es != [] {
      var c := w.components[es[0]];
      assert Matches(DecorQuery, c);
      var step := DecorStep(f, es[0], c.decorMeshId.value, c.material, seed);
      if step.error.None? {
        DecorLoopTracks(step.frame, w, es[1..], seed);
        assert forall x :: x in es <==> x == es[0] || x in es[1..];
      }
    }
  }

  /** Decor entities are tracked from the pass that first completes with
      them, under the pawn they got then, and never dropped; a World with
      decor but no usable terrain entity tracks none. */
  lemma UpdateDecorTracks(f: Frame, w: World)
    requires WorldValid(w)
    ensures var r := UpdateDecor(f, w);
      && (forall x :: x in f.g.decors ==> x in r.frame.g.decors && r.frame.g.decors[x] == f.g.decors[x])
      && (r.error.None? && DecorTerrain(w).Some? ==>
            forall x :: x in r.frame.g.decors <==> x in f.g.decors || (x in w.components && Matches(DecorQuery, w.components[x])))
      && (DecorTerrain(w).None? ==> r.frame == f)
  {
    if DecorTerrain(w).Some? {
      DecorLoopTracks(f, w, Entities(DecorQuery, w), DecorTerrain(w).value.terrainSeed);
    }
  }

  /** A decor entity whose custom material is missing leaves a pawn in
      the Scene without being tracked, so a retry adds a second pawn for
      the same entity. */
  lemma DecorRetryAddsAgain(f: Frame, e: Entity, meshId: ResourceId, comp: MaterialComponent, seed: int)
    requires e !in f.g.decors && meshId in f.g.resources
    requires comp.custom.Some? && comp.custom.value !in f.g.resources
    ensures var first := DecorStep(f, e, meshId, Some(comp), seed);
      var second := DecorStep(first.frame, e, meshId, Some(comp), seed);
      var pawn := DecorPawn(e, f.g.resources[meshId].obj, seed, None);
      && first.error == Some(MissingResource(comp.custom.value))
      && second.error == first.error
      && e !in second.frame.g.decors
      && second.frame.scene.pawns == f.scene.pawns[f.scene.nextPawn := pawn][f.scene.nextPawn + 1 := pawn]
  {
  }

  /* ---------------- terrain ---------------- */

  /** Every terrain entity in the list carries a well-formed component. */
  ghost predicate TerrainEntities(w: World, es: seq<Entity>) {
    forall i :: 0 <= i < |es| ==>
      es[i] in w.components && w.components[es[i]].terrain.Some? && TerrainValid(w.components[es[i]].terrain.value)
  }

  lemma TerrainEntitiesOf(w: World)
    requires WorldValid(w)
    ensures TerrainEntities(w, Entities(TerrainQuery, w))
  {
    var es := Entities(TerrainQuery, w);
    forall i | 0 <= i < |es|
      ensures es[i] in w.components && w.components[es[i]].terrain.Some? && TerrainValid(w.components[es[i]].terrain.value)
    {
      var x := es[i];
      assert x in es;
      assert w.components[x].terrain.Some? ==> TerrainValid(w.components[x].terrain.value);
    }
  }

  /** The entity loop of `updateTerrain`: resolve the material (which may
      throw), then enqueue the entity's chunks and, when nothing at all
      is queued, expire its unrequested ones. Water colour is not
      modelled. */
  function TerrainLoop(f: Frame, w: World, es: seq<Entity>): (r: Outcome)
    requires TerrainEntities(w, es)
    ensures r.frame.g == f.g.(terrain := r.frame.g.terrain)
    ensures TerrainStreaming.Valid(f.g.terrain) ==> TerrainStreaming.Valid(r.frame.g.terrain)
    ensures Scenes.Valid(f.scene) ==> Scenes.Valid(r.frame.scene)
    ensures r.frame.scene.nextPawn == f.scene.nextPawn
    ensures r.frame.scene.cameras == f.scene.cameras && r.frame.scene.light == f.scene.light
    decreases |es|
  {
    if es == [] then Outcome(f, None)
    else
      var c := w.components[es[0]];
      match MaterialOrDefault(f.g.resources, c.material)
      case Err(err) => Outcome(f, Some(err))
      case Ok(m) =>
        var step := TerrainStreaming.TerrainEntityStep(f.g.terrain, f.scene, es[0], c.terrain.value, m);
        TerrainLoop(Frame(f.g.(terrain := step.ts), step.scene), w, es[1..])
  }

  /** `updateTerrain`: the entity loop, then one batch of the queue. */
  function UpdateTerrain(f: Frame, w: World): (r: Outcome)
    requires WorldValid(w) && TerrainStreaming.Valid(f.g.terrain)
    ensures r.frame.g == f.g.(terrain := r.frame.g.terrain)
    ensures r.frame.scene.cameras == f.scene.cameras && r.frame.scene.light == f.scene.light
  {
    var es := Entities(TerrainQuery, w);
    TerrainEntitiesOf(w);
    var looped := TerrainLoop(f, w, es);
    if looped.error.Some? then looped
    else
      var processed := TerrainStreaming.ProcessQueue(looped.frame.g.terrain, looped.frame.scene, TerrainStreaming.DEFAULT_BATCH_SIZE);
      Outcome(Frame(looped.frame.g.(terrain := processed.ts), processed.scene), None)
  }

  /** `updateTerrain` keeps the streaming state well-formed and the Scene's
      pawn ids fresh, and generates at most one batch of chunks, so at most
      DEFAULT_BATCH_SIZE pawns, per frame. */
  lemma UpdateTerrainBounded(f: Frame, w: World)
    requires WorldValid(w) && TerrainStreaming.Valid(f.g.terrain)
    ensures var r := UpdateTerrain(f, w);
      && TerrainStreaming.Valid(r.frame.g.terrain)
      && (Scenes.Valid(f.scene) ==> Scenes.Valid(r.frame.scene))
      && f.scene.nextPawn <= r.frame.scene.nextPawn <= f.scene.nextPawn + TerrainStreaming.DEFAULT_BATCH_SIZE
  {
    var es := Entities(TerrainQuery, w);
    TerrainEntitiesOf(w);
    var looped := TerrainLoop(f, w, es);
    if looped.error.None? {
      TerrainStreaming.ProcessQueueValid(looped.frame.g.terrain, looped.frame.scene, TerrainStreaming.DEFAULT_BATCH_SIZE);
      if Scenes.Valid(f.scene) {
        TerrainStreaming.ProcessQueueKeepsSceneValid(looped.frame.g.terrain, looped.frame.scene, TerrainStreaming.DEFAULT_BATCH_SIZE);
      }
    }
  }
}

=== FILE: world_update.dfy ===
/** `WorldGraphics.update` (src/engine/world_graphics.ts): the passes in
    their fixed order — cameras, lights, meshes, debug, terrain, decor,
    particles — each seeing the state the previous one left. A thrown
    MissingResource ends the frame where it happens, and so does the
    debug pass's TypeError when the first player entity has no velocity:
    the passes after it do not run, and what ran before it stays done.
    Clipping, the last step, only computes floating-point planes and is
    not modelled. */
module WorldUpdate {
  import opened Wrappers
  import opened Resources
  import opened Ecs
  import opened Scenes
  import opened GraphicsState
  import opened MeshPass
  import opened WorldPasses
  import TerrainStreaming

  /** What ends a frame early: a pass's MissingResource, or the TypeError
      `updateDebug` throws when it finds no player velocity. */
  datatype FrameError = PassError(missing: MissingResource) | NoPlayerVelocity

  datatype UpdateOutcome = UpdateOutcome(frame: Frame, error: Option<FrameError>)

  function Lift(o: Outcome): UpdateOutcome {
    UpdateOutcome(o.frame, if o.error.Some? then Some(PassError(o.error.value)) else None)
  }

  /** `updateDebug`'s lookup of the player's velocity: the first entity
      with a PlayerComponent, in World order, must carry a
      VelocityComponent, or reading `.velocity` off `undefined` throws. */
  function PlayerVelocityFound(w: World): (r: bool)
    requires WorldValid(w)
    ensures r ==> exists e :: e in w.components && w.components[e].player && w.components[e].velocity
    ensures (forall e :: e in w.components ==> !w.components[e].player) ==> !r
    ensures ((exists e :: e in w.components && w.components[e].player)
             && (forall e :: e in w.components && w.components[e].player ==> w.components[e].velocity)) ==> r
  {
    var players := Entities(PlayerQuery, w);
    assert forall e :: e in w.components && w.components[e].player ==> e in players by {
      forall e | e in w.components && w.components[e].player
        ensures e in players
      {
        assert Matches(PlayerQuery, w.components[e]);
      }
    }
    if players == [] then false
    else
      var first := players[0];
      assert first in players;
      assert first in w.components && Matches(PlayerQuery, w.components[first]);
      w.components[first].velocity
  }

  /** `update(world, scene)`. */
  function Update(f: Frame, w: World): (r: UpdateOutcome)
    requires WorldValid(w) && TerrainStreaming.Valid(f.g.terrain)
  {
    var meshed := UpdateMeshes(UpdateLights(UpdateCameras(f, w), w), w);
    if meshed.error.Some? then Lift(meshed) else LaterPasses(meshed.frame, w)
  }

  /** The passes after the mesh pass. `updateDebug` sets up its two pawns
      before it looks for the player. */
  function LaterPasses(f: Frame, w: World): (r: UpdateOutcome)
    requires WorldValid(w) && TerrainStreaming.Valid(f.g.terrain)
  {
    var debugged := SetupDebug(f);
    if !PlayerVelocityFound(w) then UpdateOutcome(debugged, Some(NoPlayerVelocity))
    else
      var terrained := UpdateTerrain(debugged, w);
      if terrained.error.Some? then Lift(terrained)
      else
        var decorated := UpdateDecor(terrained.frame, w);
        if decorated.error.Some? then Lift(decorated)
        else Lift(UpdateParticles(decorated.frame, w))
  }

  /** Without a moving player the frame stops in the debug pass, after the
      cameras, lights and meshes and the two debug pawns are set up, with
      terrain, decor and particles exactly as they were before the frame. */
  lemma MissingPlayerStopsLaterPasses(f: Frame, w: World)
    requires WorldValid(w) && TerrainStreaming.Valid(f.g.terrain)
    requires UpdateMeshes(UpdateLights(UpdateCameras(f, w), w), w).error.None?
    requires !PlayerVelocityFound(w)
    ensures var r := Update(f, w);
      && r.error == Some(NoPlayerVelocity)
      && r.frame.g.debug.dot.Some? && r.frame.g.debug.vector.Some?
      && r.frame.g.terrain == f.g.terrain
      && r.frame.g.decors == f.g.decors
      && r.frame.g.particles == f.g.particles
      && (forall x :: x in w.components && Matches(CameraQuery, w.components[x]) ==> x in r.frame.g.cameras)
      && (forall x :: x in w.components && Matches(LightQuery, w.components[x]) ==> x in r.frame.g.lights)
  {
    var cams := UpdateCameras(f, w);
    assert forall x :: x in w.components && Matches(CameraQuery, w.components[x]) ==> x in cams.g.cameras by {
      CameraLoopAdds(f, Entities(CameraQuery, w));
    }
  }

  /** When the mesh pass throws, the cameras and lights are already
      tracked, while the debug pawns, terrain, decor and particles are
      exactly as they were before the frame. */
  lemma MeshErrorStopsLaterPasses(f: Frame, w: World)
    requires WorldValid(w) && TerrainStreaming.Valid(f.g.terrain)
    requires UpdateMeshes(UpdateLights(UpdateCameras(f, w), w), w).error.Some?
    ensures var r := Update(f, w);
      && r.error.Some? && r.error.value.PassError?
      && r.frame.g.debug == f.g.debug
      && r.frame.g.terrain == f.g.terrain
      && r.frame.g.decors == f.g.decors
      && r.frame.g.particles == f.g.particles
      && (forall x :: x in w.components && Matches(CameraQuery, w.components[x]) ==> x in r.frame.g.cameras)
      && (forall x :: x in w.components && Matches(LightQuery, w.components[x]) ==> x in r.frame.g.lights)
  {
    var cams := UpdateCameras(f, w);
    assert forall x :: x in w.components && Matches(CameraQuery, w.components[x]) ==> x in cams.g.cameras by {
      CameraLoopAdds(f, Entities(CameraQuery, w));
    }
  }

  /** The camera loop adds every entity it visits. */
  lemma {:induction false} CameraLoopAdds(f: Frame, es: seq<Entity>)
    ensures forall x :: x in es ==> x in CameraLoop(f, es).g.cameras
    ensures f.g.cameras <= CameraLoop(f, es).g.cameras
    decreases |es|
  {
    if es != [] {
      CameraLoopAdds(CameraStep(f, es[0]), es[1..]);
      assert forall x :: x in es ==> x == es[0] || x in es[1..];
    }
  }

  /** The well-formedness every frame keeps: the Scene's pawn ids are
      fresh, the Scene lists each tracked camera once, and the terrain
      streaming state is consistent. */
  ghost predicate FrameValid(f: Frame) {
    && Scenes.Valid(f.scene)
    && CamerasListed(f)
    && TerrainStreaming.Valid(f.g.terrain)
  }

  /** `update` keeps FrameValid, whether or not a pass throws. */
  lemma UpdateKeepsValid(f: Frame, w: World)
    requires WorldValid(w) && FrameValid(f)
    ensures FrameValid(Update(f, w).frame)
  {
    var cams := UpdateCameras(f, w);
    UpdateCamerasTracks(f, w);
    var lit := UpdateLights(cams, w);
    assert FrameValid(lit);
    var meshed := UpdateMeshes(lit, w);
    MeshesKeepScene(lit, w);
    if meshed.error.None? {
      LaterPassesKeepValid(meshed.frame, w);
    }
  }

  lemma LaterPassesKeepValid(f: Frame, w: World)
    requires WorldValid(w) && FrameValid(f)
    ensures FrameValid(LaterPasses(f, w).frame)
  {
    var debugged := SetupDebug(f);
    assert FrameValid(debugged);
    var terrained := UpdateTerrain(debugged, w);
    UpdateTerrainBounded(debugged, w);
    if PlayerVelocityFound(w) && terrained.error.None? {
      var decorated := UpdateDecor(terrained.frame, w);
      DecorKeepsScene(terrained.frame, w);
      if decorated.error.None? {
        ParticlesKeepScene(decorated.frame, w);
      }
    }
  }

  /** The mesh pass only adds pawns, and leaves the Scene's cameras. */
  lemma MeshesKeepScene(f: Frame, w: World)
    requires WorldValid(w) && FrameValid(f)
    ensures FrameValid(UpdateMeshes(f, w).frame)
  {
    var es := Entities(MeshQuery, w);
    MeshLoopKeepsScene(f, w, es);
  }

  lemma {:induction false} MeshLoopKeepsScene(f: Frame, w: World, es: seq<Entity>)
    requires forall i :: 0 <= i < |es| ==> es[i] in w.components && Matches(MeshQuery, w.components[es[i]])
    requires FrameValid(f)
    ensures FrameValid(MeshLoop(f, w, es).frame)
    decreases |es|
  {
    if es != [] {
      var c := w.components[es[0]];
      assert Matches(MeshQuery, c);
      MeshStepKeepsScene(f, es[0], c);
      var step := MeshStep(f, es[0], c);
      if step.error.None? {
        MeshLoopKeepsScene(step.frame, w, es[1..]);
      }
    }
  }

  lemma MeshStepKeepsScene(f: Frame, e: Entity, c: Components)
    requires c.meshId.Some? && c.transform.Some? && FrameValid(f)
    ensures FrameValid(MeshStep(f, e, c).frame)
  {
    if e !in f.g.meshes {
      var created := CreateMesh(f, e, c.meshId.value, c.transform.value, c.material);
      if created.Ok? {
        var obj := f.g.resources[c.meshId.value].obj;
        var m := MaterialOrDefault(f.g.resources, c.material).value;
        assert created.value.scene == MeshPawn(f, obj, m).1;
      }
    }
  }

  lemma DecorKeepsScene(f: Frame, w: World)
    requires WorldValid(w) && FrameValid(f)
    ensures FrameValid(UpdateDecor(f, w).frame)
  {
    if DecorTerrain(w).Some? {
      DecorLoopKeepsScene(f, w, Entities(DecorQuery, w), DecorTerrain(w).value.terrainSeed);
    }
  }

  lemma {:induction false} DecorLoopKeepsScene(f: Frame, w: World, es: seq<Entity>, seed: int)
    requires forall i :: 0 <= i < |es| ==> es[i] in w.components && Matches(DecorQuery, w.components[es[i]])
    requires FrameValid(f)
    ensures FrameValid(DecorLoop(f, w, es, seed).frame)
    decreases |es|
  {
    if es != [] {
      var c := w.components[es[0]];
      assert Matches(DecorQuery, c);
      var step := DecorStep(f, es[0], c.decorMeshId.value, c.material, seed);
      assert FrameValid(step.frame);
      if step.error.None? {
        DecorLoopKeepsScene(step.frame, w, es[1..], seed);
      }
    }
  }

  lemma ParticlesKeepScene(f: Frame, w: World)
    requires WorldValid(w) && FrameValid(f)
    ensures FrameValid(UpdateParticles(f, w).frame)
  {
    var es := Entities(ParticlesQuery, w);
    ParticleLoopKeepsScene(f, w, es);
  }

  lemma {:induction false} ParticleLoopKeepsScene(f: Frame, w: World, es: seq<Entity>)
    requires forall i :: 0 <= i < |es| ==> es[i] in w.components && Matches(ParticlesQuery, w.components[es[i]])
    requires FrameValid(f)
    ensures FrameValid(ParticleLoop(f, w, es).frame)
    ensures ParticleLoop(f, w, es).error.None? ==> FrameValid(RemoveStaleParticles(ParticleLoop(f, w, es).frame, Elements(es)))
    decreases |es|
  {
    if es != [] {
      var c := w.components[es[0]];
      assert Matches(ParticlesQuery, c);
      var step := ParticleStep(f, es[0], c.particlesMeshId.value);
      assert FrameValid(step.frame);
      if step.error.None? {
        ParticleLoopKeepsScene(step.frame, w, es[1..]);
        assert Elements(es) == {es[0]} + Elements(es[1..]);
      }
    }
  }
}

=== FILE: wrappers.dfy ===
/** Option and Result, the two failure-carrying datatypes the model uses in
    place of `undefined` and thrown errors. */
module Wrappers {

  datatype Option<+T> = None | Some(value: T) {

    /** The value, or `default` when there is none (JavaScript's `x ?? default`). */
    function GetOr(default: T): T {
      match this
      case Some(v) => v
      case None => default
    }
  }

  datatype Result<+T, +E> = Ok(value: T) | Err(error: E)
}
